=== FILE: README.md ===
# Chat-to-ledger command engine: a Dafny model

This project models the core of a chat bot that turns free-text messages
about money ("coffee 500", "fix it, it was 300") into rows of a ledger
sheet. A language model reads each message and returns a batch of
candidate operations; the engine decides what to do with that batch. It
answers admin commands, runs onboarding for new users, keeps a short
dialogue history, merges clarification answers into the pending partial
commands, routes settings meta-commands, compensates corrections with a
negated cancel row, and learns standing instructions from yes/no answers.

The engine is modelled as pure functions over immutable values:

- a profile store (`ContextService.Store`, a map from user id to
  `Profile.UserContext`) stands for the key-value table;
- one turn, `Orchestrator.ProcessCommand`, takes the store, the request,
  the language model's decoded batch (or the exception its call raised)
  and the onboarding model's reply. It returns the store after the turn,
  the reply, and the ledger rows dispatched, in order;
- Java `null` is `Option`, and the places where the source would throw a
  `NullPointerException` give `Failure(Fault)`. A whole turn that throws
  gives `Failure(Orchestrator.Aborted)`, which also carries the store as
  the turn left it, because the learning check may already have saved.

The modules follow the source's services:

- `JavaStrings`: the `String` operations the engine uses.
- `Commands`, `Records`, `Replies`, `ConversationMessages`, `Profile`: the
  data types.
- `CommandParser`: the interpreter wrapper.
- `Conversation`: history and the new-command test.
- `ContextService`: the store and the settings summary.
- `Onboarding`, `PendingMerge`, `Outcomes`, `MetaCommands`, `Learning`,
  `AdminCommands`, `LinkedUsers`, `Orchestrator`: the stages of
  `processCommand`.

Reply texts that the source builds with `String.format` over
floating-point amounts are kept as opaque segments (`Replies.Segment`). A
reply is therefore a sequence of literal text and these segments, and the
model can say exactly where each piece of text ends up.

Three behaviours of the code that the model keeps:

- `needsOnboarding` returns `false` for a COMPLETED profile even when it
  has no accounts or funds.
- The learning yes/no check runs after the new-command reset of the
  history and pending commands, not before it.
- A learning "yes" saves the instruction into a profile read fresh from
  the store. Edits made earlier in the turn to the in-memory profile
  (the reset of history and pending commands) are therefore not saved on
  that path.

The `UserContext` class in the repository declares only six fields. The
services use many more: accounts, funds, linked users, the ledger,
history, pending commands, the pending suggestion, onboarding state and
debug mode. The model's `UserContext` carries all the fields the services
use. Its ledger and history operations (`addOperation`,
`popLastOperation`, `trimHistory`, `isAwaitingClarification`,
`addAccount`, `addFund`, `removeInstruction(int)`) are not defined in the
visible class. The model gives them the behaviour their callers rely on. No cap on the
ledger is visible in the code (the only visible cap is the history limit
of 20 at `ConversationService.java:20`), so the model's ledger is
unbounded.
`isAwaitingClarification` is read from the history: the newest assistant
turn was a clarification question.

In the same way, the `ChatResponse` class declares only the chat id,
message, success flag and parsed command. The service's builder calls
also set `parsedCommands` and `operationsCount` (`ChatCommandService.java`
lines 318, 664-666 and 687-689), so `Replies.ChatResponse` carries those
two fields as well.

## Model

| member | source | states |
|---|---|---|
| JavaStrings.Trim | src/main/java/com/github/dimka9910/sheets/ai/services/ChatCommandService.java:58 | the result has no character at or below U+0020 at either end, is no longer than the input, and a string already trimmed is returned unchanged |
| JavaStrings.TrimPadded | src/main/java/com/github/dimka9910/sheets/ai/services/ConversationService.java:57 | trimming ignores any run of trimmable characters added on either side of the text |
| JavaStrings.ToUpper | src/main/java/com/github/dimka9910/sheets/ai/services/ChatCommandService.java:447 | upper-casing keeps the length and maps each character on its own |
| JavaStrings.ToLower | src/main/java/com/github/dimka9910/sheets/ai/services/ChatCommandService.java:301 | lower-casing keeps the length and maps each character on its own |
| JavaStrings.ToUpperIdempotent | src/main/java/com/github/dimka9910/sheets/ai/services/ChatCommandService.java:460 | upper-casing an upper-cased name changes nothing |
| JavaStrings.Utf16Length | src/main/java/com/github/dimka9910/sheets/ai/services/ConversationService.java:61 | `length()` counts UTF-16 units: one or two per character, and exactly one per character when none lies beyond U+FFFF |
| JavaStrings.CollapseSpaces | src/main/java/com/github/dimka9910/sheets/ai/services/ChatCommandService.java:460 | after replacing each run of `\s` by `_` no `\s` character is left |
| JavaStrings.SplitLengthOfWord | src/main/java/com/github/dimka9910/sheets/ai/services/ConversationService.java:61 | a non-empty text without `\s` splits into exactly one word |
| JavaStrings.Join | src/main/java/com/github/dimka9910/sheets/ai/services/UserContextService.java:202 | joining no items gives the empty text and joining one item gives that item |
| JavaStrings.LastIndexOf | src/main/java/com/github/dimka9910/sheets/ai/services/ChatCommandService.java:860-861 | the index is -1 or a position holding the character, and no later position holds it |
| JavaStrings.ParseInt | src/main/java/com/github/dimka9910/sheets/ai/services/ChatCommandService.java:509 | a parsed number lies in the 32-bit `int` range and comes from a non-empty text |
| JavaStrings.NatToString | src/main/java/com/github/dimka9910/sheets/ai/services/UserContextService.java:219 | an appended index prints as a non-empty run of digits without a leading zero |
| JavaStrings.ParseIntOfNatToString | src/main/java/com/github/dimka9910/sheets/ai/services/ChatCommandService.java:509 | parsing the printed form of an index within `int` range gives the index back |
| Commands.OperationTypeNameRoundTrip | src/main/java/com/github/dimka9910/sheets/ai/dto/OperationTypeEnum.java:3-9 | `valueOf` accepts exactly the names `name()` produces, and maps each back to its kind |
| Commands.HasAnyIffNotEmpty | src/main/java/com/github/dimka9910/sheets/ai/dto/ParsedCommandList.java:76-78 | a defaults request holds something exactly when it is not the all-null request |
| Commands.IsPresentIffNamed | src/main/java/com/github/dimka9910/sheets/ai/dto/ParsedCommandList.java:108-110 | a meta-command descriptor is present exactly when its type is a non-empty text |
| Commands.Single | src/main/java/com/github/dimka9910/sheets/ai/dto/ParsedCommandList.java:116-123 | `single` builds a batch holding just that command, carrying no suggestion, defaults, correction or meta-command |
| Commands.Size | src/main/java/com/github/dimka9910/sheets/ai/dto/ParsedCommandList.java:142-144 | the size is the number of commands, a null list counting as none |
| Commands.GetFirst | src/main/java/com/github/dimka9910/sheets/ai/dto/ParsedCommandList.java:135-137 | the first command exists exactly when the batch is non-empty, and is the head of the list |
| Commands.AccessorsAgree | src/main/java/com/github/dimka9910/sheets/ai/dto/ParsedCommandList.java:128-144 | `isSingle` holds exactly when the size is one; a null list has size 0 and no first command |
| Commands.SingleIsSingle | src/main/java/com/github/dimka9910/sheets/ai/dto/ParsedCommandList.java:116-123 | a `single` batch is single, of size one, headed by its command, with that command's understood, clarification and error |
| Wrappers.Prefer | src/main/java/com/github/dimka9910/sheets/ai/services/ChatCommandService.java:809-817 | the given value wins when present; otherwise the current value is kept |
| Records.FromParsedCommand | src/main/java/com/github/dimka9910/sheets/ai/dto/SheetsRecordDTO.java:37-50 | a ledger row carries the given user name and the kind's name, is not an undo row and has no remains |
| Records.RecordRoundTrip | src/main/java/com/github/dimka9910/sheets/ai/dto/SheetsRecordDTO.java:37-50 | reading a row back as a command restores every payload field of the command it was built from |
| Records.RecordDeterminedByPayload | src/main/java/com/github/dimka9910/sheets/ai/dto/SheetsRecordDTO.java:37-50 | two commands give the same row for a user exactly when their payload fields agree |
| Replies.Reply | src/main/java/com/github/dimka9910/sheets/ai/services/ChatCommandService.java:364-368 | a reply built from chat id, flag and message has exactly those, no operations and no parsed commands |
| Replies.AppendMessage | src/main/java/com/github/dimka9910/sheets/ai/services/ChatCommandService.java:190-191 | appending a suffix extends the message by that suffix and changes nothing else of the reply |
| ConversationMessages.UserMessage | src/main/java/com/github/dimka9910/sheets/ai/dto/ConversationMessage.java:30-36 | a user turn carries the text, no parsed result and no clarification flag |
| ConversationMessages.AssistantMessage | src/main/java/com/github/dimka9910/sheets/ai/dto/ConversationMessage.java:38-46 | an assistant turn carries the text, the parsed command and the clarification flag given |
| ConversationMessages.FactoriesDiffer | src/main/java/com/github/dimka9910/sheets/ai/dto/ConversationMessage.java:30-46 | no user turn equals an assistant turn, and user turns are equal exactly when their texts are |
| CommandParser.JsonFenceIsFence | src/main/java/com/github/dimka9910/sheets/ai/services/AICommandParser.java:243-247 | a text opening with the JSON fence also opens with the plain fence |
| CommandParser.StripFences | src/main/java/com/github/dimka9910/sheets/ai/services/AICommandParser.java:243-251 | a text with no fence at either end passes through unchanged |
| CommandParser.CleanJsonResponse | src/main/java/com/github/dimka9910/sheets/ai/services/AICommandParser.java:240-254 | the cleaned text is trimmed, and an unfenced reply comes back as its trimmed self |
| CommandParser.StripFencesOfBlock | src/main/java/com/github/dimka9910/sheets/ai/services/AICommandParser.java:243-251 | stripping the fences of a JSON-fenced block gives exactly the text inside |
| CommandParser.BlockIsTrimmed | src/main/java/com/github/dimka9910/sheets/ai/services/AICommandParser.java:241 | a fenced block has no trimmable character at either end |
| CommandParser.CleanJsonOfFencedBlock | src/main/java/com/github/dimka9910/sheets/ai/services/AICommandParser.java:240-254 | a JSON-fenced block with blank padding anywhere around the fences cleans to the trimmed JSON inside |
| CommandParser.FailureBatch | src/main/java/com/github/dimka9910/sheets/ai/services/AICommandParser.java:87-95 | a failed call yields an empty, not-understood batch whose error is "Error: " and the exception message and whose clarification asks to retry |
| CommandParser.ParseMultiple | src/main/java/com/github/dimka9910/sheets/ai/services/AICommandParser.java:64-96 | a decoded batch is returned as decoded; any failure gives a not-understood empty batch asking to retry |
| CommandParser.LegacyParse | src/main/java/com/github/dimka9910/sheets/ai/services/AICommandParser.java:171-194 | the first command takes the batch's understood flag and, when set, its clarification and error; an empty batch gives an UNKNOWN command with the batch's status |
| CommandParser.LegacyParseOfSingle | src/main/java/com/github/dimka9910/sheets/ai/services/AICommandParser.java:171-186 | wrapping a command with `single` and reading it back with the legacy parse gives the same command |
| CommandParser.LegacyParseOfFailure | src/main/java/com/github/dimka9910/sheets/ai/services/AICommandParser.java:188-193 | a failed call read through the legacy parse is an UNKNOWN, not-understood command asking to retry |
| Profile.NewContext | src/main/java/com/github/dimka9910/sheets/ai/services/UserContextService.java:44-46 | a fresh profile carries the id, empty (not null) lists and an empty ledger, history and pending set |
| Profile.RemoveFirst | src/main/java/com/github/dimka9910/sheets/ai/dto/UserContext.java:47-51 | removing an element drops its first occurrence only and leaves a list without it unchanged |
| Profile.AddInstruction | src/main/java/com/github/dimka9910/sheets/ai/dto/UserContext.java:40-45 | the instruction is appended (a null list becoming a one-item list) and nothing else changes |
| Profile.RemoveInstruction | src/main/java/com/github/dimka9910/sheets/ai/dto/UserContext.java:47-51 | the first equal instruction is removed; a null list or an absent instruction leaves the profile as it was |
| Profile.RemoveInstructionAt | src/main/java/com/github/dimka9910/sheets/ai/services/ChatCommandService.java:511-513 | removing the instruction at an index inside the list keeps the others in order and nothing else changes |
| Profile.ClearInstructions | src/main/java/com/github/dimka9910/sheets/ai/dto/UserContext.java:53-57 | the list becomes empty, a null list stays null, and nothing else changes |
| Profile.AddThenRemoveInstruction | src/main/java/com/github/dimka9910/sheets/ai/dto/UserContext.java:40-51 | removing a freshly added instruction that was not there before restores the profile |
| Profile.AddThenRemoveLastIndex | src/main/java/com/github/dimka9910/sheets/ai/dto/UserContext.java:40-45 | removing the last index right after an append restores the profile |
| Profile.AddAccount | src/main/java/com/github/dimka9910/sheets/ai/services/ChatCommandService.java:458-462 | the account is appended (a null list becoming a one-item list) and nothing else changes |
| Profile.AddFund | src/main/java/com/github/dimka9910/sheets/ai/services/ChatCommandService.java:470-474 | the fund is appended (a null list becoming a one-item list) and nothing else changes |
| Profile.AddOperation | src/main/java/com/github/dimka9910/sheets/ai/services/ChatCommandService.java:183 | the operation becomes the newest ledger entry and nothing else changes |
| Profile.GetLastOperation | src/main/java/com/github/dimka9910/sheets/ai/services/ChatCommandService.java:654 | the newest ledger entry, present exactly when there is something to undo |
| Profile.PopLastOperation | src/main/java/com/github/dimka9910/sheets/ai/services/ChatCommandService.java:172 | returns the newest entry and the profile without it; an empty ledger gives null and an unchanged profile |
| Profile.PushThenPop | src/main/java/com/github/dimka9910/sheets/ai/services/ChatCommandService.java:172-184 | popping right after recording an operation gives back that operation and the profile as before |
| Profile.AppendHistory | src/main/java/com/github/dimka9910/sheets/ai/services/ConversationService.java:68 | the turn is appended to the history and nothing else changes |
| Profile.TrimHistory | src/main/java/com/github/dimka9910/sheets/ai/services/ConversationService.java:69 | the newest turns are kept up to the bound, dropping from the front, and nothing else changes |
| Profile.ClearHistory | src/main/java/com/github/dimka9910/sheets/ai/services/ConversationService.java:75-78 | the history becomes empty and nothing else changes |
| Conversation.LastAssistantTurn | src/main/java/com/github/dimka9910/sheets/ai/services/ConversationService.java:39 | the newest assistant turn of the history, absent exactly when every turn is the user's |
| Conversation.IsNewCommand | src/main/java/com/github/dimka9910/sheets/ai/services/ConversationService.java:28-50 | an empty history always starts a new command; otherwise the message continues the dialogue exactly when a clarification is awaited and it looks like an answer |
| Conversation.LooksLikeAnswerIgnoresTrim | src/main/java/com/github/dimka9910/sheets/ai/services/ConversationService.java:56-62 | the short-answer test gives the same verdict on the message and on its trimmed form |
| Conversation.LooksLikeAnswerOfWord | src/main/java/com/github/dimka9910/sheets/ai/services/ConversationService.java:56-62 | a trimmed single word is an answer exactly when its UTF-16 length is under 50, so an emoji counts twice |
| Conversation.ShortAnswerContinues | src/main/java/com/github/dimka9910/sheets/ai/services/ConversationService.java:38-44 | "150" after a clarification question continues the dialogue, and starts a new command when the history is empty |
| Conversation.AddToHistory | src/main/java/com/github/dimka9910/sheets/ai/services/ConversationService.java:67-70 | the turn becomes the newest, the history is the newest twenty turns of the old history plus it, and nothing else changes |
| Conversation.AddToHistoryBounded | src/main/java/com/github/dimka9910/sheets/ai/services/ConversationService.java:20 | after any append the history holds at most twenty turns, and two appends leave both turns last in order |
| Conversation.ClearConversation | src/main/java/com/github/dimka9910/sheets/ai/services/ConversationService.java:75-78 | the history is emptied, so no clarification is awaited, and nothing else changes |
| Conversation.BuildHistoryContext | src/main/java/com/github/dimka9910/sheets/ai/services/ConversationService.java:83-98 | an empty history renders as nothing; otherwise the rendering opens with the header |
| Conversation.RoleLabels | src/main/java/com/github/dimka9910/sheets/ai/services/ConversationService.java:93 | user turns are labelled "User" and assistant turns "Assistant" |
| Conversation.HistoryLinesAppend | src/main/java/com/github/dimka9910/sheets/ai/services/ConversationService.java:92-95 | a new turn adds exactly its own line at the end of the rendered history |
| ContextService.GetContext | src/main/java/com/github/dimka9910/sheets/ai/services/UserContextService.java:32-47 | a stored profile is returned as stored; an unknown id gives a fresh profile with that id |
| ContextService.SaveContext | src/main/java/com/github/dimka9910/sheets/ai/services/UserContextService.java:60-63 | the profile is stored under its own id and every other profile is kept |
| ContextService.DeleteUser | src/main/java/com/github/dimka9910/sheets/ai/services/UserContextService.java:168-171 | the user is gone and every other profile is kept |
| ContextService.GetAfterSave | src/main/java/com/github/dimka9910/sheets/ai/services/UserContextService.java:32-63 | a saved profile is what the next read of its id returns |
| ContextService.GetAfterDelete | src/main/java/com/github/dimka9910/sheets/ai/services/UserContextService.java:44-46 | after a reset the user reads back as a fresh profile |
| ContextService.KeyedReads | src/main/java/com/github/dimka9910/sheets/ai/services/UserContextService.java:60-63 | when every profile is stored under its own id, reads return the id asked for, and saves and deletes keep the store so |
| ContextService.SummaryEmptyIff | src/main/java/com/github/dimka9910/sheets/ai/services/UserContextService.java:176-224 | the summary is empty exactly when no setting is set and every list is null or empty |
| ContextService.NewContextSummaryEmpty | src/main/java/com/github/dimka9910/sheets/ai/services/UserContextService.java:176-224 | a user with no stored profile has an empty summary |
| ContextService.InstructionLinesAppend | src/main/java/com/github/dimka9910/sheets/ai/services/UserContextService.java:215-221 | adding an instruction adds exactly one line, numbered with its 0-based index |
| ContextService.InstructionsSectionCount | src/main/java/com/github/dimka9910/sheets/ai/services/UserContextService.java:215-221 | the instruction section is one header line plus one line per instruction, or nothing when the list is null or empty |
| ContextService.SummaryLineCount | src/main/java/com/github/dimka9910/sheets/ai/services/UserContextService.java:176-224 | for single-line values the summary has one line per set setting and non-empty list, plus one per instruction |
| Onboarding.StateNameRoundTrip | src/main/java/com/github/dimka9910/sheets/ai/dto/OnboardingState.java:6-14 | `valueOf` accepts exactly the state names and maps each back to its state |
| Onboarding.NeedsOnboarding | src/main/java/com/github/dimka9910/sheets/ai/services/OnboardingService.java:41-63 | a missing profile needs onboarding, a COMPLETED one does not, one in progress does, and otherwise it is needed exactly when accounts or funds are missing |
| Onboarding.NoOnboardingIff | src/main/java/com/github/dimka9910/sheets/ai/services/OnboardingService.java:41-63 | a profile skips onboarding exactly when it is COMPLETED, or not started with at least one account and one fund |
| Onboarding.NewContextNeedsOnboarding | src/main/java/com/github/dimka9910/sheets/ai/services/OnboardingService.java:56-62 | a fresh profile needs onboarding |
| Onboarding.SkipAll | src/main/java/com/github/dimka9910/sheets/ai/services/OnboardingService.java:77-84 | skipping marks the profile COMPLETED, seeds CARD, CASH and GENERAL only where the lists are missing, and changes nothing else |
| Onboarding.SkipAllFinishesOnboarding | src/main/java/com/github/dimka9910/sheets/ai/services/OnboardingService.java:77-84 | after skipping the profile has the minimum setup and needs no more onboarding |
| Onboarding.ResolveState | src/main/java/com/github/dimka9910/sheets/ai/services/OnboardingService.java:99-110 | a null, empty or unknown stored state starts at ASK_ACCOUNTS and is stored as such; a known one is used as stored |
| Onboarding.UnparsedResult | src/main/java/com/github/dimka9910/sheets/ai/services/OnboardingService.java:414-419 | an undecodable reply is passed through as the message, with no step completed and nothing extracted |
| Onboarding.UpperAll | src/main/java/com/github/dimka9910/sheets/ai/services/OnboardingService.java:455-457 | each extracted name is upper-cased, in order |
| Onboarding.UpdateContextFromResult | src/main/java/com/github/dimka9910/sheets/ai/services/OnboardingService.java:434-483 | the language is taken whenever detected; each step writes only its own field (accounts and funds upper-cased, only when non-empty; currency upper-cased); nothing else changes |
| Onboarding.UnparsedReplyKeepsProfile | src/main/java/com/github/dimka9910/sheets/ai/services/OnboardingService.java:434-483 | a reply that could not be decoded leaves the profile untouched at every step |
| Onboarding.NextState | src/main/java/com/github/dimka9910/sheets/ai/services/OnboardingService.java:503-512 | the next step is never NOT_STARTED and COMPLETED stays COMPLETED |
| Onboarding.AdvanceReachesCompleted | src/main/java/com/github/dimka9910/sheets/ai/services/OnboardingService.java:503-512 | from any step, four advances reach COMPLETED; from ASK_CURRENCY three do not |
| Onboarding.OnboardingResponse | src/main/java/com/github/dimka9910/sheets/ai/services/OnboardingService.java:132-137 | the onboarding reply succeeds with the given text and no operations |
| Onboarding.HandleOnboarding | src/main/java/com/github/dimka9910/sheets/ai/services/OnboardingService.java:68-138 | a skip phrase finishes onboarding with the fixed text; otherwise the step is resolved, the profile updated, and it advances exactly when the step's data is present |
| Onboarding.StepCompleteIgnored | src/main/java/com/github/dimka9910/sheets/ai/services/OnboardingService.java:121-128 | the interpreter's stepComplete flag plays no part in the outcome |
| Onboarding.NoDataNoAdvance | src/main/java/com/github/dimka9910/sheets/ai/services/OnboardingService.java:121-128 | at ASK_FUNDS, for any message that is not a skip, with no funds stored or extracted the step does not advance |
| Onboarding.AccountsStepAdvances | src/main/java/com/github/dimka9910/sheets/ai/services/OnboardingService.java:118-128 | at ASK_ACCOUNTS any non-empty extracted list is stored upper-cased and the step moves to ASK_FUNDS; with nothing extracted the stored accounts stay and the step advances only if some were stored already |
| PendingMerge.Merge | src/main/java/com/github/dimka9910/sheets/ai/services/ChatCommandService.java:807-822 | each payload field takes the new value when it is non-null and the pending value otherwise; a new amount counts only when positive; understood, clarification and error come from the new command alone |
| PendingMerge.MergeNeverForgets | src/main/java/com/github/dimka9910/sheets/ai/services/ChatCommandService.java:807-822 | every payload field known on either side stays known, a non-positive new amount aside |
| PendingMerge.MergeWithEmptyAnswer | src/main/java/com/github/dimka9910/sheets/ai/services/ChatCommandService.java:807-822 | an answer with no payload keeps the pending payload and takes the answer's status |
| PendingMerge.MergeSelf | src/main/java/com/github/dimka9910/sheets/ai/services/ChatCommandService.java:807-822 | merging a command with itself gives it back |
| PendingMerge.MergeIdempotent | src/main/java/com/github/dimka9910/sheets/ai/services/ChatCommandService.java:807-822 | merging the merged command into the same pending command again changes nothing |
| PendingMerge.MergeAssociative | src/main/java/com/github/dimka9910/sheets/ai/services/ChatCommandService.java:807-822 | merging two rounds of answers one after the other equals merging once with their merge |
| PendingMerge.MergedBatch | src/main/java/com/github/dimka9910/sheets/ai/services/ChatCommandService.java:114-135 | shared positions merge pairwise, extra new commands are kept, extra pending commands are merged with the merged first command only when it has an amount |
| PendingMerge.MergedBatchStep | src/main/java/com/github/dimka9910/sheets/ai/services/ChatCommandService.java:117-133 | one pass of the loop body extends the merge of the first i pending commands to the first i + 1 |
| PendingMerge.MergePendingLoop | src/main/java/com/github/dimka9910/sheets/ai/services/ChatCommandService.java:116-134 | the loop over a growing list computes exactly the merged batch |
| PendingMerge.MergePending | src/main/java/com/github/dimka9910/sheets/ai/services/ChatCommandService.java:113-135 | the merge applies only when commands are pending and the new batch holds some, and changes nothing but the commands |
| PendingMerge.MergePendingSize | src/main/java/com/github/dimka9910/sheets/ai/services/ChatCommandService.java:114-135 | the merge never shrinks the batch and never outgrows the longer of the two lists |
| Outcomes.FailureText | src/main/java/com/github/dimka9910/sheets/ai/services/ChatCommandService.java:672-681 | the failure text is never blank: the clarification when present, else the error message, else "?" |
| Outcomes.BuildResponse | src/main/java/com/github/dimka9910/sheets/ai/services/ChatCommandService.java:640-691 | the reply succeeds exactly when every command is valid, counting the commands, and its message is the correction summary (previous operation and first command) for a correction, else the success summary of all commands; otherwise it fails with the failure text; it throws exactly on a correction of an operation with a null amount |
| Outcomes.FailedBatchReply | src/main/java/com/github/dimka9910/sheets/ai/services/ChatCommandService.java:670-690 | the interpreter's failure batch gives a failed reply asking to retry, with no operations |
| Outcomes.CancelOperation | src/main/java/com/github/dimka9910/sheets/ai/services/ChatCommandService.java:706-722 | the compensating command is the original with the amount negated, the comment prefixed with "CANCEL: " and no status text |
| Outcomes.CancelRowOffsets | src/main/java/com/github/dimka9910/sheets/ai/services/ChatCommandService.java:706-722 | the cancel row and the original row sum to zero and agree on every column but the comment, which is the prefix followed by the original comment |
| Outcomes.LedgerUserName | src/main/java/com/github/dimka9910/sheets/ai/services/ChatCommandService.java:695 | rows carry the stored user name when there is one and the user id when there is none |
| Outcomes.CommitCommands | src/main/java/com/github/dimka9910/sheets/ai/services/ChatCommandService.java:180-184 | committing appends every command to the ledger in order and dispatches one row per command, in order, for the ledger user name |
| Outcomes.CommitThenPop | src/main/java/com/github/dimka9910/sheets/ai/services/ChatCommandService.java:172-184 | popping after a commit gives the batch's last command and leaves the ledger with the rest of the batch appended |
| Outcomes.SuggestionSuffix | src/main/java/com/github/dimka9910/sheets/ai/services/ChatCommandService.java:190-191 | the suffix is one plain text that opens with the "Запомнить" prompt, closes with the yes/no question, and holds exactly the suggestion in between |
| Outcomes.DefaultLine | src/main/java/com/github/dimka9910/sheets/ai/services/ChatCommandService.java:199-210 | a default line is empty exactly when the value is null |
| Outcomes.ApplyDefaults | src/main/java/com/github/dimka9910/sheets/ai/services/ChatCommandService.java:195-216 | each given default replaces the stored one, absent ones keep it, nothing else changes, and some line is produced exactly when the request holds something |
| Outcomes.DefaultLines | src/main/java/com/github/dimka9910/sheets/ai/services/ChatCommandService.java:198-211 | an announcement line is produced exactly when the request holds some default |
| Outcomes.DefaultsSuffix | src/main/java/com/github/dimka9910/sheets/ai/services/ChatCommandService.java:212-213 | no suffix is added exactly when there are no default lines |
| MetaCommands.AiReply | src/main/java/com/github/dimka9910/sheets/ai/services/ChatCommandService.java:463-467 | the interpreter's text is the reply, a null text giving a null message, with success and no operations |
| MetaCommands.NormalizeName | src/main/java/com/github/dimka9910/sheets/ai/services/ChatCommandService.java:460 | an account or fund name has no `\s` left |
| MetaCommands.InstructionIndex | src/main/java/com/github/dimka9910/sheets/ai/services/ChatCommandService.java:507-513 | an index is used only when it is inside the instruction list |
| MetaCommands.HandleUndo | src/main/java/com/github/dimka9910/sheets/ai/services/ChatCommandService.java:596-630 | no operations: a failed reply and nothing dispatched; otherwise the newest operation is popped and dispatched flagged as an undo, and the reply succeeds and names it |
| MetaCommands.UndoAfterRecord | src/main/java/com/github/dimka9910/sheets/ai/services/ChatCommandService.java:596-630 | undo right after recording an operation restores the profile and dispatches that operation's undo row |
| MetaCommands.MetaKindOf | src/main/java/com/github/dimka9910/sheets/ai/services/ChatCommandService.java:447 | a recognised kind is the one whose name is the upper-cased type |
| MetaCommands.MetaKindNameRoundTrip | src/main/java/com/github/dimka9910/sheets/ai/services/ChatCommandService.java:447-585 | the router recognises exactly the kinds' names |
| MetaCommands.MetaKindOfIffKnown | src/main/java/com/github/dimka9910/sheets/ai/services/ChatCommandService.java:447-589 | the names the router recognises are exactly the eleven meta-command kinds |
| MetaCommands.RunMeta | src/main/java/com/github/dimka9910/sheets/ai/services/ChatCommandService.java:447-584 | only UNDO dispatches rows or throws, and then only as the undo handler does; every other kind succeeds with no rows and keeps the ledger: SHOW_SETTINGS and HELP keep the profile (SHOW_SETTINGS replies with the interpreter text, a blank line and the settings summary), ADD_ACCOUNT/ADD_FUND append the normalised name when the value is present and change nothing else, the three SET_DEFAULT kinds store the upper-cased value when present and change nothing else, CLEAR_INSTRUCTIONS clears the list, the instruction kinds touch only the instruction list, and all but a duplicate ADD_INSTRUCTION reply with the interpreter text |
| MetaCommands.HandleMetaCommand | src/main/java/com/github/dimka9910/sheets/ai/services/ChatCommandService.java:431-590 | an unknown kind gives no reply so the turn goes on; a known kind runs its branch |
| MetaCommands.DuplicateInstructionKeepsProfile | src/main/java/com/github/dimka9910/sheets/ai/services/ChatCommandService.java:482-493 | adding a stored instruction again changes nothing and says it was already there |
| MetaCommands.NewInstructionAppended | src/main/java/com/github/dimka9910/sheets/ai/services/ChatCommandService.java:482-503 | a new instruction is appended and the interpreter's reply is returned |
| MetaCommands.RemoveInstructionByIndex | src/main/java/com/github/dimka9910/sheets/ai/services/ChatCommandService.java:506-513 | an index inside the list removes that instruction and keeps the others in order |
| MetaCommands.RemoveInstructionOutOfRange | src/main/java/com/github/dimka9910/sheets/ai/services/ChatCommandService.java:511-518 | an index past the end of the list leaves the profile as it was |
| MetaCommands.DropInstructionParsed | src/main/java/com/github/dimka9910/sheets/ai/services/ChatCommandService.java:506-518 | a value whose trimmed text parses to an index inside the list removes that instruction; any other index leaves the profile as it was |
| MetaCommands.DropInstructionUnparsed | src/main/java/com/github/dimka9910/sheets/ai/services/ChatCommandService.java:506-521 | a null or blank value, or one that is not a 32-bit integer, removes nothing and dispatches nothing |
| MetaCommands.SettingsRepeatable | src/main/java/com/github/dimka9910/sheets/ai/services/ChatCommandService.java:448-584 | repeating a SET_DEFAULT, CLEAR_INSTRUCTIONS, SHOW_SETTINGS or HELP command leaves the profile as the first one left it |
| Learning.AnswersDisjoint | src/main/java/com/github/dimka9910/sheets/ai/services/ChatCommandService.java:304-323 | no answer counts as both yes and no |
| Learning.HandleLearningResponse | src/main/java/com/github/dimka9910/sheets/ai/services/ChatCommandService.java:295-340 | no pending suggestion: nothing happens; yes: the fresh stored profile gains the instruction and loses history and suggestion; no: the suggestion and history are dropped; anything else: the suggestion is dropped and the turn goes on |
| Learning.AcceptPersistsInstruction | src/main/java/com/github/dimka9910/sheets/ai/services/ChatCommandService.java:304-319 | after a yes the stored profile ends with the suggestion as an instruction and has no pending suggestion |
| Learning.RejectKeepsInstructions | src/main/java/com/github/dimka9910/sheets/ai/services/ChatCommandService.java:323-334 | after a no the stored profile keeps its instructions and has no pending suggestion |
| Learning.AnswerIgnoresCaseAndBlanks | src/main/java/com/github/dimka9910/sheets/ai/services/ChatCommandService.java:301 | the answer read from any upper-cased text with blanks on either side is the answer read from the text itself |
| Learning.ToLowerOfToUpper | src/main/java/com/github/dimka9910/sheets/ai/services/ChatCommandService.java:301 | lower-casing an upper-cased text gives the lower-cased text |
| AdminCommands.AdminActionOf | src/main/java/com/github/dimka9910/sheets/ai/services/ChatCommandService.java:346-424 | /info, /help and /commands show the help; /debug routes to on, off or status; reset names are among /reset, /restart and /clear; nothing else but /note and ps: is an admin command |
| AdminCommands.RunAdmin | src/main/java/com/github/dimka9910/sheets/ai/services/ChatCommandService.java:346-424 | every admin reply succeeds; debug on and off save the flag, reset deletes the user, the others leave the store alone |
| AdminCommands.HandleAdminCommand | src/main/java/com/github/dimka9910/sheets/ai/services/ChatCommandService.java:346-424 | a message is handled exactly when it names an admin action; every handled command succeeds with no operations; only the debug switches (saving the new flag) and the reset (deleting the user) change the store |
| AdminCommands.DebugOnPersists | src/main/java/com/github/dimka9910/sheets/ai/services/ChatCommandService.java:374-376 | after debug on the stored profile has debug mode on |
| AdminCommands.DebugSwitchRecognised | src/main/java/com/github/dimka9910/sheets/ai/services/ChatCommandService.java:372-389 | "/debug", any blanks, then "on", "1" or "true" is the debug-on command, and then "off", "0" or "false" is the debug-off command |
| AdminCommands.DebugArgumentAfterCommand | src/main/java/com/github/dimka9910/sheets/ai/services/ChatCommandService.java:373 | removing "/debug" from "/debug" followed by a text without "/" leaves that text, trimmed |
| AdminCommands.SwitchArgument | src/main/java/com/github/dimka9910/sheets/ai/services/ChatCommandService.java:373 | after "/debug" and any blanks, a switch word is the argument exactly as written |
| AdminCommands.ReplaceAllAbsent | src/main/java/com/github/dimka9910/sheets/ai/services/ChatCommandService.java:373 | replacing a target whose first character never occurs leaves the text unchanged |
| AdminCommands.ResetRecognised | src/main/java/com/github/dimka9910/sheets/ai/services/ChatCommandService.java:401 | each reset name triggers the reset |
| AdminCommands.ResetForgetsUser | src/main/java/com/github/dimka9910/sheets/ai/services/ChatCommandService.java:401-402 | after a reset the user reads back as a fresh profile |
| LinkedUsers.ExtractUserId | src/main/java/com/github/dimka9910/sheets/ai/services/ChatCommandService.java:855-867 | a null or blank entry gives no id; otherwise the id is trimmed |
| LinkedUsers.ExtractFromLabelledEntry | src/main/java/com/github/dimka9910/sheets/ai/services/ChatCommandService.java:860-863 | an entry "NAME (id)" gives the trimmed id between the parentheses |
| LinkedUsers.LabelledEntryShape | src/main/java/com/github/dimka9910/sheets/ai/services/ChatCommandService.java:860-862 | in "NAME (id)" with no parenthesis in the id, the last "(" and ")" enclose exactly the id, and the entry is not blank |
| LinkedUsers.ExtractFromPlainEntry | src/main/java/com/github/dimka9910/sheets/ai/services/ChatCommandService.java:865-866 | an entry without parentheses is the id itself, trimmed |
| Orchestrator.MessageText | src/main/java/com/github/dimka9910/sheets/ai/services/ChatCommandService.java:58 | the message is read trimmed, a null message as empty |
| Orchestrator.WithDebug | src/main/java/com/github/dimka9910/sheets/ai/services/ChatCommandService.java:225-229 | only the message changes; outside debug mode the reply is unchanged; in debug mode the reply is kept as the prefix, followed by a blank-line separator and the debug report as the last segment |
| Orchestrator.Compensate | src/main/java/com/github/dimka9910/sheets/ai/services/ChatCommandService.java:171-177 | a correction with an operation to compensate pops it and dispatches its cancel row; it throws exactly when that operation has no kind |
| Orchestrator.SuggestionPart | src/main/java/com/github/dimka9910/sheets/ai/services/ChatCommandService.java:187-192 | a suggestion question is announced exactly when the suggestion is non-blank |
| Orchestrator.DefaultsPart | src/main/java/com/github/dimka9910/sheets/ai/services/ChatCommandService.java:195-214 | a defaults announcement is added exactly when the request holds some default |
| Orchestrator.CommitCompensated | src/main/java/com/github/dimka9910/sheets/ai/services/ChatCommandService.java:180-220 | after compensation the commands are appended to the ledger and dispatched one row each after the cancel rows; history is cleared; the suggestion and each given default are stored; no other profile field changes; the reply gains the suggestion question, then the defaults announcement |
| Orchestrator.Announce | src/main/java/com/github/dimka9910/sheets/ai/services/ChatCommandService.java:186-216 | a non-blank suggestion is stored; when the request holds a default each given default replaces the stored one, otherwise the defaults stay; no other profile field changes; the reply keeps its text and gains the suggestion question, then the defaults announcement |
| Orchestrator.CommitBatch | src/main/java/com/github/dimka9910/sheets/ai/services/ChatCommandService.java:166-220 | pending and history cleared, the corrected operation replaced by the new commands, the suggestion stored, each of the three defaults preferring the request's value when it sets defaults and kept otherwise, no other profile field changed; the cancel row is dispatched first and then one row per command |
| Orchestrator.RecordTurn | src/main/java/com/github/dimka9910/sheets/ai/services/ChatCommandService.java:150-163 | the reply is recorded as the newest assistant turn; a clarification keeps the batch's commands as pending |
| Orchestrator.Finalize | src/main/java/com/github/dimka9910/sheets/ai/services/ChatCommandService.java:147-232 | the reply succeeds exactly when every command is valid, a failed reply dispatches nothing, and the turn throws exactly on a correction fault |
| Orchestrator.FinalizeCommits | src/main/java/com/github/dimka9910/sheets/ai/services/ChatCommandService.java:147-232 | a valid batch whose correction can be compensated reaches the success block: the reply succeeds, the commit happens and its profile is saved |
| Orchestrator.Resolve | src/main/java/com/github/dimka9910/sheets/ai/services/ChatCommandService.java:104-148 | a dispatch always comes with a successful reply |
| Orchestrator.Reset | src/main/java/com/github/dimka9910/sheets/ai/services/ChatCommandService.java:85-94 | a new command clears the history and the pending commands, so no clarification is awaited and the message still reads as new; an answer leaves the profile unchanged; no other field ever changes |
| Orchestrator.NewCommandIsNotMerged | src/main/java/com/github/dimka9910/sheets/ai/services/ChatCommandService.java:113-114 | after a new command the pending list is empty, so the batch is used as the interpreter returned it |
| Orchestrator.ProcessCommand | src/main/java/com/github/dimka9910/sheets/ai/services/ChatCommandService.java:54-233 | rows are dispatched only with a successful reply; a throw comes only after the admin, onboarding and learning stages let the message through, and leaves the store the learning check saved |
| Orchestrator.FaultKeepsLearningSave | src/main/java/com/github/dimka9910/sheets/ai/services/ChatCommandService.java:336-338 | a turn that throws after an unanswered suggestion still leaves the suggestion dropped, with the reset profile saved |
| Orchestrator.AdminShortCircuits | src/main/java/com/github/dimka9910/sheets/ai/services/ChatCommandService.java:66-74 | an admin command is answered before anything else, whatever the interpreter or onboarding would say, and dispatches nothing |
| Orchestrator.OnboardingGate | src/main/java/com/github/dimka9910/sheets/ai/services/ChatCommandService.java:76-82 | a profile that needs onboarding gets the onboarding turn, the interpreter plays no part, nothing is dispatched, and the onboarding result is stored |
| Orchestrator.InterpreterFailureDispatchesNothing | src/main/java/com/github/dimka9910/sheets/ai/services/ChatCommandService.java:104-148 | when the interpreter call fails nothing is dispatched |
| Orchestrator.CorrectionReplacesLast | src/main/java/com/github/dimka9910/sheets/ai/services/ChatCommandService.java:166-184 | a correction dispatches the cancel row of the newest operation first, then the new rows, and the ledger has that operation replaced by the new commands |
| Orchestrator.CorrectionFlow | src/main/java/com/github/dimka9910/sheets/ai/services/ChatCommandService.java:170-184 | after an expense of 1000 RSD on CARD, a correction to 500 dispatches a -1000 CANCEL row then the 500 row, and the ledger ends with the 500 entry |
| Orchestrator.ClarificationKeepsPending | src/main/java/com/github/dimka9910/sheets/ai/services/ChatCommandService.java:150-163 | a clarification question replies with the question, dispatches nothing and stores the commands as pending |
| Orchestrator.CommitRecordsLedger | src/main/java/com/github/dimka9910/sheets/ai/services/ChatCommandService.java:180-219 | a valid batch that is not a correction is appended to the ledger, one row per command, with no pending commands or history left |

## Left out

- Calls to the language model (prompt building, HTTP, JSON decoding, token accounting): the decoded batch and the onboarding reply are inputs (`CommandParser.InterpreterOutcome`, `Onboarding.OnboardingReply`); `PromptBuilder` is not part of this model.
- The onboarding reply's markdown cleaning and JSON field extraction (`parseOnboardingResponse`, `getTextOrNull`): the model starts from a decoded `OnboardingResult` or the raw undecodable text.
- Queue publishing, the Telegram sender, the Lambda and SQS handlers, the HTTP controller, `AppConfig` and `LocalTest`: plumbing around the engine. Publishing is modelled as the returned reply and the returned list of dispatched rows.
- DynamoDB access: the repository is a map; `getContextByTelegramId`, `linkTelegram` and the single-field setters of `UserContextService` are not called by the engine.
- `loadLinkedUserContexts`: only the id extraction (`LinkedUsers.ExtractUserId`) is modelled. Attaching linked profiles only feeds the prompt, which is left out.
- Floating-point formatting in `formatSuccessMessage`, `formatCorrectionMessage`, `formatUndoDescription` and `buildDebugInfo`: these texts are opaque segments. The one exception thrown inside them that changes control flow is modelled as `Outcomes.Fault.CorrectionOfNullAmount`: a correction whose previous operation has a null amount.
- Timestamps of conversation turns, logging (including the text `/note` and `ps:` write to the log), and the debug report's token-usage line.
- Concurrency and interleaving of turns of one user: each turn is one atomic function of the store.
- Null elements in the decoded command list and in the stored pending list: the model's lists hold `ParsedCommand` values, never null. A JSON reply such as `"commands":[null]` would make the source throw a `NullPointerException` (in the validity check of `buildResponse`, in `mergePendingWithNew`, and in the amount test of the merge loop); those throws are not modelled.
- Unicode case mapping: `toUpperCase` and `toLowerCase` are modelled for ASCII and the basic Cyrillic letters only.
- JavaStrings.ParseInt: accepts an optional sign and the ASCII digits `0`-`9` only; `Integer.parseInt` also accepts the other Unicode decimal digits (Arabic-Indic, Devanagari and so on), which the model reads as not a number, so a `REMOVE_INSTRUCTION` index written in such digits removes nothing in the model.
- AdminCommands.AdminActionOf: the reset route is stated one way in its contract (reset implies a reset name); the converse is the separate lemma `AdminCommands.ResetRecognised`.
- MetaCommands.RemoveInstructionByIndex: stated for indices up to the largest `int`, because `Integer.parseInt` rejects larger ones.
- MetaCommands.RemoveInstructionOutOfRange: stated for indices up to the largest `int`, for the same reason.
- Conversation.BuildHistoryContext: its contract states only the empty case and the header; the per-turn lines are stated by `Conversation.HistoryLinesAppend`.
- Orchestrator.Resolve: its contract states only that a dispatch comes with a successful reply; the stage-by-stage behaviour is stated by the contracts of `Orchestrator.Finalize` and `MetaCommands.HandleMetaCommand`.
- Orchestrator.ProcessCommand: its contract states that a dispatch comes with a successful reply and which store a throw leaves; the admin, onboarding, correction, clarification and commit cases are separate lemmas.

=== FILE: AdminCommands.dfy ===
/**
 * `handleAdminCommand`: service commands starting with `/` or `ps:`,
 * handled before onboarding and the interpreter, in any letter case.
 */
module AdminCommands {
  import opened Wrappers
  import opened JavaStrings
  import opened Replies
  import opened Profile
  import opened ContextService

  /** A message `processCommand` hands to the admin handler. */
  predicate IsAdminCandidate(message: string) {
    StartsWith(message, "/") || StartsWith(ToLower(message), "ps:")
  }

  datatype AdminAction = ShowInfo | DebugOn | DebugOff | DebugStatus | ResetUser | Note

  const InfoCommands: set<string> := {"/info", "/help", "/commands"}
  const ResetCommands: set<string> := {"/reset", "/restart", "/clear"}
  const DebugOnWords: set<string> := {"on", "1", "true"}
  const DebugOffWords: set<string> := {"off", "0", "false"}

  /** What follows `/debug`: every occurrence of `/debug` removed, then trimmed. */
  function DebugArgument(lower: string): string {
    Trim(ReplaceAll(lower, "/debug", ""))
  }

  /** The command a lower-cased, trimmed message names; `None` is "not an admin command". */
  function AdminActionOf(lower: string): (r: Option<AdminAction>)
    ensures r == Some(ShowInfo) <==> lower in InfoCommands
    ensures r == Some(ResetUser) ==> lower in ResetCommands
    ensures r.Some? && r.value in {DebugOn, DebugOff, DebugStatus} <==> StartsWith(lower, "/debug") && lower !in InfoCommands
    ensures r.None? <==> lower !in InfoCommands + ResetCommands && !StartsWith(lower, "/debug")
                         && !StartsWith(lower, "/note") && !StartsWith(lower, "ps:")
  {
    if lower in InfoCommands then Some(ShowInfo)
    else if StartsWith(lower, "/debug") then
      var arg := DebugArgument(lower);
      if arg in DebugOnWords then Some(DebugOn)
      else if arg in DebugOffWords then Some(DebugOff)
      else Some(DebugStatus)
    else if lower in ResetCommands then Some(ResetUser)
    else if StartsWith(lower, "/note") || StartsWith(lower, "ps:") then Some(Note)
    else None
  }

  const InfoText: string :=
    "🛠️ Admin Commands:\n\n"
    + "/debug on  — enable debug mode (show internal data)\n"
    + "/debug off — disable debug mode\n"
    + "/reset     — delete user and start fresh\n"
    + "/note TEXT — save note to logs for developer\n"
    + "/info      — show this help\n\n"
    + "ps: TEXT   — same as /note (save feedback to logs)\n"
  const DebugOnText: string := "🔧 Debug mode ON — you'll see internal data with each response"
  const DebugOffText: string := "🔧 Debug mode OFF"
  const ResetText: string := "🗑️ User deleted. Send any message to start fresh!"
  const NoteText: string := "📝 Noted! (saved to logs for developer)"

  function DebugStatusText(c: UserContext): string {
    "🔧 Debug mode: " + (if c.debugMode == Some(true) then "ON" else "OFF") + "\nUse: /debug on or /debug off"
  }

  /** Running a recognised command: the store afterwards and the reply. */
  function RunAdmin(action: AdminAction, chatId: Option<string>, userId: string, c: UserContext, store: Store)
    : (r: (Store, ChatResponse))
    ensures r.1.success && r.1.chatId == chatId && r.1.operationsCount == 0
    ensures action == DebugOn ==> r.0 == SaveContext(store, c.(debugMode := Some(true)))
    ensures action == DebugOff ==> r.0 == SaveContext(store, c.(debugMode := Some(false)))
    ensures action == ResetUser ==> r.0 == DeleteUser(store, userId)
    ensures action in {ShowInfo, DebugStatus, Note} ==> r.0 == store
  {
    match action
    case ShowInfo => (store, Reply(chatId, true, Some(Plain(InfoText))))
    case DebugOn => (SaveContext(store, c.(debugMode := Some(true))), Reply(chatId, true, Some(Plain(DebugOnText))))
    case DebugOff => (SaveContext(store, c.(debugMode := Some(false))), Reply(chatId, true, Some(Plain(DebugOffText))))
    case DebugStatus => (store, Reply(chatId, true, Some(Plain(DebugStatusText(c)))))
    case ResetUser => (DeleteUser(store, userId), Reply(chatId, true, Some(Plain(ResetText))))
    case Note => (store, Reply(chatId, true, Some(Plain(NoteText))))
  }

  /**
   * `handleAdminCommand`; `None` is the null that lets processing continue.
   * Every handled command succeeds without operations; only the debug
   * switches and the reset touch the store.
   */
  function HandleAdminCommand(chatId: Option<string>, userId: string, message: string, c: UserContext, store: Store)
    : (r: Option<(Store, ChatResponse)>)
    ensures r.None? <==> AdminActionOf(Trim(ToLower(message))).None?
    ensures r.Some? ==> r.value.1.success && r.value.1.chatId == chatId && r.value.1.operationsCount == 0
    ensures r.Some? ==>
      var action := AdminActionOf(Trim(ToLower(message))).value;
      && (action == DebugOn ==> r.value.0 == SaveContext(store, c.(debugMode := Some(true))))
      && (action == DebugOff ==> r.value.0 == SaveContext(store, c.(debugMode := Some(false))))
      && (action == ResetUser ==> r.value.0 == DeleteUser(store, userId))
      && (action in {ShowInfo, DebugStatus, Note} ==> r.value.0 == store)
  {
    match AdminActionOf(Trim(ToLower(message)))
    case None => None
    case Some(action) => Some(RunAdmin(action, chatId, userId, c, store))
  }

  /** `/debug on` switches debug mode on for the next read of the profile. */
  lemma DebugOnPersists(chatId: Option<string>, c: UserContext, store: Store)
    ensures GetContext(RunAdmin(DebugOn, chatId, c.userId, c, store).0, c.userId).debugMode == Some(true)
  {
    GetAfterSave(store, c.(debugMode := Some(true)));
  }

  /** Replacing a target whose first character never occurs changes nothing. */
  lemma {:induction false} ReplaceAllAbsent(s: string, target: string, replacement: string)
    requires |target| > 0 && forall i :: 0 <= i < |s| ==> s[i] != target[0]
    ensures ReplaceAll(s, target, replacement) == s
    decreases |s|
  {
    if |s| > 0 {
      assert !StartsWith(s, target) by {
        if |target| <= |s| { assert s[..|target|][0] == s[0]; }
      }
      ReplaceAllAbsent(s[1..], target, replacement);
      assert [s[0]] + s[1..] == s;
    }
  }

  /** Whatever follows `/debug`, when it holds no `/`, is the argument once trimmed. */
  lemma DebugArgumentAfterCommand(rest: string)
    requires forall i :: 0 <= i < |rest| ==> rest[i] != '/'
    ensures DebugArgument("/debug" + rest) == Trim(rest)
  {
    var s := "/debug" + rest;
    assert StartsWith(s, "/debug") by { assert s[..6] == "/debug"; }
    assert s[6..] == rest;
    ReplaceAllAbsent(rest, "/debug", "");
    assert ReplaceAll(s, "/debug", "") == "" + rest;
    assert "" + rest == rest;
  }

  /** A switch word is trimmed and holds no `/`. */
  lemma SwitchWordShape(word: string)
    requires word in DebugOnWords + DebugOffWords
    ensures IsTrimmed(word) && forall i :: 0 <= i < |word| ==> word[i] != '/'
  {
    assert word == "on" || word == "1" || word == "true" || word == "off" || word == "0" || word == "false";
  }

  /** Blanks then a switch word make an argument that trims to the word. */
  lemma SwitchArgument(blanks: string, word: string)
    requires AllTrimmable(blanks) && word in DebugOnWords + DebugOffWords
    ensures DebugArgument("/debug" + (blanks + word)) == word
  {
    var rest := blanks + word;
    SwitchWordShape(word);
    forall i | 0 <= i < |rest| ensures rest[i] != '/' {
      if i < |blanks| {
        assert rest[i] == blanks[i] && IsTrimmable(blanks[i]);
      } else {
        assert rest[i] == word[i - |blanks|];
      }
    }
    DebugArgumentAfterCommand(rest);
    assert blanks + word + "" == rest;
    TrimPadded(blanks, word, "");
    assert Trim(rest) == Trim(word) == word;
  }

  /**
   * `/debug`, any blanks, then a switch word is read as that switch: the
   * words `on`, `1`, `true` turn debug mode on and `off`, `0`, `false`
   * turn it off.
   */
  lemma DebugSwitchRecognised(blanks: string, word: string)
    requires AllTrimmable(blanks) && word in DebugOnWords + DebugOffWords
    ensures word in DebugOnWords ==> AdminActionOf("/debug" + blanks + word) == Some(DebugOn)
    ensures word in DebugOffWords ==> AdminActionOf("/debug" + blanks + word) == Some(DebugOff)
  {
    var s := "/debug" + (blanks + word);
    assert "/debug" + blanks + word == s;
    assert s !in InfoCommands by { assert s[1] == 'd'; }
    assert StartsWith(s, "/debug") by { assert s[..6] == "/debug"; }
    SwitchArgument(blanks, word);
    assert DebugOnWords !! DebugOffWords;
  }

  /** Each reset spelling is read as the reset command. */
  lemma ResetRecognised(lower: string)
    requires lower in ResetCommands
    ensures AdminActionOf(lower) == Some(ResetUser)
  {
    assert lower == "/reset" || lower == "/restart" || lower == "/clear";
    assert lower !in InfoCommands by { assert lower[1] != 'i' && lower[1] != 'h'; }
    assert !StartsWith(lower, "/debug") by { assert lower[1] != "/debug"[1]; }
  }

  /** A reset removes the user; the next read is a brand-new profile. */
  lemma ResetForgetsUser(chatId: Option<string>, userId: string, c: UserContext, store: Store)
    ensures GetContext(RunAdmin(ResetUser, chatId, userId, c, store).0, userId) == NewContext(userId)
  {
    GetAfterDelete(store, userId);
  }
}

=== FILE: CommandParser.dfy ===
/**
 * `AICommandParser` around the model call: the markdown-fence stripping
 * applied to the reply, the failure fallback, and the deprecated
 * single-command view of a batch. The model call and the JSON decoding are
 * not modelled: what the interpreter produced is an input.
 */
module CommandParser {
  import opened Wrappers
  import opened JavaStrings
  import opened Commands
  import Records

  const JsonFence: string := "```json"
  const Fence: string := "```"

  lemma JsonFenceIsFence(s: string)
    ensures StartsWith(s, JsonFence) ==> StartsWith(s, Fence)
  {
    if StartsWith(s, JsonFence) {
      assert s[..3] == s[..7][..3];
      assert JsonFence[..3] == Fence;
    }
  }

  /** Drops one leading fence (preferring "```json") and one trailing fence. */
  function StripFences(cleaned: string): (r: string)
    ensures !StartsWith(cleaned, Fence) && !EndsWith(cleaned, Fence) ==> r == cleaned
  {
    JsonFenceIsFence(cleaned);
    var unopened := if StartsWith(cleaned, JsonFence) then cleaned[7..]
                    else if StartsWith(cleaned, Fence) then cleaned[3..]
                    else cleaned;
    if EndsWith(unopened, Fence) then unopened[..|unopened| - 3] else unopened
  }

  /** `cleanJsonResponse`. */
  function CleanJsonResponse(response: string): (r: string)
    ensures IsTrimmed(r)
    ensures !StartsWith(Trim(response), Fence) && !EndsWith(Trim(response), Fence) ==> r == Trim(response)
  {
    Trim(StripFences(Trim(response)))
  }

  lemma StripFencesOfBlock(inner: string)
    ensures StripFences(JsonFence + inner + Fence) == inner
  {
    var block := JsonFence + inner + Fence;
    assert block[..7] == JsonFence;
    var rest := block[7..];
    assert rest == inner + Fence;
    assert rest[|rest| - 3..] == Fence;
    assert rest[..|rest| - 3] == inner;
  }

  lemma BlockIsTrimmed(inner: string)
    ensures IsTrimmed(JsonFence + inner + Fence)
  {
    var block := JsonFence + inner + Fence;
    assert block[0] == JsonFence[0];
    assert block[|block| - 1] == Fence[2];
  }

  /** A fenced JSON block, padded anywhere with blanks, comes back as the trimmed JSON inside. */
  lemma CleanJsonOfFencedBlock(json: string, pad: string)
    requires AllTrimmable(pad)
    ensures CleanJsonResponse(pad + JsonFence + pad + json + pad + Fence + pad) == Trim(json)
  {
    var inner := pad + json + pad;
    var block := JsonFence + inner + Fence;
    assert pad + JsonFence + pad + json + pad + Fence + pad == pad + block + pad;
    TrimPadded(pad, block, pad);
    BlockIsTrimmed(inner);
    StripFencesOfBlock(inner);
    TrimPadded(pad, json, pad);
  }

  /** Outcome of the model call and decoding: a batch, or the exception's message. */
  datatype InterpreterOutcome = Parsed(batch: ParsedCommandList) | Failed(exceptionMessage: Option<string>)

  const RetryClarification: string := "Sorry, please try again."

  /** The batch `parseMultiple` returns when anything in it throws. */
  function FailureBatch(exceptionMessage: Option<string>): (r: ParsedCommandList)
    ensures r.commands == Some([]) && Size(r) == 0 && !r.understood
    ensures r.errorMessage == Some("Error: " + JavaText(exceptionMessage))
    ensures r.clarification == Some(RetryClarification)
    ensures !r.correction && r.metaCommand.None? && r.setAsDefault.None? && r.suggestedInstruction.None?
  {
    ParsedCommandList(Some([]), false, Some(RetryClarification),
      Some("Error: " + JavaText(exceptionMessage)), None, false, None, None)
  }

  /** `parseMultiple`: never throws. */
  function ParseMultiple(outcome: InterpreterOutcome): (r: ParsedCommandList)
    ensures outcome.Parsed? ==> r == outcome.batch
    ensures outcome.Failed? ==> !r.understood && Size(r) == 0 && r.clarification == Some(RetryClarification)
  {
    match outcome
    case Parsed(b) => b
    case Failed(e) => FailureBatch(e)
  }

  /** The deprecated `parse(message, context)`: a batch seen as one command. */
  function LegacyParse(batch: ParsedCommandList): (r: ParsedCommand)
    ensures Size(batch) == 0 ==>
      r == BlankCommand.(operationType := Some(Unknown), understood := batch.understood,
                         clarification := batch.clarification, errorMessage := batch.errorMessage)
    ensures Size(batch) > 0 ==> r.understood == batch.understood
    ensures Size(batch) > 0 && batch.clarification.Some? ==> r.clarification == batch.clarification
    ensures Size(batch) > 0 && batch.clarification.None? ==> r.clarification == CommandsOf(batch)[0].clarification
    ensures Size(batch) > 0 && batch.errorMessage.Some? ==> r.errorMessage == batch.errorMessage
    ensures Size(batch) > 0 && batch.errorMessage.None? ==> r.errorMessage == CommandsOf(batch)[0].errorMessage
    ensures Size(batch) > 0 ==> Records.Payload(r) == Records.Payload(CommandsOf(batch)[0])
  {
    match GetFirst(batch)
    case None =>
      ParsedCommand(Some(Unknown), None, None, None, None, None, None, None, None,
        batch.understood, batch.errorMessage, batch.clarification)
    case Some(first) =>
      var withStatus := first.(understood := batch.understood);
      var withClarification :=
        if batch.clarification.Some? then withStatus.(clarification := batch.clarification) else withStatus;
      if batch.errorMessage.Some? then withClarification.(errorMessage := batch.errorMessage) else withClarification
  }

  /** Wrapping a command with `single` and reading it back with the legacy parse is the identity. */
  lemma LegacyParseOfSingle(cmd: ParsedCommand)
    ensures LegacyParse(Single(cmd)) == cmd
  {
  }

  /** A failed call seen through the legacy parse is an UNKNOWN command asking to retry. */
  lemma LegacyParseOfFailure(exceptionMessage: Option<string>)
    ensures var r := LegacyParse(FailureBatch(exceptionMessage));
      r.operationType == Some(Unknown) && !r.understood && r.clarification == Some(RetryClarification)
  {
  }
}

=== FILE: Commands.dfy ===
/**
 * The interpreter's structured output: one candidate operation
 * (`ParsedCommand`) and the batch returned for one message
 * (`ParsedCommandList`), with its nested set-as-default request and
 * meta-command descriptor.
 */
module Commands {
  import opened Wrappers

  datatype OperationType = Income | Transfer | Credit | Expenses | Unknown

  /** `OperationTypeEnum.name()`. */
  function OperationTypeName(t: OperationType): string {
    match t
    case Income => "INCOME"
    case Transfer => "TRANSFER"
    case Credit => "CREDIT"
    case Expenses => "EXPENSES"
    case Unknown => "UNKNOWN"
  }

  /** `OperationTypeEnum.valueOf`; `None` stands for `IllegalArgumentException`. */
  function OperationTypeValueOf(s: string): Option<OperationType> {
    if s == "INCOME" then Some(Income)
    else if s == "TRANSFER" then Some(Transfer)
    else if s == "CREDIT" then Some(Credit)
    else if s == "EXPENSES" then Some(Expenses)
    else if s == "UNKNOWN" then Some(Unknown)
    else None
  }

  /** `valueOf` accepts exactly the names `name()` produces. */
  lemma OperationTypeNameRoundTrip(t: OperationType, s: string)
    ensures OperationTypeValueOf(OperationTypeName(t)) == Some(t)
    ensures OperationTypeValueOf(s) == Some(t) <==> s == OperationTypeName(t)
  {
  }

  /** One candidate financial operation; every field may still be unknown. */
  datatype ParsedCommand = ParsedCommand(
    operationType: Option<OperationType>,
    amount: Option<real>,
    currency: Option<string>,
    accountName: Option<string>,
    fundName: Option<string>,
    comment: Option<string>,
    secondPerson: Option<string>,
    secondAccount: Option<string>,
    secondCurrency: Option<string>,
    understood: bool,
    errorMessage: Option<string>,
    clarification: Option<string>)

  /** A command with every field at its builder default. */
  const BlankCommand: ParsedCommand :=
    ParsedCommand(None, None, None, None, None, None, None, None, None, false, None, None)

  /** A kind the finalize step accepts: set and not `UNKNOWN`. */
  predicate HasKnownType(c: ParsedCommand) {
    c.operationType.Some? && c.operationType.value != Unknown
  }

  datatype SetAsDefault = SetAsDefault(
    account: Option<string>,
    currency: Option<string>,
    fund: Option<string>)

  predicate HasAny(d: SetAsDefault) {
    d.account.Some? || d.currency.Some? || d.fund.Some?
  }

  /** A request holds something exactly when it is not the all-null request. */
  lemma HasAnyIffNotEmpty(d: SetAsDefault)
    ensures HasAny(d) <==> d != SetAsDefault(None, None, None)
  {
  }

  datatype MetaCommand = MetaCommand(metaType: Option<string>, value: Option<string>)

  predicate IsPresent(m: MetaCommand) {
    m.metaType.Some? && |m.metaType.value| > 0
  }

  /** A descriptor is present exactly when it names a non-empty type. */
  lemma IsPresentIffNamed(m: MetaCommand)
    ensures IsPresent(m) <==> exists t :: m.metaType == Some(t) && t != ""
  {
    if IsPresent(m) {
      assert m.metaType == Some(m.metaType.value);
    }
  }

  /** The batch the interpreter returns for one message. */
  datatype ParsedCommandList = ParsedCommandList(
    commands: Option<seq<ParsedCommand>>,
    understood: bool,
    clarification: Option<string>,
    errorMessage: Option<string>,
    suggestedInstruction: Option<string>,
    correction: bool,
    setAsDefault: Option<SetAsDefault>,
    metaCommand: Option<MetaCommand>)

  /** The commands of a batch, a `null` list read as empty. */
  function CommandsOf(l: ParsedCommandList): seq<ParsedCommand> {
    if l.commands.Some? then l.commands.value else []
  }

  /** `ParsedCommandList.single`: a one-command batch carrying that command's status. */
  function Single(cmd: ParsedCommand): (r: ParsedCommandList)
    ensures CommandsOf(r) == [cmd]
    ensures r.suggestedInstruction.None? && !r.correction && r.setAsDefault.None? && r.metaCommand.None?
  {
    ParsedCommandList(Some([cmd]), cmd.understood, cmd.clarification, cmd.errorMessage, None, false, None, None)
  }

  predicate IsSingle(l: ParsedCommandList) {
    l.commands.Some? && |l.commands.value| == 1
  }

  /** `ParsedCommandList.size`. */
  function Size(l: ParsedCommandList): (n: nat)
    ensures n == |CommandsOf(l)|
  {
    match l.commands
    case None => 0
    case Some(cs) => |cs|
  }

  /** `ParsedCommandList.getFirst`. */
  function GetFirst(l: ParsedCommandList): (r: Option<ParsedCommand>)
    ensures r.Some? <==> Size(l) > 0
    ensures r.Some? ==> r.value == CommandsOf(l)[0]
  {
    match l.commands
    case None => None
    case Some(cs) => if |cs| == 0 then None else Some(cs[0])
  }

  /** The accessors agree: single exactly when size is one, and so on. */
  lemma AccessorsAgree(l: ParsedCommandList)
    ensures IsSingle(l) <==> Size(l) == 1
    ensures l.commands.None? ==> Size(l) == 0 && GetFirst(l).None?
    ensures IsSingle(l) ==> GetFirst(l) == Some(l.commands.value[0])
  {
  }

  /** `single` builds a batch that is single, of size one, headed by the command, with its status. */
  lemma SingleIsSingle(cmd: ParsedCommand)
    ensures IsSingle(Single(cmd)) && Size(Single(cmd)) == 1
    ensures GetFirst(Single(cmd)) == Some(cmd)
    ensures Single(cmd).understood == cmd.understood
    ensures Single(cmd).clarification == cmd.clarification
    ensures Single(cmd).errorMessage == cmd.errorMessage
  {
  }
}

=== FILE: ContextService.dfy ===
/**
 * `UserContextService`: the profile store seen as a map from user id to
 * profile, and the settings summary shown by the SHOW_SETTINGS command.
 */
module ContextService {
  import opened Wrappers
  import opened JavaStrings
  import opened Profile

  type Store = map<string, UserContext>

  /** `getContext`: the stored profile, or a fresh one carrying only the id. */
  function GetContext(store: Store, userId: string): (c: UserContext)
    ensures c.userId == userId || userId in store
    ensures userId in store ==> c == store[userId]
    ensures userId !in store ==> c == NewContext(userId)
  {
    if userId in store then store[userId] else NewContext(userId)
  }

  /** `saveContext`: keyed by the profile's own id; last write wins. */
  function SaveContext(store: Store, c: UserContext): (s: Store)
    ensures c.userId in s && s[c.userId] == c
    ensures forall id :: id in store && id != c.userId ==> id in s && s[id] == store[id]
  {
    store[c.userId := c]
  }

  /** `deleteUser`. */
  function DeleteUser(store: Store, userId: string): (s: Store)
    ensures userId !in s
    ensures forall id :: id in store && id != userId ==> id in s && s[id] == store[id]
  {
    store - {userId}
  }

  /** A saved profile is what the next read returns. */
  lemma GetAfterSave(store: Store, c: UserContext)
    ensures GetContext(SaveContext(store, c), c.userId) == c
  {
  }

  /** After a reset the user reads back as brand new. */
  lemma GetAfterDelete(store: Store, userId: string)
    ensures GetContext(DeleteUser(store, userId), userId) == NewContext(userId)
  {
  }

  /** Every profile is stored under its own id, as `saveContext` keeps it. */
  predicate Keyed(store: Store) {
    forall id :: id in store ==> store[id].userId == id
  }

  /** In a keyed store a read returns a profile carrying the id asked for; saves keep it keyed. */
  lemma KeyedReads(store: Store, userId: string, c: UserContext)
    requires Keyed(store)
    ensures GetContext(store, userId).userId == userId
    ensures Keyed(SaveContext(store, c)) && Keyed(DeleteUser(store, userId))
  {
  }

  // ---- settings summary ----------------------------------------------------

  const NameLabel: string := "Имя: "
  const CurrencyLabel: string := "Валюта по умолчанию: "
  const AccountLabel: string := "Счёт по умолчанию: "
  const PersonalFundLabel: string := "Фонд для личных трат: "
  const SharedFundLabel: string := "Фонд для общих трат: "
  const AccountsLabel: string := "Счета: "
  const FundsLabel: string := "Фонды: "
  const LinkedLabel: string := "Связанные пользователи: "
  const InstructionsHeader: string := "Особые указания:\n"

  /** One `title value` line when the setting is set, nothing otherwise. */
  function SettingLine(title: string, value: Option<string>): string {
    if value.Some? then title + value.value + "\n" else ""
  }

  /** One line joining a non-empty list with ", ", nothing otherwise. */
  function ListLine(title: string, l: Option<seq<string>>): string {
    if HasItems(l) then title + Join(", ", l.value) + "\n" else ""
  }

  function InstructionLine(index: nat, instruction: string): string {
    "  " + NatToString(index) + ". " + instruction + "\n"
  }

  /** The instruction lines, numbered from `from`. */
  function InstructionLines(xs: seq<string>, from: nat): string
    decreases |xs|
  {
    if |xs| == 0 then "" else InstructionLine(from, xs[0]) + InstructionLines(xs[1..], from + 1)
  }

  function InstructionsSection(l: Option<seq<string>>): string {
    if HasItems(l) then InstructionsHeader + InstructionLines(l.value, 0) else ""
  }

  /** The lines of the scalar settings, in the order the code emits them. */
  function ScalarLines(c: UserContext): string {
    SettingLine(NameLabel, c.displayName)
    + SettingLine(CurrencyLabel, c.defaultCurrency)
    + SettingLine(AccountLabel, c.defaultAccount)
    + SettingLine(PersonalFundLabel, c.defaultPersonalFund)
    + SettingLine(SharedFundLabel, c.defaultSharedFund)
  }

  /** The list sections, in the order the code emits them. */
  function ListSections(c: UserContext): string {
    ListLine(AccountsLabel, c.accounts)
    + ListLine(FundsLabel, c.funds)
    + ListLine(LinkedLabel, c.linkedUsers)
    + InstructionsSection(c.customInstructions)
  }

  /** `getContextSummary` of a loaded profile. */
  function ContextSummary(c: UserContext): string {
    ScalarLines(c) + ListSections(c)
  }

  /** `getContextSummary(userId)`: reads the store again. */
  function GetContextSummary(store: Store, userId: string): string {
    ContextSummary(GetContext(store, userId))
  }

  /** A profile with nothing set and every list empty or null. */
  predicate NothingToShow(c: UserContext) {
    && c.displayName.None? && c.defaultCurrency.None? && c.defaultAccount.None?
    && c.defaultPersonalFund.None? && c.defaultSharedFund.None?
    && !HasItems(c.accounts) && !HasItems(c.funds) && !HasItems(c.linkedUsers)
    && !HasItems(c.customInstructions)
  }

  /** The summary is empty exactly when there is nothing to show. */
  lemma SummaryEmptyIff(c: UserContext)
    ensures ContextSummary(c) == "" <==> NothingToShow(c)
  {
    if !NothingToShow(c) {
      assert |ContextSummary(c)| > 0;
    }
  }

  /** A brand-new profile has an empty summary. */
  lemma NewContextSummaryEmpty(userId: string)
    ensures GetContextSummary(map[], userId) == ""
  {
    SummaryEmptyIff(NewContext(userId));
  }

  /** Appending an instruction appends exactly one line, numbered with its 0-based index. */
  lemma {:induction false} InstructionLinesAppend(xs: seq<string>, x: string, from: nat)
    ensures InstructionLines(xs + [x], from) == InstructionLines(xs, from) + InstructionLine(from + |xs|, x)
    decreases |xs|
  {
    if |xs| == 0 {
      assert [x][1..] == [];
    } else {
      assert (xs + [x])[0] == xs[0];
      assert (xs + [x])[1..] == xs[1..] + [x];
      InstructionLinesAppend(xs[1..], x, from + 1);
    }
  }

  // ---- counting lines ------------------------------------------------------

  function CountNewlines(s: string): nat {
    if |s| == 0 then 0 else (if s[0] == '\n' then 1 else 0) + CountNewlines(s[1..])
  }

  predicate NoNewline(s: string) {
    forall i :: 0 <= i < |s| ==> s[i] != '\n'
  }

  lemma {:induction false} CountNewlinesConcat(a: string, b: string)
    ensures CountNewlines(a + b) == CountNewlines(a) + CountNewlines(b)
  {
    if |a| > 0 {
      assert (a + b)[0] == a[0];
      assert (a + b)[1..] == a[1..] + b;
      CountNewlinesConcat(a[1..], b);
    } else {
      assert a + b == b;
    }
  }

  lemma {:induction false} CountNewlinesNone(s: string)
    requires NoNewline(s)
    ensures CountNewlines(s) == 0
  {
    if |s| > 0 {
      assert NoNewline(s[1..]) by {
        forall i | 0 <= i < |s[1..]| ensures s[1..][i] != '\n' {
          assert s[1..][i] == s[i + 1];
        }
      }
      CountNewlinesNone(s[1..]);
    }
  }

  /** A line made of newline-free parts, ended by one newline, counts once. */
  lemma OneLine(a: string, b: string)
    requires NoNewline(a) && NoNewline(b)
    ensures CountNewlines(a + b + "\n") == 1
  {
    CountNewlinesConcat(a + b, "\n");
    CountNewlinesConcat(a, b);
    CountNewlinesNone(a);
    CountNewlinesNone(b);
  }

  predicate AllNoNewline(xs: seq<string>) {
    forall i :: 0 <= i < |xs| ==> NoNewline(xs[i])
  }

  lemma {:induction false} JoinNoNewline(sep: string, xs: seq<string>)
    requires NoNewline(sep) && AllNoNewline(xs)
    ensures NoNewline(Join(sep, xs))
    decreases |xs|
  {
    if |xs| > 1 {
      JoinNoNewline(sep, xs[..|xs| - 1]);
    }
  }

  lemma NatToStringNoNewline(n: nat)
    ensures NoNewline(NatToString(n))
  {
  }

  lemma {:induction false} InstructionLinesCount(xs: seq<string>, from: nat)
    requires AllNoNewline(xs)
    ensures CountNewlines(InstructionLines(xs, from)) == |xs|
    decreases |xs|
  {
    if |xs| > 0 {
      NatToStringNoNewline(from);
      var a := "  " + NatToString(from) + ". ";
      assert NoNewline(a);
      OneLine(a, xs[0]);
      assert InstructionLine(from, xs[0]) == a + xs[0] + "\n";
      CountNewlinesConcat(InstructionLine(from, xs[0]), InstructionLines(xs[1..], from + 1));
      InstructionLinesCount(xs[1..], from + 1);
    }
  }

  function LineIf(b: bool): nat {
    if b then 1 else 0
  }

  /** No stored text contains a line break. */
  predicate SingleLineTexts(c: UserContext) {
    && (c.displayName.Some? ==> NoNewline(c.displayName.value))
    && (c.defaultCurrency.Some? ==> NoNewline(c.defaultCurrency.value))
    && (c.defaultAccount.Some? ==> NoNewline(c.defaultAccount.value))
    && (c.defaultPersonalFund.Some? ==> NoNewline(c.defaultPersonalFund.value))
    && (c.defaultSharedFund.Some? ==> NoNewline(c.defaultSharedFund.value))
    && AllNoNewline(Items(c.accounts)) && AllNoNewline(Items(c.funds))
    && AllNoNewline(Items(c.linkedUsers)) && AllNoNewline(Items(c.customInstructions))
  }

  lemma SettingLineCount(title: string, v: Option<string>)
    requires NoNewline(title) && (v.Some? ==> NoNewline(v.value))
    ensures CountNewlines(SettingLine(title, v)) == LineIf(v.Some?)
  {
    if v.Some? {
      OneLine(title, v.value);
    }
  }

  lemma ListLineCount(title: string, l: Option<seq<string>>)
    requires NoNewline(title) && AllNoNewline(Items(l))
    ensures CountNewlines(ListLine(title, l)) == LineIf(HasItems(l))
  {
    if HasItems(l) {
      JoinNoNewline(", ", l.value);
      OneLine(title, Join(", ", l.value));
    }
  }

  function ScalarCount(c: UserContext): nat {
    LineIf(c.displayName.Some?) + LineIf(c.defaultCurrency.Some?) + LineIf(c.defaultAccount.Some?)
    + LineIf(c.defaultPersonalFund.Some?) + LineIf(c.defaultSharedFund.Some?)
  }

  function ListCount(c: UserContext): nat {
    LineIf(HasItems(c.accounts)) + LineIf(HasItems(c.funds)) + LineIf(HasItems(c.linkedUsers))
    + (if HasItems(c.customInstructions) then 1 + |c.customInstructions.value| else 0)
  }

  /** The section titles are single-line text. */
  lemma LabelsSingleLine()
    ensures NoNewline(NameLabel) && NoNewline(CurrencyLabel) && NoNewline(AccountLabel)
    ensures NoNewline(PersonalFundLabel) && NoNewline(SharedFundLabel)
    ensures NoNewline(AccountsLabel) && NoNewline(FundsLabel) && NoNewline(LinkedLabel)
  {
  }

  lemma {:induction false} ScalarLinesCount(c: UserContext)
    requires SingleLineTexts(c)
    ensures CountNewlines(ScalarLines(c)) == ScalarCount(c)
  {
    LabelsSingleLine();
    var s1 := SettingLine(NameLabel, c.displayName);
    var s2 := SettingLine(CurrencyLabel, c.defaultCurrency);
    var s3 := SettingLine(AccountLabel, c.defaultAccount);
    var s4 := SettingLine(PersonalFundLabel, c.defaultPersonalFund);
    var s5 := SettingLine(SharedFundLabel, c.defaultSharedFund);
    SettingLineCount(NameLabel, c.displayName);
    SettingLineCount(CurrencyLabel, c.defaultCurrency);
    SettingLineCount(AccountLabel, c.defaultAccount);
    SettingLineCount(PersonalFundLabel, c.defaultPersonalFund);
    SettingLineCount(SharedFundLabel, c.defaultSharedFund);
    var p2 := s1 + s2;
    var p3 := p2 + s3;
    var p4 := p3 + s4;
    var p5 := p4 + s5;
    CountNewlinesConcat(s1, s2);
    CountNewlinesConcat(p2, s3);
    CountNewlinesConcat(p3, s4);
    CountNewlinesConcat(p4, s5);
    assert CountNewlines(p5) == CountNewlines(s1) + CountNewlines(s2) + CountNewlines(s3)
                                + CountNewlines(s4) + CountNewlines(s5);
    assert ScalarLines(c) == p5;
  }

  lemma InstructionsSectionCount(l: Option<seq<string>>)
    requires AllNoNewline(Items(l))
    ensures CountNewlines(InstructionsSection(l)) == if HasItems(l) then 1 + |l.value| else 0
  {
    if HasItems(l) {
      InstructionLinesCount(l.value, 0);
      assert InstructionsHeader == "Особые указания:" + "" + "\n";
      OneLine("Особые указания:", "");
      CountNewlinesConcat(InstructionsHeader, InstructionLines(l.value, 0));
    }
  }

  lemma {:induction false} ListSectionsCount(c: UserContext)
    requires SingleLineTexts(c)
    ensures CountNewlines(ListSections(c)) == ListCount(c)
  {
    LabelsSingleLine();
    var l1 := ListLine(AccountsLabel, c.accounts);
    var l2 := ListLine(FundsLabel, c.funds);
    var l3 := ListLine(LinkedLabel, c.linkedUsers);
    var ins := InstructionsSection(c.customInstructions);
    ListLineCount(AccountsLabel, c.accounts);
    ListLineCount(FundsLabel, c.funds);
    ListLineCount(LinkedLabel, c.linkedUsers);
    InstructionsSectionCount(c.customInstructions);
    CountNewlinesConcat(l1, l2);
    CountNewlinesConcat(l1 + l2, l3);
    CountNewlinesConcat(l1 + l2 + l3, ins);
    assert ListSections(c) == l1 + l2 + l3 + ins;
  }

  /**
   * Line count of the summary: one per set scalar, one per non-empty list,
   * and a header plus one per instruction when there are instructions.
   */
  lemma SummaryLineCount(c: UserContext)
    requires SingleLineTexts(c)
    ensures CountNewlines(ContextSummary(c)) == ScalarCount(c) + ListCount(c)
  {
    ScalarLinesCount(c);
    ListSectionsCount(c);
    CountNewlinesConcat(ScalarLines(c), ListSections(c));
  }
}

=== FILE: Conversation.dfy ===
/**
 * `ConversationService`: decides whether a message starts a new command
 * or answers the last clarification question, and keeps the bounded
 * dialogue history.
 */
module Conversation {
  import opened Wrappers
  import opened JavaStrings
  import opened Replies
  import opened ConversationMessages
  import opened Profile

  const MaxHistoryMessages: nat := 20

  /** The newest assistant turn of a history, if any. */
  function LastAssistantTurn(h: seq<ConversationMessage>): (r: Option<ConversationMessage>)
    ensures r.Some? ==> r.value in h && !IsFromUser(r.value)
    ensures r.None? ==> forall i :: 0 <= i < |h| ==> IsFromUser(h[i])
  {
    if |h| == 0 then None
    else if !IsFromUser(h[|h| - 1]) then Some(h[|h| - 1])
    else LastAssistantTurn(h[..|h| - 1])
  }

  /**
   * `isAwaitingClarification`: the newest assistant turn asked a
   * clarification question.
   */
  predicate IsAwaitingClarification(c: UserContext) {
    var last := LastAssistantTurn(c.conversationHistory);
    last.Some? && last.value.wasClarification
  }

  /** `looksLikeAnswer`: short (under 50 UTF-16 units) and at most five words. */
  predicate LooksLikeAnswer(message: string) {
    var t := Trim(message);
    Utf16Length(t) < 50 && SplitLength(t) <= 5
  }

  /** `isNewCommand`. */
  function IsNewCommand(message: string, c: UserContext): (isNew: bool)
    ensures |c.conversationHistory| == 0 ==> isNew
    ensures |c.conversationHistory| > 0 ==>
      (isNew <==> !(IsAwaitingClarification(c) && LooksLikeAnswer(message)))
  {
    var trimmed := Trim(message);
    LooksLikeAnswerIgnoresTrim(message);
    if |c.conversationHistory| == 0 then true
    else if IsAwaitingClarification(c) && LooksLikeAnswer(trimmed) then false
    else true
  }

  /** Trimming first does not change the verdict. */
  lemma LooksLikeAnswerIgnoresTrim(message: string)
    ensures LooksLikeAnswer(Trim(message)) == LooksLikeAnswer(message)
  {
  }

  /**
   * A single word is an answer exactly when it is under 50 UTF-16 units,
   * so a character beyond U+FFFF (an emoji) counts twice.
   */
  lemma LooksLikeAnswerOfWord(t: string)
    requires IsTrimmed(t) && !HasRegexSpace(t)
    ensures LooksLikeAnswer(t) <==> Utf16Length(t) < 50
  {
    SplitLengthOfWord(t);
  }

  /**
   * A short answer after a clarification question continues the dialogue;
   * the same answer with an empty history starts a new command.
   */
  lemma ShortAnswerContinues(c: UserContext)
    requires IsAwaitingClarification(c)
    ensures !IsNewCommand("150", c)
    ensures IsNewCommand("150", c.(conversationHistory := []))
  {
    assert !HasRegexSpace("150");
    assert Trim("150") == "150";
    SplitLengthOfWord("150");
    assert |c.conversationHistory| > 0;
  }

  /** `addToHistory`: append, then keep the newest twenty turns. */
  function AddToHistory(c: UserContext, m: ConversationMessage): (r: UserContext)
    ensures |r.conversationHistory| ==
      if |c.conversationHistory| < MaxHistoryMessages then |c.conversationHistory| + 1 else MaxHistoryMessages
    ensures r.conversationHistory[|r.conversationHistory| - 1] == m
    ensures r.conversationHistory + [] ==
      (c.conversationHistory + [m])[|c.conversationHistory| + 1 - |r.conversationHistory|..]
    ensures r == c.(conversationHistory := r.conversationHistory)
  {
    TrimHistory(AppendHistory(c, m), MaxHistoryMessages)
  }

  /** The history bound holds after every append, whatever it was before. */
  lemma {:induction false} AddToHistoryBounded(c: UserContext, m1: ConversationMessage, m2: ConversationMessage)
    ensures |AddToHistory(c, m1).conversationHistory| <= MaxHistoryMessages
    ensures var h := AddToHistory(AddToHistory(c, m1), m2).conversationHistory;
      |h| >= 2 && h[|h| - 2] == m1 && h[|h| - 1] == m2
  {
    var c1 := AddToHistory(c, m1);
    var h1 := c1.conversationHistory;
    var h := AddToHistory(c1, m2).conversationHistory;
    var w := h1 + [m2];
    assert |h1| >= 1 && h1[|h1| - 1] == m1;
    assert |h| >= 2;
    assert h + [] == w[|h1| + 1 - |h|..];
    assert h[|h| - 2] == w[|h1| - 1] == h1[|h1| - 1];
  }

  /** `clearHistory`. */
  function ClearConversation(c: UserContext): (r: UserContext)
    ensures r.conversationHistory == [] && !IsAwaitingClarification(r)
    ensures r == c.(conversationHistory := [])
  {
    ClearHistory(c)
  }

  const HistoryHeader: string := "\n### Recent conversation (for context) ###\n"

  function RoleLabel(m: ConversationMessage): string {
    if m.role == "user" then "User" else "Assistant"
  }

  function HistoryLine(m: ConversationMessage): Text {
    Plain(RoleLabel(m) + ": ") + m.content + Plain("\n")
  }

  /** One line per turn, oldest first. */
  function HistoryLines(h: seq<ConversationMessage>): Text
    decreases |h|
  {
    if |h| == 0 then [] else HistoryLine(h[0]) + HistoryLines(h[1..])
  }

  /** `buildHistoryContext`. */
  function BuildHistoryContext(c: UserContext): (r: Text)
    ensures |c.conversationHistory| == 0 ==> r == []
    ensures |c.conversationHistory| > 0 ==> |r| > 0 && r[0] == Chars(HistoryHeader)
  {
    if |c.conversationHistory| == 0 then [] else Plain(HistoryHeader) + HistoryLines(c.conversationHistory)
  }

  /** Each turn is labelled `User` when it comes from the user and `Assistant` otherwise. */
  lemma RoleLabels(content: Text, parsed: Option<Commands.ParsedCommand>, clarification: bool)
    ensures RoleLabel(UserMessage(content)) == "User"
    ensures RoleLabel(AssistantMessage(content, parsed, clarification)) == "Assistant"
  {
  }

  /** A new turn adds exactly its own line at the end of the rendered history. */
  lemma {:induction false} HistoryLinesAppend(h: seq<ConversationMessage>, m: ConversationMessage)
    ensures HistoryLines(h + [m]) == HistoryLines(h) + HistoryLine(m)
    decreases |h|
  {
    if |h| == 0 {
      assert [m][1..] == [];
    } else {
      assert (h + [m])[0] == h[0];
      assert (h + [m])[1..] == h[1..] + [m];
      HistoryLinesAppend(h[1..], m);
    }
  }
}

=== FILE: ConversationMessages.dfy ===
/** `ConversationMessage`: one turn of the stored dialogue (timestamps left out). */
module ConversationMessages {
  import opened Wrappers
  import opened Commands
  import opened Replies

  datatype ConversationMessage = ConversationMessage(
    role: string,
    content: Text,
    parsedResult: Option<ParsedCommand>,
    wasClarification: bool)

  predicate IsFromUser(m: ConversationMessage) {
    m.role == "user"
  }

  function UserMessage(content: Text): (m: ConversationMessage)
    ensures IsFromUser(m) && m.content == content
    ensures m.parsedResult.None? && !m.wasClarification
  {
    ConversationMessage("user", content, None, false)
  }

  function AssistantMessage(content: Text, parsed: Option<ParsedCommand>, clarification: bool): (m: ConversationMessage)
    ensures m.role == "assistant" && !IsFromUser(m) && m.content == content
    ensures m.parsedResult == parsed && m.wasClarification == clarification
  {
    ConversationMessage("assistant", content, parsed, clarification)
  }

  /** The two factories never produce the same turn, whatever their arguments. */
  lemma FactoriesDiffer(c1: Text, c2: Text, parsed: Option<ParsedCommand>, clarification: bool)
    ensures UserMessage(c1) != AssistantMessage(c2, parsed, clarification)
    ensures UserMessage(c1) == UserMessage(c2) <==> c1 == c2
  {
  }
}

=== FILE: JavaStrings.dfy ===
/**
 * The parts of `java.lang.String`, `Character` and `Integer` that the
 * command engine relies on, stated over `seq<char>`.
 *
 * Case mapping covers ASCII and the basic Cyrillic block only; the rest
 * of Unicode is mapped to itself.
 */
module JavaStrings {
  import opened Wrappers

  /** `String.trim` removes every code point at or below U+0020. */
  predicate IsTrimmable(c: char) {
    c <= ' '
  }

  /** No trimmable character at either end. */
  predicate IsTrimmed(s: string) {
    |s| == 0 || (!IsTrimmable(s[0]) && !IsTrimmable(s[|s| - 1]))
  }

  predicate AllTrimmable(s: string) {
    forall i :: 0 <= i < |s| ==> IsTrimmable(s[i])
  }

  function TrimStart(s: string): (r: string)
    ensures |r| <= |s| && r == s[|s| - |r|..]
    ensures AllTrimmable(s[..|s| - |r|])
    ensures |r| > 0 ==> !IsTrimmable(r[0])
  {
    if |s| > 0 && IsTrimmable(s[0]) then TrimStart(s[1..]) else s
  }

  function TrimEnd(s: string): (r: string)
    ensures |r| <= |s| && r == s[..|r|]
    ensures AllTrimmable(s[|r|..])
    ensures |r| > 0 ==> !IsTrimmable(r[|r| - 1])
  {
    if |s| > 0 && IsTrimmable(s[|s| - 1]) then TrimEnd(s[..|s| - 1]) else s
  }

  /** `String.trim`. */
  function Trim(s: string): (r: string)
    ensures IsTrimmed(r)
    ensures |r| <= |s|
    ensures IsTrimmed(s) ==> r == s
  {
    var t := TrimStart(s);
    var r := TrimEnd(t);
    assert |r| > 0 ==> r[0] == t[0];
    r
  }

  lemma {:induction false} TrimStartPadded(p: string, s: string)
    requires AllTrimmable(p)
    ensures TrimStart(p + s) == TrimStart(s)
  {
    if |p| > 0 {
      assert (p + s)[1..] == p[1..] + s;
      TrimStartPadded(p[1..], s);
    } else {
      assert p + s == s;
    }
  }

  lemma {:induction false} TrimEndPadded(s: string, q: string)
    requires AllTrimmable(q)
    ensures TrimEnd(s + q) == TrimEnd(s)
  {
    if |q| > 0 {
      assert (s + q)[..|s + q| - 1] == s + q[..|q| - 1];
      TrimEndPadded(s, q[..|q| - 1]);
    } else {
      assert s + q == s;
    }
  }

  lemma {:induction false} TrimStartAppend(s: string, q: string)
    ensures |TrimStart(s)| > 0 ==> TrimStart(s + q) == TrimStart(s) + q
    ensures |TrimStart(s)| == 0 ==> TrimStart(s + q) == TrimStart(q)
  {
    if |s| > 0 {
      assert (s + q)[0] == s[0];
      if IsTrimmable(s[0]) {
        assert (s + q)[1..] == s[1..] + q;
        TrimStartAppend(s[1..], q);
      }
    } else {
      assert s + q == q;
    }
  }

  /** Trimming ignores any trimmable padding on either side. */
  lemma {:induction false} TrimPadded(p: string, s: string, q: string)
    requires AllTrimmable(p) && AllTrimmable(q)
    ensures Trim(p + s + q) == Trim(s)
  {
    var x := p + s + q;
    var t := TrimStart(s);
    assert x == p + (s + q);
    TrimStartPadded(p, s + q);
    TrimStartAppend(s, q);
    assert Trim(x) == TrimEnd(TrimStart(x)) && Trim(s) == TrimEnd(t);
    if |t| > 0 {
      assert TrimStart(x) == t + q;
      TrimEndPadded(t, q);
    } else {
      TrimStartPadded(q, "");
      assert q + "" == q;
      assert TrimStart(x) == "" == t;
    }
  }

  /** `Character.isWhitespace`. */
  predicate IsWhitespace(c: char) {
    || c == ' ' || c == '\t' || c == '\n' || c == '\U{000B}' || c == '\U{000C}' || c == '\r'
    || ('\U{001C}' <= c <= '\U{001F}')
    || c == '\U{1680}' || ('\U{2000}' <= c <= '\U{2006}') || ('\U{2008}' <= c <= '\U{200A}')
    || c == '\U{2028}' || c == '\U{2029}' || c == '\U{205F}' || c == '\U{3000}'
  }

  /** `String.isBlank`: empty or whitespace only. */
  predicate IsBlank(s: string) {
    forall i :: 0 <= i < |s| ==> IsWhitespace(s[i])
  }

  /** A Java value that is neither `null` nor blank. */
  predicate IsPresentText(o: Option<string>) {
    o.Some? && !IsBlank(o.value)
  }

  /** The regular-expression class `\s`: `[ \t\n\x0B\f\r]`. */
  predicate IsRegexSpace(c: char) {
    c == ' ' || c == '\t' || c == '\n' || c == '\U{000B}' || c == '\U{000C}' || c == '\r'
  }

  /** What `"" + o` prints: the text itself, or `null`. */
  function JavaText(o: Option<string>): string {
    match o
    case Some(s) => s
    case None => "null"
  }

  function ToUpperChar(c: char): char {
    if 'a' <= c <= 'z' then (c as int - 32) as char
    else if '\U{0430}' <= c <= '\U{044F}' then (c as int - 0x20) as char
    else if '\U{0450}' <= c <= '\U{045F}' then (c as int - 0x50) as char
    else c
  }

  function ToLowerChar(c: char): char {
    if 'A' <= c <= 'Z' then (c as int + 32) as char
    else if '\U{0410}' <= c <= '\U{042F}' then (c as int + 0x20) as char
    else if '\U{0400}' <= c <= '\U{040F}' then (c as int + 0x50) as char
    else c
  }

  /** `String.toUpperCase`, one character at a time. */
  function ToUpper(s: string): (r: string)
    ensures |r| == |s|
    ensures forall i :: 0 <= i < |s| ==> r[i] == ToUpperChar(s[i])
  {
    if |s| == 0 then [] else [ToUpperChar(s[0])] + ToUpper(s[1..])
  }

  /** `String.toLowerCase`, one character at a time. */
  function ToLower(s: string): (r: string)
    ensures |r| == |s|
    ensures forall i :: 0 <= i < |s| ==> r[i] == ToLowerChar(s[i])
  {
    if |s| == 0 then [] else [ToLowerChar(s[0])] + ToLower(s[1..])
  }

  lemma ToUpperIdempotent(s: string)
    ensures ToUpper(ToUpper(s)) == ToUpper(s)
  {
  }

  /** A character Java stores as a surrogate pair: one beyond U+FFFF. */
  predicate IsSupplementary(c: char) {
    c > '\U{FFFF}'
  }

  /** `String.length`: UTF-16 code units, two for each supplementary character. */
  function Utf16Length(s: string): (r: nat)
    ensures |s| <= r <= 2 * |s|
    ensures r == |s| <==> forall i :: 0 <= i < |s| ==> !IsSupplementary(s[i])
    decreases |s|
  {
    if |s| == 0 then 0
    else (if IsSupplementary(s[0]) then 2 else 1) + Utf16Length(s[1..])
  }

  predicate StartsWith(s: string, p: string) {
    |p| <= |s| && s[..|p|] == p
  }

  predicate EndsWith(s: string, p: string) {
    |p| <= |s| && s[|s| - |p|..] == p
  }

  /** `String.contains`. */
  predicate Contains(s: string, p: string)
    decreases |s|
  {
    StartsWith(s, p) || (|s| > 0 && Contains(s[1..], p))
  }

  /** `String.replace(target, replacement)`: every occurrence, left to right. */
  function ReplaceAll(s: string, target: string, replacement: string): string
    requires |target| > 0
    decreases |s|
  {
    if |s| == 0 then ""
    else if StartsWith(s, target) then replacement + ReplaceAll(s[|target|..], target, replacement)
    else [s[0]] + ReplaceAll(s[1..], target, replacement)
  }

  function DropRegexSpaces(s: string): (r: string)
    ensures |r| <= |s| && r == s[|s| - |r|..]
    ensures |r| > 0 ==> !IsRegexSpace(r[0])
  {
    if |s| > 0 && IsRegexSpace(s[0]) then DropRegexSpaces(s[1..]) else s
  }

  /** `s.replaceAll("\\s+", "_")`: every run of `\s` becomes one underscore. */
  function CollapseSpaces(s: string): (r: string)
    ensures forall i :: 0 <= i < |r| ==> !IsRegexSpace(r[i])
    decreases |s|
  {
    if |s| == 0 then ""
    else if IsRegexSpace(s[0]) then "_" + CollapseSpaces(DropRegexSpaces(s[1..]))
    else [s[0]] + CollapseSpaces(s[1..])
  }

  /** Number of maximal runs of non-`\s` characters, `inRun` telling whether one is open. */
  function CountTokensFrom(s: string, inRun: bool): nat {
    if |s| == 0 then 0
    else if IsRegexSpace(s[0]) then CountTokensFrom(s[1..], false)
    else (if inRun then 0 else 1) + CountTokensFrom(s[1..], true)
  }

  function CountTokens(s: string): nat {
    CountTokensFrom(s, false)
  }

  predicate HasRegexSpace(s: string) {
    exists i :: 0 <= i < |s| && IsRegexSpace(s[i])
  }

  /**
   * `s.split("\\s+").length`: with no separator the whole string is one
   * piece (even ""); otherwise one piece per token, plus the empty leading
   * piece when `s` starts with a separator and some token follows;
   * trailing empty pieces are dropped.
   */
  function SplitLength(s: string): nat {
    if !HasRegexSpace(s) then 1
    else CountTokens(s) + (if IsRegexSpace(s[0]) && CountTokens(s) > 0 then 1 else 0)
  }

  lemma {:induction false} CountTokensNoSpace(s: string, inRun: bool)
    requires !HasRegexSpace(s)
    ensures CountTokensFrom(s, inRun) == if |s| == 0 || inRun then 0 else 1
  {
    if |s| > 0 {
      assert !HasRegexSpace(s[1..]) by {
        forall i | 0 <= i < |s[1..]| ensures !IsRegexSpace(s[1..][i]) {
          assert s[1..][i] == s[i + 1];
        }
      }
      CountTokensNoSpace(s[1..], true);
    }
  }

  /** A non-empty string without `\s` is one word; so is "". */
  lemma SplitLengthOfWord(s: string)
    requires !HasRegexSpace(s)
    ensures SplitLength(s) == 1
  {
  }

  /** `String.join(sep, xs)`. */
  function Join(sep: string, xs: seq<string>): (r: string)
    ensures |xs| == 0 ==> r == ""
    ensures |xs| == 1 ==> r == xs[0]
  {
    if |xs| == 0 then ""
    else if |xs| == 1 then xs[0]
    else Join(sep, xs[..|xs| - 1]) + sep + xs[|xs| - 1]
  }

  /** `String.lastIndexOf(c)`: -1 when absent. */
  function LastIndexOf(s: string, c: char): (r: int)
    ensures -1 <= r < |s|
    ensures r >= 0 ==> s[r] == c
    ensures forall k :: r < k < |s| ==> s[k] != c
  {
    if |s| == 0 then -1
    else if s[|s| - 1] == c then |s| - 1
    else LastIndexOf(s[..|s| - 1], c)
  }

  predicate IsDigit(c: char) {
    '0' <= c <= '9'
  }

  predicate AllDigits(s: string) {
    forall i :: 0 <= i < |s| ==> IsDigit(s[i])
  }

  function DigitsValue(s: string): nat
    requires AllDigits(s)
  {
    if |s| == 0 then 0 else DigitsValue(s[..|s| - 1]) * 10 + (s[|s| - 1] as int - '0' as int)
  }

  const IntMin: int := -0x8000_0000
  const IntMax: int := 0x7FFF_FFFF

  /**
   * `Integer.parseInt`: an optional sign, at least one decimal digit and a
   * value within the 32-bit range; anything else throws
   * `NumberFormatException` (here `None`). Non-ASCII digits are not modelled.
   */
  function ParseInt(s: string): (r: Option<int>)
    ensures r.Some? ==> IntMin <= r.value <= IntMax
    ensures r.Some? ==> |s| > 0
  {
    if |s| == 0 then None
    else
      var negative := s[0] == '-';
      var digits := if s[0] == '-' || s[0] == '+' then s[1..] else s;
      if |digits| == 0 || !AllDigits(digits) then None
      else
        var d: int := DigitsValue(digits);
        var v := if negative then -d else d;
        if IntMin <= v <= IntMax then Some(v) else None
  }

  function DigitChar(d: nat): char
    requires d < 10
  {
    ('0' as int + d) as char
  }

  /** Decimal rendering of a natural number, as `StringBuilder.append(int)`. */
  function NatToString(n: nat): (r: string)
    ensures |r| > 0 && AllDigits(r)
    ensures |r| > 1 ==> r[0] != '0'
  {
    if n < 10 then [DigitChar(n)] else NatToString(n / 10) + [DigitChar(n % 10)]
  }

  lemma {:induction false} DigitsValueOfNatToString(n: nat)
    ensures DigitsValue(NatToString(n)) == n
  {
    if n >= 10 {
      var s := NatToString(n);
      assert s[..|s| - 1] == NatToString(n / 10);
      DigitsValueOfNatToString(n / 10);
    }
  }

  /** Printing an index and parsing it back gives the index. */
  lemma ParseIntOfNatToString(n: nat)
    requires n <= IntMax
    ensures ParseInt(NatToString(n)) == Some(n)
  {
    DigitsValueOfNatToString(n);
  }

  /** A printed number is present text with nothing to trim. */
  lemma NatToStringIsPlainText(n: nat)
    ensures IsPresentText(Some(NatToString(n)))
    ensures Trim(NatToString(n)) == NatToString(n)
  {
    var s := NatToString(n);
    assert IsDigit(s[0]) && IsDigit(s[|s| - 1]);
    assert !IsWhitespace(s[0]);
  }
}

=== FILE: Learning.dfy ===
/**
 * `handleLearningSuggestionResponse`: the answer to "remember this
 * instruction?". The lower-cased, trimmed message must equal a whole word
 * of one vocabulary; anything else drops the suggestion and lets the
 * message be processed as a command.
 */
module Learning {
  import opened Wrappers
  import opened JavaStrings
  import opened Replies
  import opened Profile
  import opened ContextService

  const AffirmativeAnswers: set<string> :=
    {"да", "yes", "ок", "окей", "ok", "okay", "конечно", "запомни", "сохрани", "ага", "угу", "давай", "го", "1", "+"}

  const NegativeAnswers: set<string> :=
    {"нет", "no", "не надо", "не нужно", "отмена", "cancel", "0", "-", "неа", "не"}

  /** No answer is both a yes and a no. */
  lemma AnswersDisjoint()
    ensures AffirmativeAnswers * NegativeAnswers == {}
  {
  }

  const RejectText: string := "👌 Ок, не запоминаю"

  function AcceptText(suggestion: string): string {
    "✅ Запомнил: \"" + suggestion + "\""
  }

  /** The stores, profile and optional reply after the check. */
  datatype LearningStep = LearningStep(store: Store, context: UserContext, response: Option<ChatResponse>)

  /** The answer as the vocabularies see it. */
  function Answer(message: string): string {
    Trim(ToLower(message))
  }

  /** `handleLearningSuggestionResponse`; a `None` reply is the null that lets processing continue. */
  function HandleLearningResponse(chatId: Option<string>, message: string, c: UserContext, store: Store)
    : (r: LearningStep)
    ensures !IsPresentText(c.pendingSuggestion) ==> r == LearningStep(store, c, None)
    ensures IsPresentText(c.pendingSuggestion) ==>
      && r.context.pendingSuggestion.None?
      && r.store == SaveContext(store, r.context)
      && (r.response.Some? <==> Answer(message) in AffirmativeAnswers + NegativeAnswers)
    ensures IsPresentText(c.pendingSuggestion) && Answer(message) in AffirmativeAnswers ==>
      var stored := GetContext(store, c.userId);
      && r.context == stored.(customInstructions := r.context.customInstructions, pendingSuggestion := None,
                              conversationHistory := [])
      && r.context.customInstructions == Some(Items(stored.customInstructions) + [c.pendingSuggestion.value])
      && r.response == Some(Reply(chatId, true, Some(Plain(AcceptText(c.pendingSuggestion.value)))))
    ensures IsPresentText(c.pendingSuggestion) && Answer(message) !in AffirmativeAnswers
            && Answer(message) in NegativeAnswers ==>
      && r.context == c.(pendingSuggestion := None, conversationHistory := [])
      && r.response == Some(Reply(chatId, true, Some(Plain(RejectText))))
    ensures IsPresentText(c.pendingSuggestion) && Answer(message) !in AffirmativeAnswers + NegativeAnswers ==>
      r.context == c.(pendingSuggestion := None)
  {
    if !IsPresentText(c.pendingSuggestion) then LearningStep(store, c, None)
    else
      var suggestion := c.pendingSuggestion.value;
      var answer := Answer(message);
      if answer in AffirmativeAnswers then
        var stored := GetContext(store, c.userId);
        var updated := ClearHistory(AddInstruction(stored, suggestion).(pendingSuggestion := None));
        LearningStep(SaveContext(store, updated), updated,
                     Some(Reply(chatId, true, Some(Plain(AcceptText(suggestion))))))
      else if answer in NegativeAnswers then
        var updated := ClearHistory(c.(pendingSuggestion := None));
        LearningStep(SaveContext(store, updated), updated, Some(Reply(chatId, true, Some(Plain(RejectText)))))
      else
        var updated := c.(pendingSuggestion := None);
        LearningStep(SaveContext(store, updated), updated, None)
  }

  /**
   * A yes stores the suggestion as the last instruction of the profile
   * read from the store (edits made earlier in the turn are not carried
   * over), with no suggestion left pending.
   */
  lemma AcceptPersistsInstruction(chatId: Option<string>, message: string, c: UserContext, store: Store)
    requires Keyed(store) && IsPresentText(c.pendingSuggestion) && Answer(message) in AffirmativeAnswers
    ensures var after := GetContext(HandleLearningResponse(chatId, message, c, store).store, c.userId);
      && after.customInstructions == Some(Items(GetContext(store, c.userId).customInstructions) + [c.pendingSuggestion.value])
      && after.pendingSuggestion.None?
  {
    var r := HandleLearningResponse(chatId, message, c, store);
    KeyedReads(store, c.userId, r.context);
    GetAfterSave(store, r.context);
  }

  /** A no leaves the stored instructions as the profile had them. */
  lemma RejectKeepsInstructions(chatId: Option<string>, message: string, c: UserContext, store: Store)
    requires IsPresentText(c.pendingSuggestion) && Answer(message) in NegativeAnswers
    ensures var after := GetContext(HandleLearningResponse(chatId, message, c, store).store, c.userId);
      after.customInstructions == c.customInstructions && after.pendingSuggestion.None?
  {
    var answer := Answer(message);
    assert answer !in AffirmativeAnswers by {
      AnswersDisjoint();
      assert answer !in AffirmativeAnswers * NegativeAnswers;
    }
    var r := HandleLearningResponse(chatId, message, c, store);
    var updated := c.(pendingSuggestion := None, conversationHistory := []);
    assert r.context == updated && r.store == SaveContext(store, updated);
    GetAfterSave(store, updated);
  }

  /** Lower-casing goes character by character, so it distributes over concatenation. */
  lemma ToLowerAppend(a: string, b: string)
    ensures ToLower(a + b) == ToLower(a) + ToLower(b)
  {
    var x := ToLower(a + b);
    var y := ToLower(a) + ToLower(b);
    assert |x| == |y|;
    forall i | 0 <= i < |x| ensures x[i] == y[i] {
      if i < |a| { assert (a + b)[i] == a[i]; } else { assert (a + b)[i] == b[i - |a|]; }
    }
  }

  /** Lower-casing an upper-cased text gives the lower-cased text. */
  lemma ToLowerOfToUpper(m: string)
    ensures ToLower(ToUpper(m)) == ToLower(m)
  {
    var x := ToLower(ToUpper(m));
    forall i | 0 <= i < |m| ensures x[i] == ToLower(m)[i] {
      var ch := m[i];
      assert ToLowerChar(ToUpperChar(ch)) == ToLowerChar(ch);
    }
  }

  /** Blanks are their own lower case. */
  lemma ToLowerOfBlanks(p: string)
    requires AllTrimmable(p)
    ensures ToLower(p) == p
  {
  }

  /**
   * Upper case and surrounding blanks do not matter: the answer read from
   * any upper-cased text with blanks around it is the answer read from
   * the text itself, so " ДА " is a yes.
   */
  lemma AnswerIgnoresCaseAndBlanks(p: string, m: string, q: string)
    requires AllTrimmable(p) && AllTrimmable(q)
    ensures Answer(p + ToUpper(m) + q) == Answer(m)
  {
    ToLowerAppend(p + ToUpper(m), q);
    ToLowerAppend(p, ToUpper(m));
    ToLowerOfToUpper(m);
    ToLowerOfBlanks(p);
    ToLowerOfBlanks(q);
    assert ToLower(p + ToUpper(m) + q) == p + ToLower(m) + q;
    TrimPadded(p, ToLower(m), q);
  }
}

=== FILE: LinkedUsers.dfy ===
/** `extractUserId`: the user id inside a linked-user entry `NAME (id)`, or the whole entry. */
module LinkedUsers {
  import opened Wrappers
  import opened JavaStrings

  /** `extractUserId`; `None` for a null or blank entry. */
  function ExtractUserId(entry: Option<string>): (r: Option<string>)
    ensures r.None? <==> entry.None? || IsBlank(entry.value)
    ensures r.Some? ==> IsTrimmed(r.value)
  {
    if entry.None? || IsBlank(entry.value) then None
    else
      var e := entry.value;
      var start := LastIndexOf(e, '(');
      var end := LastIndexOf(e, ')');
      if start != -1 && end != -1 && end > start then Some(Trim(e[start + 1..end]))
      else Some(Trim(e))
  }

  /** The last occurrence is the one with no occurrence after it. */
  lemma LastIndexOfAt(s: string, c: char, i: nat)
    requires i < |s| && s[i] == c && forall k :: i < k < |s| ==> s[k] != c
    ensures LastIndexOf(s, c) == i
  {
  }

  /** Where the parentheses of `NAME (id)` are, and what lies between them. */
  lemma {:induction false} LabelledEntryShape(name: string, id: string)
    requires '(' !in id && ')' !in id
    ensures var e := name + " (" + id + ")";
      && LastIndexOf(e, '(') == |name| + 1 && LastIndexOf(e, ')') == |e| - 1
      && e[|name| + 2..|e| - 1] == id && !IsBlank(e)
  {
    var pre := name + " (";
    var body := pre + id;
    var e := body + ")";
    var open := |name| + 1;
    var close := |body|;
    assert e[open] == pre[open] == '(' && e[close] == ')';
    assert e[..close] == body && body[|pre|..] == id;
    assert forall k :: open < k < |e| ==> e[k] != '(' by {
      forall k | open < k < |e| ensures e[k] != '(' {
        if k < close { assert e[k] == body[k] == id[k - |pre|]; }
      }
    }
    LastIndexOfAt(e, '(', open);
    LastIndexOfAt(e, ')', close);
    assert !IsWhitespace(e[open]);
    assert e[open + 1..close] == body[|pre|..];
  }

  /** The entry written as `NAME (id)` gives back the (trimmed) id, whatever the name holds. */
  lemma ExtractFromLabelledEntry(name: string, id: string)
    requires '(' !in id && ')' !in id
    ensures ExtractUserId(Some(name + " (" + id + ")")) == Some(Trim(id))
  {
    LabelledEntryShape(name, id);
  }

  /** An entry without parentheses is the id itself, trimmed. */
  lemma ExtractFromPlainEntry(id: string)
    requires '(' !in id && ')' !in id && !IsBlank(id)
    ensures ExtractUserId(Some(id)) == Some(Trim(id))
  {
  }
}

=== FILE: MetaCommands.dfy ===
/**
 * `handleAIMetaCommand` and `handleUndo`: settings commands the interpreter
 * recognised in the message. The router is closed: an unknown kind yields
 * no reply and the turn goes on as a financial command.
 */
module MetaCommands {
  import opened Wrappers
  import opened JavaStrings
  import opened Commands
  import opened Replies
  import opened Records
  import opened Profile
  import opened ContextService
  import opened Outcomes

  /** A reply, the profile afterwards, and the ledger rows dispatched. */
  datatype MetaOutcome = MetaOutcome(context: UserContext, response: ChatResponse, dispatched: seq<SheetsRecord>)

  const MetaKinds: set<string> := {
    "SHOW_SETTINGS", "ADD_ACCOUNT", "ADD_FUND", "ADD_INSTRUCTION", "REMOVE_INSTRUCTION",
    "SET_DEFAULT_CURRENCY", "SET_DEFAULT_ACCOUNT", "SET_DEFAULT_FUND", "CLEAR_INSTRUCTIONS", "UNDO", "HELP"}

  const NoUndoText: string := "No operations to undo"
  const DuplicateMark: string := " (уже было)"

  /** The interpreter's own text as the reply; a null text gives a null message. */
  function AiReply(chatId: Option<string>, aiMessage: Option<string>): (r: ChatResponse)
    ensures r.success && r.operationsCount == 0
    ensures r.message.None? <==> aiMessage.None?
    ensures aiMessage.Some? ==> r.message == Some(Plain(aiMessage.value))
  {
    Reply(chatId, true, if aiMessage.Some? then Some(Plain(aiMessage.value)) else None)
  }

  /** Account and fund names: upper case, each run of `\s` replaced by `_`. */
  function NormalizeName(value: string): (r: string)
    ensures forall i :: 0 <= i < |r| ==> !IsRegexSpace(r[i])
  {
    CollapseSpaces(ToUpper(value))
  }

  /** The instruction index a REMOVE_INSTRUCTION value names, when it is inside the list. */
  function InstructionIndex(c: UserContext, value: Option<string>): (r: Option<nat>)
    ensures r.Some? ==> c.customInstructions.Some? && r.value < |c.customInstructions.value|
  {
    if !IsPresentText(value) then None
    else match ParseInt(Trim(value.value))
      case None => None
      case Some(index) =>
        if c.customInstructions.Some? && 0 <= index < |c.customInstructions.value| then Some(index) else None
  }

  /** `handleUndo`: pop the newest operation and dispatch its row flagged as an undo. */
  function HandleUndo(chatId: Option<string>, userName: Option<string>, c: UserContext, aiMessage: Option<string>)
    : (r: Result<MetaOutcome, Fault>)
    ensures !HasOperationsToUndo(c) ==>
      r == Success(MetaOutcome(c, Reply(chatId, false, Some(Plain(aiMessage.GetOr(NoUndoText)))), []))
    ensures HasOperationsToUndo(c) ==>
      var last := c.operations[|c.operations| - 1];
      && (r.Failure? <==> last.operationType.None?)
      && (r.Success? ==>
            && r.value.context.operations + [last] == c.operations
            && r.value.context == c.(operations := r.value.context.operations)
            && r.value.dispatched == [FromParsedCommand(last, userName).(undo := true)]
            && r.value.response.success
            && r.value.response.parsedCommand == Some(last))
  {
    if !HasOperationsToUndo(c) then
      Success(MetaOutcome(c, Reply(chatId, false, Some(Plain(aiMessage.GetOr(NoUndoText)))), []))
    else
      var (c', popped) := PopLastOperation(c);
      var last := popped.value;
      if last.operationType.None? then Failure(DispatchOfNullType)
      else
        var row := FromParsedCommand(last, userName).(undo := true);
        var text := if aiMessage.Some? then Plain(aiMessage.value) else [Chars("Undo: "), UndoSummary(last)];
        Success(MetaOutcome(c', ChatResponse(chatId, true, Some(text), Some(last), None, 0), [row]))
  }

  /** Undo right after recording an operation restores the ledger and dispatches that operation's undo row. */
  lemma UndoAfterRecord(chatId: Option<string>, userName: Option<string>, c: UserContext, op: ParsedCommand,
                        aiMessage: Option<string>)
    requires op.operationType.Some?
    ensures var r := HandleUndo(chatId, userName, AddOperation(c, op), aiMessage);
      r.Success? && r.value.context == c && r.value.dispatched == [FromParsedCommand(op, userName).(undo := true)]
  {
    PushThenPop(c, op);
  }

  /** The meta command kinds the router knows. */
  datatype MetaKind =
    | ShowSettings | NewAccount | NewFund | NewInstruction | DropInstruction
    | SetCurrency | SetAccount | SetFund | WipeInstructions | UndoLast | Help

  /** The kind's name as the interpreter writes it (upper case). */
  function MetaKindName(k: MetaKind): string {
    match k
    case ShowSettings => "SHOW_SETTINGS"
    case NewAccount => "ADD_ACCOUNT"
    case NewFund => "ADD_FUND"
    case NewInstruction => "ADD_INSTRUCTION"
    case DropInstruction => "REMOVE_INSTRUCTION"
    case SetCurrency => "SET_DEFAULT_CURRENCY"
    case SetAccount => "SET_DEFAULT_ACCOUNT"
    case SetFund => "SET_DEFAULT_FUND"
    case WipeInstructions => "CLEAR_INSTRUCTIONS"
    case UndoLast => "UNDO"
    case Help => "HELP"
  }

  /** The `switch` over the upper-cased kind; `None` is its default branch. */
  function MetaKindOf(s: string): (r: Option<MetaKind>)
    ensures r.Some? ==> MetaKindName(r.value) == s
  {
    if s == "SHOW_SETTINGS" then Some(ShowSettings)
    else if s == "ADD_ACCOUNT" then Some(NewAccount)
    else if s == "ADD_FUND" then Some(NewFund)
    else if s == "ADD_INSTRUCTION" then Some(NewInstruction)
    else if s == "REMOVE_INSTRUCTION" then Some(DropInstruction)
    else if s == "SET_DEFAULT_CURRENCY" then Some(SetCurrency)
    else if s == "SET_DEFAULT_ACCOUNT" then Some(SetAccount)
    else if s == "SET_DEFAULT_FUND" then Some(SetFund)
    else if s == "CLEAR_INSTRUCTIONS" then Some(WipeInstructions)
    else if s == "UNDO" then Some(UndoLast)
    else if s == "HELP" then Some(Help)
    else None
  }

  /** The router recognises exactly the kinds' names. */
  lemma MetaKindNameRoundTrip(k: MetaKind, s: string)
    ensures MetaKindOf(MetaKindName(k)) == Some(k)
    ensures MetaKindOf(s) == Some(k) <==> s == MetaKindName(k)
  {
  }

  /** The names the router recognises are exactly `MetaKinds`. */
  lemma MetaKindOfIffKnown(s: string)
    ensures MetaKindOf(s).Some? <==> s in MetaKinds
  {
  }

  /** One branch of the router, for a recognised kind. */
  function RunMeta(kind: MetaKind, request: ChatRequest, value: Option<string>, ai: Option<string>,
                   c: UserContext, store: Store): (r: Result<MetaOutcome, Fault>)
    ensures r.Success? && r.value.dispatched != [] ==> kind == UndoLast && r.value.response.success
    ensures r.Failure? ==> kind == UndoLast
    ensures kind == UndoLast ==> r == HandleUndo(request.chatId, request.userName, c, ai)
    // every other kind is a pure settings change: it succeeds, dispatches nothing and keeps the ledger
    ensures kind != UndoLast ==>
      && r.Success? && r.value.dispatched == [] && r.value.response.success
      && r.value.response.chatId == request.chatId && r.value.response.operationsCount == 0
      && r.value.context.operations == c.operations
    ensures kind == ShowSettings ==>
      && r.value.context == c
      && r.value.response.message.Some? && |r.value.response.message.value| == 1
      && r.value.response.message.value[0].Chars?
      && EndsWith(r.value.response.message.value[0].chars, GetContextSummary(store, request.userId))
      && (ai.Some? ==> StartsWith(r.value.response.message.value[0].chars, ai.value + "\n\n"))
      && (ai.None? ==> r.value.response.message.value[0].chars == GetContextSummary(store, request.userId))
    ensures kind == Help ==> r.value.context == c && r.value.response == AiReply(request.chatId, ai)
    ensures kind == NewAccount ==>
      && r.value.response == AiReply(request.chatId, ai)
      && r.value.context == c.(accounts := r.value.context.accounts)
      && (IsPresentText(value) ==> r.value.context.accounts == Some(Items(c.accounts) + [NormalizeName(value.value)]))
      && (!IsPresentText(value) ==> r.value.context == c)
    ensures kind == NewFund ==>
      && r.value.response == AiReply(request.chatId, ai)
      && r.value.context == c.(funds := r.value.context.funds)
      && (IsPresentText(value) ==> r.value.context.funds == Some(Items(c.funds) + [NormalizeName(value.value)]))
      && (!IsPresentText(value) ==> r.value.context == c)
    ensures kind == NewInstruction || kind == DropInstruction ==>
      r.value.context == c.(customInstructions := r.value.context.customInstructions)
    ensures kind == DropInstruction ==> r.value.response == AiReply(request.chatId, ai)
    ensures kind == SetCurrency ==>
      && r.value.response == AiReply(request.chatId, ai)
      && r.value.context == c.(defaultCurrency := if IsPresentText(value) then Some(ToUpper(value.value)) else c.defaultCurrency)
    ensures kind == SetAccount ==>
      && r.value.response == AiReply(request.chatId, ai)
      && r.value.context == c.(defaultAccount := if IsPresentText(value) then Some(ToUpper(value.value)) else c.defaultAccount)
    ensures kind == SetFund ==>
      && r.value.response == AiReply(request.chatId, ai)
      && r.value.context == c.(defaultFund := if IsPresentText(value) then Some(ToUpper(value.value)) else c.defaultFund)
    ensures kind == WipeInstructions ==>
      r.value.context == ClearInstructions(c) && r.value.response == AiReply(request.chatId, ai)
  {
    var chatId := request.chatId;
    match kind
    case ShowSettings =>
      var summary := GetContextSummary(store, request.userId);
      var text := if ai.Some? then ai.value + "\n\n" + summary else summary;
      Success(MetaOutcome(c, Reply(chatId, true, Some(Plain(text))), []))
    case NewAccount =>
      var c' := if IsPresentText(value) then AddAccount(c, NormalizeName(value.value)) else c;
      Success(MetaOutcome(c', AiReply(chatId, ai), []))
    case NewFund =>
      var c' := if IsPresentText(value) then AddFund(c, NormalizeName(value.value)) else c;
      Success(MetaOutcome(c', AiReply(chatId, ai), []))
    case NewInstruction =>
      if IsPresentText(value) && c.customInstructions.Some? && value.value in c.customInstructions.value then
        Success(MetaOutcome(c, Reply(chatId, true, Some(Plain(JavaText(ai) + DuplicateMark))), []))
      else
        var c' := if IsPresentText(value) then AddInstruction(c, value.value) else c;
        Success(MetaOutcome(c', AiReply(chatId, ai), []))
    case DropInstruction =>
      var index := InstructionIndex(c, value);
      var c' := if index.Some? then RemoveInstructionAt(c, index.value) else c;
      Success(MetaOutcome(c', AiReply(chatId, ai), []))
    case SetCurrency =>
      var c' := if IsPresentText(value) then c.(defaultCurrency := Some(ToUpper(value.value))) else c;
      Success(MetaOutcome(c', AiReply(chatId, ai), []))
    case SetAccount =>
      var c' := if IsPresentText(value) then c.(defaultAccount := Some(ToUpper(value.value))) else c;
      Success(MetaOutcome(c', AiReply(chatId, ai), []))
    case SetFund =>
      var c' := if IsPresentText(value) then c.(defaultFund := Some(ToUpper(value.value))) else c;
      Success(MetaOutcome(c', AiReply(chatId, ai), []))
    case WipeInstructions =>
      Success(MetaOutcome(ClearInstructions(c), AiReply(chatId, ai), []))
    case UndoLast =>
      HandleUndo(chatId, request.userName, c, ai)
    case Help =>
      Success(MetaOutcome(c, AiReply(chatId, ai), []))
  }

  /** `handleAIMetaCommand`; `None` is the null it returns for an unknown kind. */
  function HandleMetaCommand(request: ChatRequest, batch: ParsedCommandList, c: UserContext, store: Store)
    : (r: Result<Option<MetaOutcome>, Fault>)
    requires batch.metaCommand.Some? && IsPresent(batch.metaCommand.value)
    ensures r.Success? && r.value.Some? && r.value.value.dispatched != [] ==> r.value.value.response.success
    ensures r == Success(None) <==> ToUpper(batch.metaCommand.value.metaType.value) !in MetaKinds
    ensures var kind := MetaKindOf(ToUpper(batch.metaCommand.value.metaType.value));
      kind.Some? ==> r == (match RunMeta(kind.value, request, batch.metaCommand.value.value, batch.clarification, c, store)
                           case Success(o) => Success(Some(o))
                           case Failure(f) => Failure(f))
  {
    var meta := batch.metaCommand.value;
    var kindName := ToUpper(meta.metaType.value);
    match MetaKindOf(kindName)
    case None =>
      MetaKindOfIffKnown(kindName);
      Success(None)
    case Some(kind) =>
      MetaKindOfIffKnown(kindName);
      match RunMeta(kind, request, meta.value, batch.clarification, c, store)
      case Success(outcome) => Success(Some(outcome))
      case Failure(f) => Failure(f)
  }

  /** Adding an instruction that is already stored changes nothing and says so. */
  lemma DuplicateInstructionKeepsProfile(request: ChatRequest, ai: Option<string>, c: UserContext,
                                         store: Store, instruction: string)
    requires !IsBlank(instruction) && c.customInstructions.Some? && instruction in c.customInstructions.value
    ensures var r := RunMeta(NewInstruction, request, Some(instruction), ai, c, store);
      r.Success? && r.value.context == c && r.value.response.message == Some(Plain(JavaText(ai) + DuplicateMark))
  {
  }

  /** A new instruction is appended to the list, with the interpreter's reply. */
  lemma NewInstructionAppended(request: ChatRequest, ai: Option<string>, c: UserContext,
                               store: Store, instruction: string)
    requires !IsBlank(instruction) && instruction !in Items(c.customInstructions)
    ensures var r := RunMeta(NewInstruction, request, Some(instruction), ai, c, store);
      r.Success? && r.value.context.customInstructions == Some(Items(c.customInstructions) + [instruction])
      && r.value.response == AiReply(request.chatId, ai)
  {
  }

  /** The removal branch for a value whose trimmed text parses to `index`. */
  lemma DropInstructionParsed(request: ChatRequest, ai: Option<string>, c: UserContext,
                              store: Store, text: string, index: int)
    requires IsPresentText(Some(text)) && ParseInt(Trim(text)) == Some(index)
    ensures var r := RunMeta(DropInstruction, request, Some(text), ai, c, store);
      && r.Success?
      && r.value.context == if c.customInstructions.Some? && 0 <= index < |c.customInstructions.value|
                            then RemoveInstructionAt(c, index) else c
  {
    assert InstructionIndex(c, Some(text)) ==
      if c.customInstructions.Some? && 0 <= index < |c.customInstructions.value| then Some(index) else None;
  }

  /**
   * A null or blank value, or one that does not read as a 32-bit integer
   * (where the source catches the `NumberFormatException`), removes
   * nothing.
   */
  lemma DropInstructionUnparsed(request: ChatRequest, ai: Option<string>, c: UserContext,
                                store: Store, value: Option<string>)
    requires !IsPresentText(value) || ParseInt(Trim(value.value)).None?
    ensures var r := RunMeta(DropInstruction, request, value, ai, c, store);
      r.Success? && r.value.context == c && r.value.dispatched == []
  {
    assert InstructionIndex(c, value).None?;
  }

  /**
   * The setters, CLEAR_INSTRUCTIONS, SHOW_SETTINGS and HELP can be repeated:
   * a second identical command leaves the profile as the first left it.
   * (ADD_ACCOUNT and ADD_FUND are not repeatable: each appends again.)
   */
  lemma SettingsRepeatable(kind: MetaKind, request: ChatRequest, value: Option<string>, ai: Option<string>,
                           c: UserContext, store: Store)
    requires kind in {SetCurrency, SetAccount, SetFund, WipeInstructions, ShowSettings, Help}
    ensures var once := RunMeta(kind, request, value, ai, c, store).value.context;
      RunMeta(kind, request, value, ai, once, store).value.context == once
  {
  }

  /** A decimal index inside the list removes that instruction and keeps the others in order. */
  lemma RemoveInstructionByIndex(request: ChatRequest, ai: Option<string>, c: UserContext,
                                 store: Store, index: nat)
    requires c.customInstructions.Some? && index < |c.customInstructions.value| && index <= IntMax
    ensures var r := RunMeta(DropInstruction, request, Some(NatToString(index)), ai, c, store);
      var xs := c.customInstructions.value;
      r.Success? && r.value.context.customInstructions == Some(xs[..index] + xs[index + 1..])
  {
    NatToStringIsPlainText(index);
    ParseIntOfNatToString(index);
    DropInstructionParsed(request, ai, c, store, NatToString(index), index);
  }

  /** An index past the end of the list leaves the profile as it was. */
  lemma RemoveInstructionOutOfRange(request: ChatRequest, ai: Option<string>, c: UserContext,
                                    store: Store, index: nat)
    requires index >= |Items(c.customInstructions)| && index <= IntMax
    ensures RunMeta(DropInstruction, request, Some(NatToString(index)), ai, c, store).value.context == c
  {
    NatToStringIsPlainText(index);
    ParseIntOfNatToString(index);
    DropInstructionParsed(request, ai, c, store, NatToString(index), index);
  }
}

=== FILE: Onboarding.dfy ===
/**
 * `OnboardingService`: the setup flow a new user goes through before
 * financial commands are accepted. The model reply is an input, either a
 * decoded `OnboardingResult` or text that did not decode.
 */
module Onboarding {
  import opened Wrappers
  import opened JavaStrings
  import opened Replies
  import opened Profile

  datatype OnboardingState = NotStarted | AskName | AskCurrency | AskAccounts | AskFunds | AskLinked | Completed

  /** `OnboardingState.name()`. */
  function StateName(s: OnboardingState): string {
    match s
    case NotStarted => "NOT_STARTED"
    case AskName => "ASK_NAME"
    case AskCurrency => "ASK_CURRENCY"
    case AskAccounts => "ASK_ACCOUNTS"
    case AskFunds => "ASK_FUNDS"
    case AskLinked => "ASK_LINKED"
    case Completed => "COMPLETED"
  }

  /** `OnboardingState.valueOf`; `None` stands for `IllegalArgumentException`. */
  function StateValueOf(s: string): Option<OnboardingState> {
    if s == "NOT_STARTED" then Some(NotStarted)
    else if s == "ASK_NAME" then Some(AskName)
    else if s == "ASK_CURRENCY" then Some(AskCurrency)
    else if s == "ASK_ACCOUNTS" then Some(AskAccounts)
    else if s == "ASK_FUNDS" then Some(AskFunds)
    else if s == "ASK_LINKED" then Some(AskLinked)
    else if s == "COMPLETED" then Some(Completed)
    else None
  }

  /** `valueOf` accepts exactly the names `name()` produces. */
  lemma StateNameRoundTrip(st: OnboardingState, s: string)
    ensures StateValueOf(StateName(st)) == Some(st)
    ensures StateValueOf(s) == Some(st) <==> s == StateName(st)
  {
  }

  /** At least one account and one fund. */
  predicate HasMinimumSetup(c: UserContext) {
    HasItems(c.accounts) && HasItems(c.funds)
  }

  /** `needsOnboarding`; `None` is a null context. */
  function NeedsOnboarding(context: Option<UserContext>): (r: bool)
    ensures context.None? ==> r
    ensures context.Some? && context.value.onboardingState == Some("COMPLETED") ==> !r
    ensures (context.Some? && context.value.onboardingState.Some?
             && context.value.onboardingState.value !in {"COMPLETED", "NOT_STARTED"}) ==> r
    ensures context.Some? && context.value.onboardingState in {None, Some("NOT_STARTED")} ==>
            (r <==> !HasMinimumSetup(context.value))
  {
    match context
    case None => true
    case Some(c) =>
      if c.onboardingState == Some(StateName(Completed)) then false
      else if c.onboardingState.Some? && c.onboardingState.value != StateName(NotStarted) then true
      else !HasMinimumSetup(c)
  }

  /**
   * A loaded profile skips onboarding exactly when it is marked completed,
   * or has no state (or NOT_STARTED) and the minimum setup.
   */
  lemma NoOnboardingIff(c: UserContext)
    ensures !NeedsOnboarding(Some(c)) <==>
      (c.onboardingState == Some("COMPLETED")
       || (c.onboardingState in {None, Some("NOT_STARTED")} && HasMinimumSetup(c)))
  {
  }

  /** A brand-new profile is onboarded. */
  lemma NewContextNeedsOnboarding(userId: string)
    ensures NeedsOnboarding(Some(NewContext(userId)))
  {
  }

  const SkipPhrases: seq<string> :=
    ["skip all", "skip everything", "пропустить всё", "пропустить все", "skip setup", "пропустить настройку"]

  /** The lower-cased, trimmed message mentions one of the skip phrases. */
  predicate IsSkipAll(message: string) {
    var lower := Trim(ToLower(message));
    exists i :: 0 <= i < |SkipPhrases| && Contains(lower, SkipPhrases[i])
  }

  const SkipAccounts: seq<string> := ["CARD", "CASH"]
  const SkipFunds: seq<string> := ["GENERAL"]

  /** The skip-all shortcut: seed what is missing and mark the flow completed. */
  function SkipAll(c: UserContext): (r: UserContext)
    ensures r.onboardingState == Some("COMPLETED")
    ensures r.accounts == if HasItems(c.accounts) then c.accounts else Some(SkipAccounts)
    ensures r.funds == if HasItems(c.funds) then c.funds else Some(SkipFunds)
    ensures r == c.(accounts := r.accounts, funds := r.funds, onboardingState := r.onboardingState)
  {
    var withAccounts := if !HasItems(c.accounts) then c.(accounts := Some(SkipAccounts)) else c;
    var withFunds := if !HasItems(withAccounts.funds) then withAccounts.(funds := Some(SkipFunds)) else withAccounts;
    withFunds.(onboardingState := Some(StateName(Completed)))
  }

  /** After skip-all the profile has the minimum setup and needs no more onboarding. */
  lemma SkipAllFinishesOnboarding(c: UserContext)
    ensures HasMinimumSetup(SkipAll(c))
    ensures !NeedsOnboarding(Some(SkipAll(c)))
  {
  }

  /**
   * The step to run for a stored state string, and the string stored back:
   * null, empty and unrecognised strings become ASK_ACCOUNTS.
   */
  function ResolveState(stored: Option<string>): (r: (OnboardingState, Option<string>))
    ensures r.1 == Some(StateName(r.0))
    ensures stored.None? || stored == Some("") || StateValueOf(stored.value).None? ==> r.0 == AskAccounts
    ensures stored.Some? && StateValueOf(stored.value).Some? ==> r.0 == StateValueOf(stored.value).value && r.1 == stored
  {
    if stored.None? || |stored.value| == 0 then (AskAccounts, Some(StateName(AskAccounts)))
    else match StateValueOf(stored.value)
      case Some(s) => StateNameRoundTrip(s, stored.value); (s, stored)
      case None => (AskAccounts, Some(StateName(AskAccounts)))
  }

  /** What the model extracted for the current step. */
  datatype OnboardingResult = OnboardingResult(
    responseMessage: string,
    stepComplete: bool,
    extractedName: Option<string>,
    extractedCurrency: Option<string>,
    extractedAccounts: Option<seq<string>>,
    extractedFunds: Option<seq<string>>,
    extractedPartner: Option<string>,
    detectedLanguage: Option<string>)

  datatype OnboardingReply = Decoded(result: OnboardingResult) | Undecodable(raw: string)

  /** The result `parseOnboardingResponse` builds when decoding throws. */
  function UnparsedResult(raw: string): (r: OnboardingResult)
    ensures r.responseMessage == raw && !r.stepComplete
    ensures r.extractedName.None? && r.extractedCurrency.None? && r.extractedAccounts.None?
    ensures r.extractedFunds.None? && r.extractedPartner.None? && r.detectedLanguage.None?
  {
    OnboardingResult(raw, false, None, None, None, None, None, None)
  }

  function ResultOf(reply: OnboardingReply): OnboardingResult {
    match reply
    case Decoded(r) => r
    case Undecodable(raw) => UnparsedResult(raw)
  }

  function UpperAll(xs: seq<string>): (r: seq<string>)
    ensures |r| == |xs| && forall i :: 0 <= i < |xs| ==> r[i] == ToUpper(xs[i])
  {
    seq(|xs|, i requires 0 <= i < |xs| => ToUpper(xs[i]))
  }

  /** `updateContextFromResult`: store what the current step extracted. */
  function UpdateContextFromResult(c: UserContext, result: OnboardingResult, state: OnboardingState): (r: UserContext)
    ensures r.preferredLanguage == if result.detectedLanguage.Some? then result.detectedLanguage else c.preferredLanguage
    ensures r.accounts == if state == AskAccounts && HasItems(result.extractedAccounts)
                          then Some(UpperAll(result.extractedAccounts.value)) else c.accounts
    ensures r.funds == if state == AskFunds && HasItems(result.extractedFunds)
                       then Some(UpperAll(result.extractedFunds.value)) else c.funds
    ensures r.displayName == if state == AskName && result.extractedName.Some? then result.extractedName else c.displayName
    ensures r.defaultCurrency == if state == AskCurrency && result.extractedCurrency.Some?
                                 then Some(ToUpper(result.extractedCurrency.value)) else c.defaultCurrency
    ensures r.linkedUsers == if state == AskLinked && result.extractedPartner.Some?
                             then Some([result.extractedPartner.value]) else c.linkedUsers
    ensures r == c.(preferredLanguage := r.preferredLanguage, accounts := r.accounts, funds := r.funds,
                    displayName := r.displayName, defaultCurrency := r.defaultCurrency, linkedUsers := r.linkedUsers)
  {
    var c1 := if result.detectedLanguage.Some? then c.(preferredLanguage := result.detectedLanguage) else c;
    match state
    case AskName =>
      if result.extractedName.Some? then c1.(displayName := result.extractedName) else c1
    case AskCurrency =>
      if result.extractedCurrency.Some? then c1.(defaultCurrency := Some(ToUpper(result.extractedCurrency.value))) else c1
    case AskAccounts =>
      if HasItems(result.extractedAccounts) then c1.(accounts := Some(UpperAll(result.extractedAccounts.value))) else c1
    case AskFunds =>
      if HasItems(result.extractedFunds) then c1.(funds := Some(UpperAll(result.extractedFunds.value))) else c1
    case AskLinked =>
      if result.extractedPartner.Some? then c1.(linkedUsers := Some([result.extractedPartner.value])) else c1
    case Completed => c1
    case NotStarted => c1
  }

  /** A reply that did not decode changes nothing in the profile. */
  lemma UnparsedReplyKeepsProfile(c: UserContext, raw: string, state: OnboardingState)
    ensures UpdateContextFromResult(c, UnparsedResult(raw), state) == c
  {
  }

  /** `hasRequiredDataForState`: the profile really holds what the step asks for. */
  function HasRequiredDataForState(c: UserContext, state: OnboardingState): bool {
    match state
    case AskAccounts => HasItems(c.accounts)
    case AskFunds => HasItems(c.funds)
    case AskName => c.displayName.Some? && |c.displayName.value| > 0
    case AskCurrency => c.defaultCurrency.Some? && |c.defaultCurrency.value| > 0
    case _ => true
  }

  /** `getNextState`. */
  function NextState(current: OnboardingState): (next: OnboardingState)
    ensures next != NotStarted
    ensures current == Completed ==> next == Completed
  {
    match current
    case AskName => AskAccounts
    case AskAccounts => AskFunds
    case AskFunds => Completed
    case AskCurrency => AskName
    case AskLinked => Completed
    case Completed => Completed
    case NotStarted => AskAccounts
  }

  /** The state after `steps` calls of `NextState`. */
  function Advance(s: OnboardingState, steps: nat): OnboardingState
    decreases steps
  {
    if steps == 0 then s else Advance(NextState(s), steps - 1)
  }

  /** Every state reaches COMPLETED within four advances; the longest path starts at ASK_CURRENCY. */
  lemma AdvanceReachesCompleted(s: OnboardingState)
    ensures Advance(s, 4) == Completed
    ensures s == AskCurrency ==> Advance(s, 3) != Completed
  {
  }

  /** The onboarding reply text as the response. */
  function OnboardingResponse(chatId: Option<string>, text: string): (r: ChatResponse)
    ensures r.success && r.message == Some(Plain(text)) && r.operationsCount == 0
  {
    Reply(chatId, true, Some(Plain(text)))
  }

  const SkipAllText: string :=
    "OK! Setup skipped. Default accounts: CARD, CASH. Default category: GENERAL. "
    + "You can now record expenses! Example: 'coffee 500 RUB'"

  /** `handleOnboarding` for one message: the profile to save and the reply. */
  function HandleOnboarding(chatId: Option<string>, message: string, c: UserContext, reply: OnboardingReply)
    : (r: (UserContext, ChatResponse))
    ensures IsSkipAll(message) ==> r.0 == SkipAll(c) && r.1 == OnboardingResponse(chatId, SkipAllText)
    ensures !IsSkipAll(message) ==>
      var state := ResolveState(c.onboardingState).0;
      var updated := UpdateContextFromResult(c, ResultOf(reply), state);
      && r.0 == updated.(onboardingState := r.0.onboardingState)
      && r.0.onboardingState ==
           Some(StateName(if HasRequiredDataForState(updated, state) then NextState(state) else state))
      && r.1 == OnboardingResponse(chatId, ResultOf(reply).responseMessage)
  {
    if IsSkipAll(message) then (SkipAll(c), OnboardingResponse(chatId, SkipAllText))
    else
      var (state, stored) := ResolveState(c.onboardingState);
      var c1 := c.(onboardingState := stored);
      var result := ResultOf(reply);
      var c2 := UpdateContextFromResult(c1, result, state);
      var c3 := if HasRequiredDataForState(c2, state) then c2.(onboardingState := Some(StateName(NextState(state)))) else c2;
      (c3, OnboardingResponse(chatId, result.responseMessage))
  }

  /** The model's own `stepComplete` claim has no effect on the outcome. */
  lemma StepCompleteIgnored(chatId: Option<string>, message: string, c: UserContext, result: OnboardingResult)
    ensures HandleOnboarding(chatId, message, c, Decoded(result))
         == HandleOnboarding(chatId, message, c, Decoded(result.(stepComplete := !result.stepComplete)))
  {
  }

  /** With no data for the step, the state does not move, whatever the model claims. */
  lemma NoDataNoAdvance(chatId: Option<string>, message: string, c: UserContext, result: OnboardingResult)
    requires c.onboardingState == Some("ASK_FUNDS") && !HasItems(c.funds) && !HasItems(result.extractedFunds)
    requires !IsSkipAll(message)
    ensures HandleOnboarding(chatId, message, c, Decoded(result)).0.onboardingState == Some("ASK_FUNDS")
  {
  }

  /**
   * At ASK_ACCOUNTS, any non-empty list of extracted accounts is stored
   * upper-cased and the profile moves on to ASK_FUNDS; with nothing
   * extracted the stored accounts stay, and the step advances only if
   * the profile already had some.
   */
  lemma AccountsStepAdvances(chatId: Option<string>, message: string, c: UserContext, result: OnboardingResult)
    requires c.onboardingState == Some("ASK_ACCOUNTS") && !IsSkipAll(message)
    ensures var c' := HandleOnboarding(chatId, message, c, Decoded(result)).0;
      HasItems(result.extractedAccounts) ==>
        && c'.accounts == Some(UpperAll(result.extractedAccounts.value))
        && (forall i :: 0 <= i < |c'.accounts.value| ==> ToUpper(c'.accounts.value[i]) == c'.accounts.value[i])
        && c'.onboardingState == Some("ASK_FUNDS")
    ensures var c' := HandleOnboarding(chatId, message, c, Decoded(result)).0;
      !HasItems(result.extractedAccounts) ==>
        && c'.accounts == c.accounts
        && c'.onboardingState == Some(if HasItems(c.accounts) then "ASK_FUNDS" else "ASK_ACCOUNTS")
  {
    assert StateValueOf("ASK_ACCOUNTS") == Some(AskAccounts);
    var c' := HandleOnboarding(chatId, message, c, Decoded(result)).0;
    if HasItems(result.extractedAccounts) {
      var xs := result.extractedAccounts.value;
      forall i | 0 <= i < |xs| ensures ToUpper(UpperAll(xs)[i]) == UpperAll(xs)[i] {
        ToUpperIdempotent(xs[i]);
      }
    }
  }
}

=== FILE: Orchestrator.dfy ===
/**
 * `processCommand`: one chat message end to end. The interpreter's batch
 * and the onboarding reply are inputs; the result is the store after the
 * turn, the reply, and the ledger rows dispatched, in order, or the
 * fault where the source throws.
 */
module Orchestrator {
  import opened Wrappers
  import opened JavaStrings
  import opened Commands
  import opened Replies
  import opened Records
  import opened ConversationMessages
  import opened Profile
  import opened ContextService
  import opened Conversation
  import opened CommandParser
  import opened Onboarding
  import opened PendingMerge
  import opened Outcomes
  import opened MetaCommands
  import opened Learning
  import opened AdminCommands

  /** What one turn leaves behind. */
  datatype Step = Step(store: Store, response: ChatResponse, dispatched: seq<SheetsRecord>)

  /** The message as the service reads it: trimmed, a null message read as empty. */
  function MessageText(request: ChatRequest): (r: string)
    ensures IsTrimmed(r)
  {
    if request.message.Some? then Trim(request.message.value) else ""
  }

  /** A clarification question is being asked: not understood, and a clarification given. */
  predicate WasClarification(batch: ParsedCommandList) {
    !batch.understood && batch.clarification.Some?
  }

  /** The profile's figures the debug report shows. */
  function DebugSegment(batch: ParsedCommandList, c: UserContext): Segment {
    DebugReport(batch, |c.pendingCommands|, IsAwaitingClarification(c), |c.conversationHistory|)
  }

  /**
   * Debug mode appends the report after the profile is saved; it never
   * reaches the history. Only the message changes, and it keeps the reply
   * as its prefix.
   */
  function WithDebug(response: ChatResponse, batch: ParsedCommandList, c: UserContext): (r: ChatResponse)
    requires response.message.Some?
    ensures r == response.(message := r.message) && r.message.Some?
    ensures c.debugMode != Some(true) ==> r == response
    ensures c.debugMode == Some(true) ==>
      var before := response.message.value;
      var after := r.message.value;
      && |after| == |before| + 2 && after[..|before|] == before
      && after[|before|] == Chars("\n\n") && after[|after| - 1] == DebugSegment(batch, c)
  {
    if c.debugMode == Some(true) then AppendMessage(response, [Chars("\n\n"), DebugSegment(batch, c)])
    else response
  }

  /** The profile, reply and rows after a successful commit. */
  datatype Commit = Commit(context: UserContext, response: ChatResponse, dispatched: seq<SheetsRecord>)

  /** The compensating row of a correction, and the profile with the corrected operation popped. */
  function Compensate(c: UserContext, batch: ParsedCommandList): (r: Result<(UserContext, seq<SheetsRecord>), Fault>)
    requires !CorrectionFaults(batch, c) && AllValid(batch)
    ensures !batch.correction || !HasOperationsToUndo(c) ==> r == Success((c, []))
    ensures batch.correction && HasOperationsToUndo(c) ==>
      var last := c.operations[|c.operations| - 1];
      && (r.Failure? <==> last.operationType.None?)
      && (r.Success? ==>
            && r.value.0 == c.(operations := c.operations[..|c.operations| - 1])
            && r.value.1 == [FromParsedCommand(CancelOperation(last), LedgerUserName(c))])
  {
    if !batch.correction then Success((c, []))
    else
      var (c', popped) := PopLastOperation(c);
      match popped
      case None => Success((c, []))
      case Some(last) =>
        if last.operationType.None? then Failure(DispatchOfNullType)
        else Success((c', [FromParsedCommand(CancelOperation(last), LedgerUserName(c'))]))
  }

  /** The batch asks for at least one new default. */
  predicate SetsDefaults(batch: ParsedCommandList) {
    batch.setAsDefault.Some? && HasAny(batch.setAsDefault.value)
  }

  /** The suggestion question, when the batch proposes an instruction to remember. */
  function SuggestionPart(batch: ParsedCommandList): (r: Text)
    ensures IsPresentText(batch.suggestedInstruction) <==> |r| == 1
    ensures !IsPresentText(batch.suggestedInstruction) ==> r == []
  {
    if IsPresentText(batch.suggestedInstruction) then SuggestionSuffix(batch.suggestedInstruction.value) else []
  }

  /** The announcement of new defaults, when the batch sets any. */
  function DefaultsPart(batch: ParsedCommandList): (r: Text)
    ensures SetsDefaults(batch) <==> r != []
  {
    if SetsDefaults(batch) then DefaultsSuffix(DefaultLines(batch.setAsDefault.value)) else []
  }

  /**
   * The learning suggestion and the new defaults: stored, and announced
   * after the reply, the suggestion question first.
   */
  function Announce(c: UserContext, batch: ParsedCommandList, response: ChatResponse): (r: (UserContext, ChatResponse))
    requires response.message.Some?
    ensures r.0 == c.(pendingSuggestion := r.0.pendingSuggestion, defaultAccount := r.0.defaultAccount,
                      defaultCurrency := r.0.defaultCurrency, defaultFund := r.0.defaultFund)
    ensures r.0.pendingSuggestion ==
      (if IsPresentText(batch.suggestedInstruction) then batch.suggestedInstruction else c.pendingSuggestion)
    ensures !SetsDefaults(batch) ==>
      r.0.defaultAccount == c.defaultAccount && r.0.defaultCurrency == c.defaultCurrency
      && r.0.defaultFund == c.defaultFund
    ensures SetsDefaults(batch) ==>
      var d := batch.setAsDefault.value;
      && r.0.defaultAccount == Prefer(d.account, c.defaultAccount)
      && r.0.defaultCurrency == Prefer(d.currency, c.defaultCurrency)
      && r.0.defaultFund == Prefer(d.fund, c.defaultFund)
    ensures r.1 == response.(message := r.1.message)
    ensures r.1.message == Some(response.message.value + SuggestionPart(batch) + DefaultsPart(batch))
  {
    var (c1, r1) :=
      if IsPresentText(batch.suggestedInstruction) then
        (c.(pendingSuggestion := batch.suggestedInstruction),
         AppendMessage(response, SuggestionSuffix(batch.suggestedInstruction.value)))
      else (c, response);
    assert response.message.value + [] == response.message.value;
    assert r1.message == Some(response.message.value + SuggestionPart(batch));
    if batch.setAsDefault.Some? && HasAny(batch.setAsDefault.value) then
      var (updated, lines) := ApplyDefaults(c1, batch.setAsDefault.value);
      (updated, AppendMessage(r1, DefaultsSuffix(lines)))
    else
      assert r1.message.value + DefaultsPart(batch) == r1.message.value;
      (c1, r1)
  }

  /** A correction with an operation to compensate. */
  predicate Compensates(c: UserContext, batch: ParsedCommandList) {
    batch.correction && HasOperationsToUndo(c)
  }

  /** The ledger after a commit: the corrected operation gone, the new commands appended. */
  function LedgerAfter(c: UserContext, batch: ParsedCommandList): seq<ParsedCommand> {
    (if Compensates(c, batch) then c.operations[..|c.operations| - 1] else c.operations) + CommandsOf(batch)
  }

  /**
   * The success block after compensation: each command dispatched and
   * recorded, suggestion and defaults stored and announced, history cleared.
   */
  function CommitCompensated(c: UserContext, cancelRows: seq<SheetsRecord>, batch: ParsedCommandList,
                             response: ChatResponse): (r: Commit)
    requires AllValid(batch) && response.message.Some?
    ensures r.context == c.(operations := c.operations + CommandsOf(batch), conversationHistory := [],
                            pendingSuggestion := r.context.pendingSuggestion,
                            defaultAccount := r.context.defaultAccount, defaultCurrency := r.context.defaultCurrency,
                            defaultFund := r.context.defaultFund)
    ensures r.context.pendingSuggestion ==
      (if IsPresentText(batch.suggestedInstruction) then batch.suggestedInstruction else c.pendingSuggestion)
    ensures !SetsDefaults(batch) ==>
      r.context.defaultAccount == c.defaultAccount && r.context.defaultCurrency == c.defaultCurrency
      && r.context.defaultFund == c.defaultFund
    ensures SetsDefaults(batch) ==>
      var d := batch.setAsDefault.value;
      && r.context.defaultAccount == Prefer(d.account, c.defaultAccount)
      && r.context.defaultCurrency == Prefer(d.currency, c.defaultCurrency)
      && r.context.defaultFund == Prefer(d.fund, c.defaultFund)
    ensures r.response == response.(message := r.response.message)
    ensures r.response.message == Some(response.message.value + SuggestionPart(batch) + DefaultsPart(batch))
    ensures |r.dispatched| == |cancelRows| + Size(batch) && r.dispatched[..|cancelRows|] == cancelRows
    ensures forall i :: 0 <= i < Size(batch) ==>
      r.dispatched[|cancelRows| + i] == FromParsedCommand(CommandsOf(batch)[i], LedgerUserName(c))
  {
    var commands := batch.commands.value;
    assert AllTyped(commands) by {
      forall i | 0 <= i < |commands| ensures commands[i].operationType.Some? {
        assert HasKnownType(commands[i]);
      }
    }
    var (c3, rows) := CommitCommands(c, commands);
    var (c4, r1) := Announce(c3, batch, response);
    var all := cancelRows + rows;
    assert all[..|cancelRows|] == cancelRows;
    assert forall i :: 0 <= i < |rows| ==> all[|cancelRows| + i] == rows[i];
    Commit(ClearHistory(c4), r1, all)
  }

  /**
   * The success block: pending cleared, correction compensated, each
   * command dispatched and recorded, suggestion and defaults stored and
   * announced, history cleared.
   */
  function CommitBatch(c: UserContext, batch: ParsedCommandList, response: ChatResponse): (r: Result<Commit, Fault>)
    requires AllValid(batch) && !CorrectionFaults(batch, c) && response.message.Some?
    ensures r.Failure? <==> Compensates(c, batch) && c.operations[|c.operations| - 1].operationType.None?
    ensures r.Success? ==>
      var after := r.value.context;
      && after == c.(pendingCommands := [], operations := LedgerAfter(c, batch), conversationHistory := [],
                     pendingSuggestion := after.pendingSuggestion, defaultAccount := after.defaultAccount,
                     defaultCurrency := after.defaultCurrency, defaultFund := after.defaultFund)
      && after.pendingSuggestion ==
           (if IsPresentText(batch.suggestedInstruction) then batch.suggestedInstruction else c.pendingSuggestion)
      && (SetsDefaults(batch) ==>
            && after.defaultAccount == Prefer(batch.setAsDefault.value.account, c.defaultAccount)
            && after.defaultCurrency == Prefer(batch.setAsDefault.value.currency, c.defaultCurrency)
            && after.defaultFund == Prefer(batch.setAsDefault.value.fund, c.defaultFund))
      && (!SetsDefaults(batch) ==>
            after.defaultAccount == c.defaultAccount && after.defaultCurrency == c.defaultCurrency
            && after.defaultFund == c.defaultFund)
      && r.value.response == response.(message := r.value.response.message)
      && r.value.response.message == Some(response.message.value + SuggestionPart(batch) + DefaultsPart(batch))
    ensures r.Success? ==>
      var cmds := CommandsOf(batch);
      var extra := if Compensates(c, batch) then 1 else 0;
      && |r.value.dispatched| == extra + |cmds|
      && (forall i :: 0 <= i < |cmds| ==> r.value.dispatched[extra + i] == FromParsedCommand(cmds[i], LedgerUserName(c)))
      && (extra == 1 ==>
            r.value.dispatched[0] == FromParsedCommand(CancelOperation(c.operations[|c.operations| - 1]), LedgerUserName(c)))
  {
    var c1 := c.(pendingCommands := []);
    match Compensate(c1, batch)
    case Failure(f) => Failure(f)
    case Success(compensated) =>
      var (c2, cancelRows) := compensated;
      assert LedgerUserName(c2) == LedgerUserName(c);
      assert c2 == c1.(operations := c2.operations);
      assert c2.operations + CommandsOf(batch) == LedgerAfter(c, batch);
      var commit := CommitCompensated(c2, cancelRows, batch, response);
      assert |cancelRows| == if Compensates(c, batch) then 1 else 0;
      assert Compensates(c, batch) ==> commit.dispatched[0] == commit.dispatched[..1][0] == cancelRows[0];
      Success(commit)
  }

  /** The profile after the assistant turn is recorded; a clarification keeps the batch as pending. */
  function RecordTurn(c: UserContext, batch: ParsedCommandList, reply: Text): (r: UserContext)
    ensures r.userId == c.userId && r.userName == c.userName
    ensures r.operations == c.operations && r.customInstructions == c.customInstructions
    ensures r.pendingSuggestion == c.pendingSuggestion && r.debugMode == c.debugMode
    ensures r.pendingCommands ==
      if WasClarification(batch) && Size(batch) > 0 then CommandsOf(batch) else c.pendingCommands
    ensures |r.conversationHistory| > 0 && r.conversationHistory[|r.conversationHistory| - 1]
         == AssistantMessage(reply, GetFirst(batch), WasClarification(batch))
  {
    var c1 := AddToHistory(c, AssistantMessage(reply, GetFirst(batch), WasClarification(batch)));
    if WasClarification(batch) && Size(batch) > 0 then c1.(pendingCommands := CommandsOf(batch)) else c1
  }

  /**
   * From `buildResponse` to the end of the turn: the assistant turn is
   * recorded (with the reply as built, before any suffix), a clarification
   * keeps the batch as pending, a success commits, the profile is saved.
   */
  function Finalize(store: Store, request: ChatRequest, c: UserContext, batch: ParsedCommandList): (r: Result<Step, Fault>)
    ensures r.Failure? <==>
      (CorrectionFaults(batch, c)
       || (AllValid(batch) && Compensates(c, batch) && c.operations[|c.operations| - 1].operationType.None?))
    ensures r.Success? ==> (r.value.response.success <==> AllValid(batch))
    ensures r.Success? && !AllValid(batch) ==> r.value.dispatched == []
  {
    match BuildResponse(request.chatId, batch, c)
    case Failure(f) => Failure(f)
    case Success(response) =>
      var c1 := RecordTurn(c, batch, response.message.value);
      if response.success then
        assert GetLastOperation(c1) == GetLastOperation(c);
        match CommitBatch(c1, batch, response)
        case Failure(f) => Failure(f)
        case Success(commit) =>
          Success(Step(SaveContext(store, commit.context), WithDebug(commit.response, batch, commit.context),
                       commit.dispatched))
      else
        Success(Step(SaveContext(store, c1), WithDebug(response, batch, c1), []))
  }

  /** Interpretation onward: user turn recorded, pending merged, meta routed or the batch finalized. */
  function Resolve(store: Store, request: ChatRequest, c: UserContext, message: string, parsed: ParsedCommandList)
    : (r: Result<Step, Fault>)
    ensures r.Success? && r.value.dispatched != [] ==> r.value.response.success
  {
    var c1 := AddToHistory(c, UserMessage(Plain(message)));
    var batch := MergePending(c1, parsed);
    if batch.metaCommand.Some? && IsPresent(batch.metaCommand.value) then
      match HandleMetaCommand(request, batch, c1, store)
      case Failure(f) => Failure(f)
      case Success(Some(outcome)) => Success(Step(SaveContext(store, outcome.context), outcome.response, outcome.dispatched))
      case Success(None) => Finalize(store, request, c1, batch)
    else Finalize(store, request, c1, batch)
  }

  /** The admin reply, when the message is an admin command. */
  function AdminStep(store: Store, request: ChatRequest, message: string): Option<(Store, ChatResponse)> {
    if IsAdminCandidate(message) then
      HandleAdminCommand(request.chatId, request.userId, message, GetContext(store, request.userId), store)
    else None
  }

  /**
   * The profile the learning check sees: on a new command the dialogue
   * and the pending commands are dropped, so no clarification is awaited
   * and the next merge has nothing to fill in; an answer keeps both.
   */
  function Reset(message: string, c: UserContext): (r: UserContext)
    ensures r == c.(conversationHistory := r.conversationHistory, pendingCommands := r.pendingCommands)
    ensures IsNewCommand(message, c) ==>
      && r.conversationHistory == [] && r.pendingCommands == []
      && !IsAwaitingClarification(r) && IsNewCommand(message, r)
    ensures !IsNewCommand(message, c) ==> r == c
  {
    if IsNewCommand(message, c) then ClearConversation(c).(pendingCommands := []) else c
  }

  /**
   * After a new command the interpreter's batch is taken as it is: the
   * reset left no pending command to merge it with, whatever the learning
   * check then does to the suggestion.
   */
  lemma NewCommandIsNotMerged(message: string, c: UserContext, suggestion: Option<string>, batch: ParsedCommandList)
    requires IsNewCommand(message, c)
    ensures MergePending(AddToHistory(Reset(message, c).(pendingSuggestion := suggestion),
                                      UserMessage(Plain(message))), batch) == batch
  {
  }

  /** A turn that throws: the fault, and the store as the turn left it before the throw. */
  datatype Aborted = Aborted(fault: Fault, store: Store)

  /** The learning check's step for a message, on the profile reset for it. */
  function LearningOf(store: Store, request: ChatRequest): LearningStep {
    var message := MessageText(request);
    HandleLearningResponse(request.chatId, message, Reset(message, GetContext(store, request.userId)), store)
  }

  /**
   * `processCommand`, stage by stage in the order the source runs them. A
   * fault can only come after the learning check, and the store it leaves
   * is the one that check saved: nothing later is saved before the throw.
   */
  function ProcessCommand(store: Store, request: ChatRequest, interpreter: InterpreterOutcome, onboarding: OnboardingReply)
    : (r: Result<Step, Aborted>)
    ensures r.Success? && r.value.dispatched != [] ==> r.value.response.success
    ensures r.Failure? ==>
      && AdminStep(store, request, MessageText(request)).None?
      && !NeedsOnboarding(Some(GetContext(store, request.userId)))
      && LearningOf(store, request).response.None?
      && r.error.store == LearningOf(store, request).store
  {
    var message := MessageText(request);
    var c0 := GetContext(store, request.userId);
    match AdminStep(store, request, message)
    case Some(admin) => Success(Step(admin.0, admin.1, []))
    case None =>
      if NeedsOnboarding(Some(c0)) then
        var (c1, response) := HandleOnboarding(request.chatId, message, c0, onboarding);
        Success(Step(SaveContext(store, c1), response, []))
      else
        var learning := LearningOf(store, request);
        if learning.response.Some? then Success(Step(learning.store, learning.response.value, []))
        else match Resolve(learning.store, request, learning.context, message, ParseMultiple(interpreter))
          case Success(step) => Success(step)
          case Failure(f) => Failure(Aborted(f, learning.store))
  }

  // ---- properties of a whole turn --------------------------------------------

  /** An admin command is answered before anything else: the interpreter and onboarding replies play no part. */
  lemma AdminShortCircuits(store: Store, request: ChatRequest, i1: InterpreterOutcome, o1: OnboardingReply,
                           i2: InterpreterOutcome, o2: OnboardingReply)
    requires IsAdminCandidate(MessageText(request))
    requires AdminActionOf(Trim(ToLower(MessageText(request)))).Some?
    ensures ProcessCommand(store, request, i1, o1) == ProcessCommand(store, request, i2, o2)
    ensures ProcessCommand(store, request, i1, o1).Success?
    ensures ProcessCommand(store, request, i1, o1).value.dispatched == []
  {
  }

  /**
   * A profile that needs onboarding gets the onboarding turn: the
   * interpreter plays no part, nothing is dispatched, and the store holds
   * the profile the onboarding step produced.
   */
  lemma OnboardingGate(store: Store, request: ChatRequest, i1: InterpreterOutcome, i2: InterpreterOutcome,
                       o: OnboardingReply)
    requires AdminStep(store, request, MessageText(request)).None?
    requires NeedsOnboarding(Some(GetContext(store, request.userId)))
    ensures ProcessCommand(store, request, i1, o) == ProcessCommand(store, request, i2, o)
    ensures var r := ProcessCommand(store, request, i1, o);
      var c0 := GetContext(store, request.userId);
      && r.Success? && r.value.dispatched == []
      && GetContext(r.value.store, c0.userId) == HandleOnboarding(request.chatId, MessageText(request), c0, o).0
  {
    var c0 := GetContext(store, request.userId);
    var c1 := HandleOnboarding(request.chatId, MessageText(request), c0, o).0;
    assert c1.userId == c0.userId;
    GetAfterSave(store, c1);
  }

  /** When the interpreter fails, nothing is dispatched. */
  lemma InterpreterFailureDispatchesNothing(store: Store, request: ChatRequest, e: Option<string>, o: OnboardingReply)
    ensures var r := ProcessCommand(store, request, Failed(e), o);
      r.Success? && r.value.dispatched == []
  {
    var message := MessageText(request);
    var c0 := GetContext(store, request.userId);
    if AdminStep(store, request, message).None? && !NeedsOnboarding(Some(c0)) {
      var learning := HandleLearningResponse(request.chatId, message, Reset(message, c0), store);
      if learning.response.None? {
        var c1 := AddToHistory(learning.context, UserMessage(Plain(message)));
        var parsed := ParseMultiple(Failed(e));
        assert MergePending(c1, parsed) == parsed;
        assert !AllValid(parsed);
      }
    }
  }

  /**
   * A turn that throws after a suggestion was left unanswered still
   * leaves that suggestion dropped, with the reset profile saved: the save
   * of the learning check happens before the throw.
   */
  lemma FaultKeepsLearningSave(store: Store, request: ChatRequest, i: InterpreterOutcome, o: OnboardingReply)
    requires Keyed(store)
    requires IsPresentText(GetContext(store, request.userId).pendingSuggestion)
    requires ProcessCommand(store, request, i, o).Failure?
    ensures var c0 := GetContext(store, request.userId);
      GetContext(ProcessCommand(store, request, i, o).error.store, request.userId)
        == Reset(MessageText(request), c0).(pendingSuggestion := None)
  {
    var c0 := GetContext(store, request.userId);
    KeyedReads(store, request.userId, c0);
    var reset := Reset(MessageText(request), c0);
    var learning := LearningOf(store, request);
    assert learning.context == reset.(pendingSuggestion := None);
    GetAfterSave(store, learning.context);
  }

  /** A valid batch whose correction, if any, can be compensated goes through the success block. */
  lemma FinalizeCommits(store: Store, request: ChatRequest, c: UserContext, batch: ParsedCommandList)
    requires AllValid(batch) && !CorrectionFaults(batch, c)
    requires !(Compensates(c, batch) && c.operations[|c.operations| - 1].operationType.None?)
    ensures var response := BuildResponse(request.chatId, batch, c);
      && response.Success? && response.value.success
      && var c1 := RecordTurn(c, batch, response.value.message.value);
         var commit := CommitBatch(c1, batch, response.value);
         && commit.Success?
         && Finalize(store, request, c, batch)
            == Success(Step(SaveContext(store, commit.value.context),
                            WithDebug(commit.value.response, batch, commit.value.context), commit.value.dispatched))
  {
    var response := BuildResponse(request.chatId, batch, c).value;
    var c1 := RecordTurn(c, batch, response.message.value);
    assert GetLastOperation(c1) == GetLastOperation(c);
    assert c1.operations == c.operations;
  }

  /**
   * A correction with an operation to compensate dispatches the cancel
   * row of the newest operation first, then one row per command, and the
   * ledger has the newest operation replaced by the batch's commands.
   */
  lemma CorrectionReplacesLast(store: Store, request: ChatRequest, c: UserContext, batch: ParsedCommandList)
    requires AllValid(batch) && batch.correction && HasOperationsToUndo(c)
    requires c.operations[|c.operations| - 1].amount.Some? && c.operations[|c.operations| - 1].operationType.Some?
    ensures var r := Finalize(store, request, c, batch);
      var last := c.operations[|c.operations| - 1];
      && r.Success? && r.value.response.success
      && |r.value.dispatched| == 1 + Size(batch)
      && r.value.dispatched[0] == FromParsedCommand(CancelOperation(last), LedgerUserName(c))
      && (forall k :: 0 <= k < Size(batch) ==>
            r.value.dispatched[1 + k] == FromParsedCommand(CommandsOf(batch)[k], LedgerUserName(c)))
      && GetContext(r.value.store, c.userId).operations == c.operations[..|c.operations| - 1] + CommandsOf(batch)
  {
    FinalizeCommits(store, request, c, batch);
    var response := BuildResponse(request.chatId, batch, c).value;
    var c1 := RecordTurn(c, batch, response.message.value);
    var commit := CommitBatch(c1, batch, response).value;
    assert LedgerUserName(c1) == LedgerUserName(c);
    assert Compensates(c1, batch) && c1.operations == c.operations;
    GetAfterSave(store, commit.context);
  }

  /** The batch of one command marked as a correction. */
  function CorrectionBatch(corrected: ParsedCommand): ParsedCommandList {
    ParsedCommandList(Some([corrected]), true, None, None, None, true, None, None)
  }

  /**
   * The correction flow: with an expense of 1000 RSD on CARD as the last
   * operation, a correction to 500 dispatches exactly two rows, the
   * compensating -1000 marked CANCEL: and then the 500 entry, and the
   * ledger ends with the 500 entry in place of the old one.
   */
  lemma CorrectionFlow(store: Store, request: ChatRequest, c: UserContext, earlier: seq<ParsedCommand>,
                       corrected: ParsedCommand)
    requires c.operations == earlier + [ParsedCommand(Some(Expenses), Some(1000.0), Some("RSD"), Some("CARD"),
                                                      None, None, None, None, None, true, None, None)]
    requires corrected.operationType == Some(Expenses) && corrected.amount == Some(500.0)
    ensures var r := Finalize(store, request, c, CorrectionBatch(corrected));
      && r.Success? && r.value.response.success
      && |r.value.dispatched| == 2
      && r.value.dispatched[0].amount == Some(-1000.0)
      && r.value.dispatched[0].comment.Some? && StartsWith(r.value.dispatched[0].comment.value, CancelPrefix)
      && r.value.dispatched[1].amount == Some(500.0)
      && GetContext(r.value.store, c.userId).operations == earlier + [corrected]
  {
    var batch := CorrectionBatch(corrected);
    assert AllValid(batch) by { assert HasKnownType(batch.commands.value[0]); }
    CorrectionReplacesLast(store, request, c, batch);
    CancelRowOffsets(c.operations[|c.operations| - 1], LedgerUserName(c));
    assert c.operations[..|c.operations| - 1] == earlier;
  }

  /**
   * A clarification question keeps the batch's commands as the pending
   * set, replies with the question and dispatches nothing.
   */
  lemma ClarificationKeepsPending(store: Store, request: ChatRequest, c: UserContext, batch: ParsedCommandList)
    requires !batch.understood && IsPresentText(batch.clarification) && Size(batch) > 0
    ensures var r := Finalize(store, request, c, batch);
      && r.Success? && !r.value.response.success && r.value.dispatched == []
      && r.value.response.message.Some? && r.value.response.message.value[0] == Chars(batch.clarification.value)
      && GetContext(r.value.store, c.userId).pendingCommands == CommandsOf(batch)
  {
    var response := BuildResponse(request.chatId, batch, c).value;
    var c1 := RecordTurn(c, batch, response.message.value);
    GetAfterSave(store, c1);
  }

  /**
   * Committing a batch that is not a correction appends its commands to
   * the ledger in order, dispatches one row per command, and leaves no
   * pending commands and no history.
   */
  lemma CommitRecordsLedger(store: Store, request: ChatRequest, c: UserContext, batch: ParsedCommandList)
    requires AllValid(batch) && !batch.correction
    ensures var r := Finalize(store, request, c, batch);
      var after := GetContext(r.value.store, c.userId);
      && r.Success? && r.value.response.success
      && after.operations == c.operations + CommandsOf(batch)
      && after.pendingCommands == [] && after.conversationHistory == []
      && |r.value.dispatched| == Size(batch)
      && forall k :: 0 <= k < Size(batch) ==>
           r.value.dispatched[k] == FromParsedCommand(CommandsOf(batch)[k], LedgerUserName(c))
  {
    FinalizeCommits(store, request, c, batch);
    var response := BuildResponse(request.chatId, batch, c).value;
    var c1 := RecordTurn(c, batch, response.message.value);
    var commit := CommitBatch(c1, batch, response).value;
    assert LedgerUserName(c1) == LedgerUserName(c);
    GetAfterSave(store, commit.context);
  }
}

=== FILE: Outcomes.dfy ===
/**
 * Finalizing a batch: `buildResponse`, the cancel row of a correction
 * (`sendCancelOperation`), committing rows to the ledger
 * (`sendToSheetsLambda` plus `addOperation`), and the reply suffixes for a
 * suggested instruction and for new defaults.
 */
module Outcomes {
  import opened Wrappers
  import opened JavaStrings
  import opened Commands
  import opened Replies
  import opened Records
  import opened Profile
  import ContextService

  /** Places where the source dereferences null and throws. */
  datatype Fault =
      /** `formatCorrectionMessage` reads the amount of a last operation that has none. */
    | CorrectionOfNullAmount
      /** `fromParsedCommand` names the kind of an operation that has none. */
    | DispatchOfNullType

  /** Every command of a batch can be committed: understood, non-empty, all kinds known. */
  predicate AllValid(batch: ParsedCommandList) {
    && batch.understood
    && batch.commands.Some? && |batch.commands.value| > 0
    && forall i :: 0 <= i < |batch.commands.value| ==> HasKnownType(batch.commands.value[i])
  }

  /** The reply text of a batch that cannot be committed: clarification, else error, else `?`. */
  function FailureText(batch: ParsedCommandList): (r: string)
    ensures !IsBlank(r)
    ensures IsPresentText(batch.clarification) ==> r == batch.clarification.value
    ensures !IsPresentText(batch.clarification) && IsPresentText(batch.errorMessage) ==> r == batch.errorMessage.value
    ensures r == "?" || r == batch.clarification.GetOr("") || r == batch.errorMessage.GetOr("")
  {
    if IsPresentText(batch.clarification) then batch.clarification.value
    else if IsPresentText(batch.errorMessage) then batch.errorMessage.value
    else assert !IsWhitespace("?"[0]); "?"
  }

  /** The correction would read the amount of a last operation that has none. */
  predicate CorrectionFaults(batch: ParsedCommandList, c: UserContext) {
    AllValid(batch) && batch.correction
    && GetLastOperation(c).Some? && GetLastOperation(c).value.amount.None?
  }

  /** `buildResponse`. */
  function BuildResponse(chatId: Option<string>, batch: ParsedCommandList, c: UserContext): (r: Result<ChatResponse, Fault>)
    ensures r.Failure? <==> CorrectionFaults(batch, c)
    ensures r.Success? ==> r.value.chatId == chatId && r.value.message.Some? && r.value.parsedCommand == GetFirst(batch)
    ensures r.Success? ==> (r.value.success <==> AllValid(batch))
    ensures r.Success? && r.value.success ==>
      r.value.operationsCount == Size(batch) > 0 && r.value.parsedCommands == batch.commands
    // a valid batch's reply is one summary: of the correction when the batch is one, else of the commands
    ensures r.Success? && r.value.success ==>
      r.value.message == Some([if batch.correction
                               then CorrectionSummary(GetLastOperation(c), batch.commands.value[0])
                               else SuccessSummary(batch.commands.value)])
    ensures r.Success? && !r.value.success ==>
      r.value.message == Some(Plain(FailureText(batch))) && r.value.operationsCount == 0
  {
    if AllValid(batch) then
      var commands := batch.commands.value;
      if batch.correction then
        var lastOp := GetLastOperation(c);
        if lastOp.Some? && lastOp.value.amount.None? then Failure(CorrectionOfNullAmount)
        else Success(ChatResponse(chatId, true, Some([CorrectionSummary(lastOp, commands[0])]),
                                  GetFirst(batch), Some(commands), |commands|))
      else Success(ChatResponse(chatId, true, Some([SuccessSummary(commands)]),
                                GetFirst(batch), Some(commands), |commands|))
    else
      Success(ChatResponse(chatId, false, Some(Plain(FailureText(batch))), GetFirst(batch), batch.commands, 0))
  }

  /** An interpreter that failed gets the retry prompt back, as a failed reply. */
  lemma FailedBatchReply(chatId: Option<string>, batch: ParsedCommandList, c: UserContext)
    requires batch.commands == Some([]) && !batch.understood && batch.clarification == Some("Sorry, please try again.")
    ensures BuildResponse(chatId, batch, c).Success?
    ensures var r := BuildResponse(chatId, batch, c).value;
      !r.success && r.message == Some(Plain("Sorry, please try again.")) && r.parsedCommands == Some([])
  {
    assert !IsWhitespace("Sorry, please try again."[0]);
  }

  /** The mark that opens a compensating row's comment. */
  const CancelPrefix: string := "CANCEL: "

  /**
   * `sendCancelOperation`'s command: the same operation with the amount
   * negated, the comment prefixed, understood and without status text.
   */
  function CancelOperation(original: ParsedCommand): (r: ParsedCommand)
    requires original.amount.Some?
    ensures r.amount == Some(-original.amount.value)
    ensures r.comment == Some(CancelPrefix + JavaText(original.comment))
    ensures r.understood && r.clarification.None? && r.errorMessage.None?
    ensures r == original.(amount := r.amount, comment := r.comment, understood := true,
                           clarification := None, errorMessage := None)
  {
    ParsedCommand(original.operationType, Some(-original.amount.value), original.currency,
      original.accountName, original.fundName, Some(CancelPrefix + JavaText(original.comment)),
      original.secondPerson, original.secondAccount, original.secondCurrency, true, None, None)
  }

  /** The cancel row and the original row sum to zero and agree on every other column but the comment. */
  lemma CancelRowOffsets(original: ParsedCommand, userName: Option<string>)
    requires original.amount.Some? && original.operationType.Some?
    ensures var cancel := FromParsedCommand(CancelOperation(original), userName);
      var row := FromParsedCommand(original, userName);
      && cancel.amount.value + row.amount.value == 0.0
      && cancel.(amount := row.amount, comment := row.comment) == row
    ensures var cancel := FromParsedCommand(CancelOperation(original), userName);
      && cancel.comment.Some? && StartsWith(cancel.comment.value, CancelPrefix)
      && cancel.comment.value[|CancelPrefix|..] == JavaText(original.comment)
  {
  }

  /** The user name written on ledger rows: the stored one, else the user id. */
  function LedgerUserName(c: UserContext): (r: Option<string>)
    ensures r.Some?
    ensures c.userName.Some? ==> r == c.userName
    ensures c.userName.None? ==> r == Some(c.userId)
  {
    Some(if c.userName.Some? then c.userName.value else c.userId)
  }

  predicate AllTyped(cmds: seq<ParsedCommand>) {
    forall i :: 0 <= i < |cmds| ==> cmds[i].operationType.Some?
  }

  /**
   * The commit loop: each command is dispatched as a ledger row and then
   * recorded as an undoable operation, in order.
   */
  function CommitCommands(c: UserContext, cmds: seq<ParsedCommand>): (r: (UserContext, seq<SheetsRecord>))
    requires AllTyped(cmds)
    ensures r.0 == c.(operations := c.operations + cmds)
    ensures |r.1| == |cmds|
    ensures forall i :: 0 <= i < |cmds| ==> r.1[i] == FromParsedCommand(cmds[i], LedgerUserName(c))
    decreases |cmds|
  {
    if |cmds| == 0 then (c, [])
    else
      var row := FromParsedCommand(cmds[0], LedgerUserName(c));
      var rest := CommitCommands(AddOperation(c, cmds[0]), cmds[1..]);
      assert c.operations + [cmds[0]] + cmds[1..] == c.operations + cmds;
      (rest.0, [row] + rest.1)
  }

  /** Undoing a commit operation by operation pops the commands back, newest first. */
  lemma {:induction false} CommitThenPop(c: UserContext, cmds: seq<ParsedCommand>)
    requires AllTyped(cmds) && |cmds| > 0
    ensures PopLastOperation(CommitCommands(c, cmds).0)
         == (c.(operations := c.operations + cmds[..|cmds| - 1]), Some(cmds[|cmds| - 1]))
  {
    var all := c.operations + cmds;
    assert all[..|all| - 1] == c.operations + cmds[..|cmds| - 1];
  }

  const SuggestionPrompt: string := "\n\n💡 Запомнить: \""
  const SuggestionQuestion: string := "\"? (да/нет)"

  /**
   * The question appended when the interpreter proposes an instruction to
   * remember: one plain segment that opens with the prompt, closes with the
   * yes/no question, and quotes the suggestion verbatim in between.
   */
  function SuggestionSuffix(suggestion: string): (r: Text)
    ensures |r| == 1 && r[0].Chars?
    ensures StartsWith(r[0].chars, SuggestionPrompt) && EndsWith(r[0].chars, SuggestionQuestion)
    ensures |r[0].chars| == |SuggestionPrompt| + |suggestion| + |SuggestionQuestion|
    ensures r[0].chars[|SuggestionPrompt|..|r[0].chars| - |SuggestionQuestion|] == suggestion
  {
    Plain(SuggestionPrompt + suggestion + SuggestionQuestion)
  }

  const DefaultMarker: string := "📌 "
  const DefaultFundLabel: string := "Фонд по умолчанию: "

  function DefaultLine(title: string, value: Option<string>): (r: string)
    ensures value.None? <==> r == ""
  {
    if value.Some? then DefaultMarker + title + value.value + "\n" else ""
  }

  /**
   * Storing the defaults the user asked for: account, currency and fund,
   * each only when given, with one announcement line per stored value.
   */
  function ApplyDefaults(c: UserContext, d: SetAsDefault): (r: (UserContext, string))
    ensures r.0.defaultAccount == Prefer(d.account, c.defaultAccount)
    ensures r.0.defaultCurrency == Prefer(d.currency, c.defaultCurrency)
    ensures r.0.defaultFund == Prefer(d.fund, c.defaultFund)
    ensures r.0 == c.(defaultAccount := r.0.defaultAccount, defaultCurrency := r.0.defaultCurrency,
                      defaultFund := r.0.defaultFund)
    ensures r.1 == DefaultLines(d) && (r.1 != "" <==> HasAny(d))
  {
    var c1 := if d.account.Some? then c.(defaultAccount := d.account) else c;
    var c2 := if d.currency.Some? then c1.(defaultCurrency := d.currency) else c1;
    var c3 := if d.fund.Some? then c2.(defaultFund := d.fund) else c2;
    (c3, DefaultLines(d))
  }

  /** The announcement lines, account then currency then fund, one per value given. */
  function DefaultLines(d: SetAsDefault): (r: string)
    ensures r != "" <==> HasAny(d)
  {
    DefaultLine(ContextService.AccountLabel, d.account)
    + DefaultLine(ContextService.CurrencyLabel, d.currency)
    + DefaultLine(DefaultFundLabel, d.fund)
  }

  /** The suffix announcing the new defaults; nothing when no line was produced. */
  function DefaultsSuffix(lines: string): (r: Text)
    ensures lines == "" <==> r == []
  {
    if lines != "" then Plain("\n\n" + Trim(lines)) else []
  }
}

=== FILE: PendingMerge.dfy ===
/**
 * Accumulating answers to clarification questions: the partial commands
 * kept from the previous turn are merged with the interpreter's new batch
 * (`mergePendingWithNew` and the merge loop of `processCommand`).
 */
module PendingMerge {
  import opened Wrappers
  import opened Commands
  import opened Profile

  /** An amount the merge takes from the new answer: present and positive. */
  predicate UsableAmount(a: Option<real>) {
    a.Some? && a.value > 0.0
  }

  /**
   * `mergePendingWithNew`: new non-null fields win, except that a new
   * amount counts only when positive; the status fields come from the new
   * command alone.
   */
  function Merge(pending: ParsedCommand, answer: ParsedCommand): (r: ParsedCommand)
    ensures r.operationType == Prefer(answer.operationType, pending.operationType)
    ensures r.amount == if UsableAmount(answer.amount) then answer.amount else pending.amount
    ensures r.currency == Prefer(answer.currency, pending.currency)
    ensures r.accountName == Prefer(answer.accountName, pending.accountName)
    ensures r.fundName == Prefer(answer.fundName, pending.fundName)
    ensures r.comment == Prefer(answer.comment, pending.comment)
    ensures r.secondPerson == Prefer(answer.secondPerson, pending.secondPerson)
    ensures r.secondAccount == Prefer(answer.secondAccount, pending.secondAccount)
    ensures r.secondCurrency == Prefer(answer.secondCurrency, pending.secondCurrency)
    ensures r.understood == answer.understood
    ensures r.clarification == answer.clarification && r.errorMessage == answer.errorMessage
  {
    ParsedCommand(
      Prefer(answer.operationType, pending.operationType),
      if UsableAmount(answer.amount) then answer.amount else pending.amount,
      Prefer(answer.currency, pending.currency),
      Prefer(answer.accountName, pending.accountName),
      Prefer(answer.fundName, pending.fundName),
      Prefer(answer.comment, pending.comment),
      Prefer(answer.secondPerson, pending.secondPerson),
      Prefer(answer.secondAccount, pending.secondAccount),
      Prefer(answer.secondCurrency, pending.secondCurrency),
      answer.understood, answer.errorMessage, answer.clarification)
  }

  /** Every payload field known on either side stays known (a new non-positive amount aside). */
  lemma MergeNeverForgets(pending: ParsedCommand, answer: ParsedCommand)
    ensures var r := Merge(pending, answer);
      && (pending.operationType.Some? || answer.operationType.Some? ==> r.operationType.Some?)
      && (pending.amount.Some? || UsableAmount(answer.amount) ==> r.amount.Some?)
      && (pending.currency.Some? || answer.currency.Some? ==> r.currency.Some?)
      && (pending.accountName.Some? || answer.accountName.Some? ==> r.accountName.Some?)
      && (pending.fundName.Some? || answer.fundName.Some? ==> r.fundName.Some?)
      && (pending.comment.Some? || answer.comment.Some? ==> r.comment.Some?)
      && (pending.secondPerson.Some? || answer.secondPerson.Some? ==> r.secondPerson.Some?)
      && (pending.secondAccount.Some? || answer.secondAccount.Some? ==> r.secondAccount.Some?)
      && (pending.secondCurrency.Some? || answer.secondCurrency.Some? ==> r.secondCurrency.Some?)
  {
  }

  /** An answer that adds nothing keeps the pending payload and takes the answer's status. */
  lemma MergeWithEmptyAnswer(pending: ParsedCommand, status: ParsedCommand)
    requires status.(understood := false, errorMessage := None, clarification := None) == BlankCommand
    ensures Merge(pending, status)
         == pending.(understood := status.understood, errorMessage := status.errorMessage,
                     clarification := status.clarification)
  {
  }

  /** Merging a command with itself gives it back. */
  lemma MergeSelf(c: ParsedCommand)
    ensures Merge(c, c) == c
  {
  }

  /** Merging the same pending command again changes nothing. */
  lemma MergeIdempotent(pending: ParsedCommand, answer: ParsedCommand)
    ensures Merge(pending, Merge(pending, answer)) == Merge(pending, answer)
  {
  }

  /** Two rounds of answers compose: merging them in sequence is merging their merge. */
  lemma MergeAssociative(a: ParsedCommand, b: ParsedCommand, c: ParsedCommand)
    ensures Merge(Merge(a, b), c) == Merge(a, Merge(b, c))
  {
  }

  /**
   * The merge loop of `processCommand`, as one definition: positions both
   * lists share are merged pairwise, extra new commands are kept, and
   * extra pending commands are merged with the (already merged) first new
   * command, but only when that command has an amount.
   */
  function MergedBatch(pending: seq<ParsedCommand>, answer: seq<ParsedCommand>): (r: seq<ParsedCommand>)
    ensures |answer| == 0 ==> r == []
    ensures |pending| <= |answer| ==> |r| == |answer|
    ensures |answer| <= |r|
    ensures |answer| < |pending| ==>
      |r| == if |answer| > 0 && r[0].amount.Some? then |pending| else |answer|
    ensures forall i :: 0 <= i < |answer| && i < |pending| ==> r[i] == Merge(pending[i], answer[i])
    ensures forall i :: |pending| <= i < |answer| ==> r[i] == answer[i]
    ensures forall i :: |answer| <= i < |r| ==> 0 < |answer| && i < |pending| && r[i] == Merge(pending[i], r[0])
  {
    if |answer| == 0 then []
    else
      var shared := if |pending| < |answer| then |pending| else |answer|;
      var head := seq(shared, i requires 0 <= i < shared => Merge(pending[i], answer[i]));
      if |pending| <= |answer| then head + answer[|pending|..]
      else if head[0].amount.Some? then
        head + seq(|pending| - |answer|, k requires 0 <= k < |pending| - |answer| => Merge(pending[|answer| + k], head[0]))
      else head
  }

  /** One pass of the loop body at index `i`. */
  function MergeStep(cmds: seq<ParsedCommand>, pending: ParsedCommand, i: nat): seq<ParsedCommand> {
    if i < |cmds| then cmds[i := Merge(pending, cmds[i])]
    else if |cmds| > 0 && cmds[0].amount.Some? then cmds + [Merge(pending, cmds[0])]
    else cmds
  }

  /** The loop's progress: after index `i` the list is the merge of the first `i` pending commands. */
  lemma MergedBatchStep(pending: seq<ParsedCommand>, answer: seq<ParsedCommand>, i: nat)
    requires i < |pending|
    ensures MergedBatch(pending[..i + 1], answer) == MergeStep(MergedBatch(pending[..i], answer), pending[i], i)
  {
    var before := MergedBatch(pending[..i], answer);
    var after := MergedBatch(pending[..i + 1], answer);
    var stepped := MergeStep(before, pending[i], i);
    assert pending[..i + 1][..i] == pending[..i];
    if |answer| > 0 && i >= |answer| && i > 0 {
      assert before[0] == Merge(pending[0], answer[0]) == after[0];
    }
    assert |after| == |stepped|;
    forall k | 0 <= k < |after|
      ensures after[k] == stepped[k]
    {
      if |answer| > 0 && k >= |answer| {
        assert after[0] == Merge(pending[0], answer[0]);
      }
    }
  }

  /** The merge loop as the source writes it, over a growing list. */
  method MergePendingLoop(pending: seq<ParsedCommand>, answer: seq<ParsedCommand>) returns (cmds: seq<ParsedCommand>)
    ensures cmds == MergedBatch(pending, answer)
  {
    cmds := answer;
    var i := 0;
    assert MergedBatch(pending[..0], answer) == answer;
    while i < |pending|
      invariant 0 <= i <= |pending|
      invariant cmds == MergedBatch(pending[..i], answer)
    {
      MergedBatchStep(pending, answer, i);
      if i < |cmds| {
        cmds := cmds[i := Merge(pending[i], cmds[i])];
      } else if |cmds| > 0 && cmds[0].amount.Some? {
        cmds := cmds + [Merge(pending[i], cmds[0])];
      }
      i := i + 1;
    }
    assert pending[..|pending|] == pending;
  }

  /**
   * The merge applied to a batch: only when commands are pending and the
   * new batch holds at least one; everything but the commands is kept.
   */
  function MergePending(c: UserContext, batch: ParsedCommandList): (r: ParsedCommandList)
    ensures |c.pendingCommands| == 0 || Size(batch) == 0 ==> r == batch
    ensures r == batch.(commands := r.commands)
    ensures |c.pendingCommands| > 0 && Size(batch) > 0 ==>
      r.commands == Some(MergedBatch(c.pendingCommands, CommandsOf(batch)))
  {
    if |c.pendingCommands| > 0 && Size(batch) > 0 then
      batch.(commands := Some(MergedBatch(c.pendingCommands, CommandsOf(batch))))
    else batch
  }

  /** A merge never shrinks the batch, and never outgrows the longer list. */
  lemma MergePendingSize(c: UserContext, batch: ParsedCommandList)
    ensures Size(batch) <= Size(MergePending(c, batch))
    ensures Size(MergePending(c, batch)) <= Size(batch) || Size(MergePending(c, batch)) <= |c.pendingCommands|
  {
  }
}

=== FILE: Profile.dfy ===
/**
 * `UserContext`: the persisted per-user profile.
 *
 * Lists the code null-checks are `Option<seq<…>>`; the conversation
 * history, pending commands and operation ledger are plain sequences.
 * Several members (the ledger, history trimming, `addAccount`/`addFund`,
 * `removeInstruction(int)`) are used by the engine but not defined in the
 * visible `UserContext`; they carry only the contract their callers imply.
 */
module Profile {
  import opened Wrappers
  import opened Commands
  import opened ConversationMessages

  datatype UserContext = UserContext(
    userId: string,
    userName: Option<string>,
    displayName: Option<string>,
    preferredLanguage: Option<string>,
    defaultCurrency: Option<string>,
    defaultAccount: Option<string>,
    defaultFund: Option<string>,
    defaultPersonalFund: Option<string>,
    defaultSharedFund: Option<string>,
    accounts: Option<seq<string>>,
    funds: Option<seq<string>>,
    linkedUsers: Option<seq<string>>,
    customInstructions: Option<seq<string>>,
    conversationHistory: seq<ConversationMessage>,
    pendingCommands: seq<ParsedCommand>,
    pendingSuggestion: Option<string>,
    operations: seq<ParsedCommand>,
    onboardingState: Option<string>,
    debugMode: Option<bool>)

  /** A nullable list read as its elements, `null` as none. */
  function Items<T>(l: Option<seq<T>>): seq<T> {
    if l.Some? then l.value else []
  }

  /** Non-null and non-empty. */
  predicate HasItems<T>(l: Option<seq<T>>) {
    l.Some? && |l.value| > 0
  }

  /**
   * `UserContext.builder().userId(id).build()`: list fields start empty,
   * not null. The repository's class declares no linked-user, account or
   * fund list, so their empty defaults are a modelling choice made to
   * match the declared instruction list; every reader null-checks them.
   */
  function NewContext(userId: string): (c: UserContext)
    ensures c.userId == userId
    ensures c.customInstructions == Some([]) && c.accounts == Some([]) && c.funds == Some([])
    ensures c.linkedUsers == Some([])
    ensures c.conversationHistory == [] && c.pendingCommands == [] && c.operations == []
  {
    UserContext(
      userId, None, None, None, None, None, None, None, None,
      Some([]), Some([]), Some([]), Some([]),
      [], [], None, [], None, None)
  }

  // ---- custom instructions -------------------------------------------------

  function IndexOf<T(==)>(xs: seq<T>, x: T): (i: nat)
    requires x in xs
    ensures i < |xs| && xs[i] == x && x !in xs[..i]
  {
    if xs[0] == x then 0 else 1 + IndexOf(xs[1..], x)
  }

  /** `List.remove(Object)`: drops the first equal element only. */
  function RemoveFirst<T(==)>(xs: seq<T>, x: T): (r: seq<T>)
    ensures x !in xs ==> r == xs
    ensures x in xs ==> r == xs[..IndexOf(xs, x)] + xs[IndexOf(xs, x) + 1..]
    ensures multiset(r) == multiset(xs) - multiset{x}
  {
    if x !in xs then xs
    else
      var i := IndexOf(xs, x);
      assert xs == xs[..i] + [x] + xs[i + 1..];
      xs[..i] + xs[i + 1..]
  }

  /** `addInstruction`: appends, creating the list when it is null. */
  function AddInstruction(c: UserContext, instruction: string): (r: UserContext)
    ensures r.customInstructions == Some(Items(c.customInstructions) + [instruction])
    ensures r == c.(customInstructions := r.customInstructions)
  {
    var existing := if c.customInstructions.Some? then c.customInstructions.value else [];
    c.(customInstructions := Some(existing + [instruction]))
  }

  /** `removeInstruction(String)`: first equal element; nothing when absent or null. */
  function RemoveInstruction(c: UserContext, instruction: string): (r: UserContext)
    ensures c.customInstructions.None? ==> r == c
    ensures instruction !in Items(c.customInstructions) ==> r == c
    ensures c.customInstructions.Some? ==>
      r.customInstructions == Some(RemoveFirst(c.customInstructions.value, instruction))
    ensures r == c.(customInstructions := r.customInstructions)
  {
    match c.customInstructions
    case None => c
    case Some(xs) => c.(customInstructions := Some(RemoveFirst(xs, instruction)))
  }

  /** `removeInstruction(int)`, called only with an index inside the list. */
  function RemoveInstructionAt(c: UserContext, index: int): (r: UserContext)
    requires c.customInstructions.Some? && 0 <= index < |c.customInstructions.value|
    ensures |Items(r.customInstructions)| == |Items(c.customInstructions)| - 1
    ensures Items(r.customInstructions) ==
      Items(c.customInstructions)[..index] + Items(c.customInstructions)[index + 1..]
    ensures r == c.(customInstructions := r.customInstructions)
  {
    var xs := c.customInstructions.value;
    c.(customInstructions := Some(xs[..index] + xs[index + 1..]))
  }

  /** `clearInstructions`: empties the list; leaves a null list null. */
  function ClearInstructions(c: UserContext): (r: UserContext)
    ensures c.customInstructions.None? ==> r == c
    ensures c.customInstructions.Some? ==> r.customInstructions == Some([])
    ensures r == c.(customInstructions := r.customInstructions)
  {
    if c.customInstructions.None? then c else c.(customInstructions := Some([]))
  }

  /** Removing a freshly added, previously absent instruction restores the profile. */
  lemma AddThenRemoveInstruction(c: UserContext, instruction: string)
    requires c.customInstructions.Some? && instruction !in c.customInstructions.value
    ensures RemoveInstruction(AddInstruction(c, instruction), instruction) == c
  {
    var xs := c.customInstructions.value;
    var ys := xs + [instruction];
    assert ys[..|xs|] == xs;
    assert IndexOf(ys, instruction) == |xs|;
    assert RemoveFirst(ys, instruction) == xs;
    assert c.(customInstructions := Some(xs)) == c;
  }

  /** Removing the last index right after an append restores the profile. */
  lemma AddThenRemoveLastIndex(c: UserContext, instruction: string)
    requires c.customInstructions.Some?
    ensures RemoveInstructionAt(AddInstruction(c, instruction), |c.customInstructions.value|) == c
  {
    var xs := c.customInstructions.value;
    var ys := xs + [instruction];
    assert ys[..|xs|] == xs && ys[|xs| + 1..] == [];
    assert ys[..|xs|] + ys[|xs| + 1..] == xs;
    assert c.(customInstructions := Some(xs)) == c;
  }

  // ---- accounts and funds --------------------------------------------------

  /** `addAccount`: appends, creating the list when it is null. */
  function AddAccount(c: UserContext, account: string): (r: UserContext)
    ensures r.accounts == Some(Items(c.accounts) + [account])
    ensures r == c.(accounts := r.accounts)
  {
    c.(accounts := Some(Items(c.accounts) + [account]))
  }

  /** `addFund`: appends, creating the list when it is null. */
  function AddFund(c: UserContext, fund: string): (r: UserContext)
    ensures r.funds == Some(Items(c.funds) + [fund])
    ensures r == c.(funds := r.funds)
  {
    c.(funds := Some(Items(c.funds) + [fund]))
  }

  // ---- operation ledger ----------------------------------------------------

  /** `addOperation`: the newest entry goes last. */
  function AddOperation(c: UserContext, op: ParsedCommand): (r: UserContext)
    ensures r.operations == c.operations + [op]
    ensures r == c.(operations := r.operations)
  {
    c.(operations := c.operations + [op])
  }

  predicate HasOperationsToUndo(c: UserContext) {
    |c.operations| > 0
  }

  /** `getLastOperation`: the newest entry, or null. */
  function GetLastOperation(c: UserContext): (r: Option<ParsedCommand>)
    ensures r.Some? <==> HasOperationsToUndo(c)
    ensures r.Some? ==> r.value == c.operations[|c.operations| - 1]
  {
    if |c.operations| == 0 then None else Some(c.operations[|c.operations| - 1])
  }

  /** `popLastOperation`: removes and returns the newest entry; null on an empty ledger. */
  function PopLastOperation(c: UserContext): (r: (UserContext, Option<ParsedCommand>))
    ensures r.1 == GetLastOperation(c)
    ensures r.1.None? ==> r.0 == c
    ensures r.1.Some? ==> r.0.operations + [r.1.value] == c.operations
    ensures r.0 == c.(operations := r.0.operations)
  {
    if |c.operations| == 0 then (c, None)
    else (c.(operations := c.operations[..|c.operations| - 1]), Some(c.operations[|c.operations| - 1]))
  }

  /** Pop undoes push. */
  lemma PushThenPop(c: UserContext, op: ParsedCommand)
    ensures PopLastOperation(AddOperation(c, op)) == (c, Some(op))
  {
    assert (c.operations + [op])[..|c.operations|] == c.operations;
  }

  // ---- conversation history ------------------------------------------------

  /** `addToHistory` on the profile: appends the turn. */
  function AppendHistory(c: UserContext, m: ConversationMessage): (r: UserContext)
    ensures r.conversationHistory == c.conversationHistory + [m]
    ensures r == c.(conversationHistory := r.conversationHistory)
  {
    c.(conversationHistory := c.conversationHistory + [m])
  }

  /** `trimHistory(max)`: keeps the newest `max` turns, dropping from the front. */
  function TrimHistory(c: UserContext, max: nat): (r: UserContext)
    ensures |r.conversationHistory| == if |c.conversationHistory| <= max then |c.conversationHistory| else max
    ensures r.conversationHistory ==
      c.conversationHistory[|c.conversationHistory| - |r.conversationHistory|..]
    ensures r == c.(conversationHistory := r.conversationHistory)
  {
    var h := c.conversationHistory;
    if |h| <= max then c else c.(conversationHistory := h[|h| - max..])
  }

  function ClearHistory(c: UserContext): (r: UserContext)
    ensures r.conversationHistory == []
    ensures r == c.(conversationHistory := [])
  {
    c.(conversationHistory := [])
  }
}

=== FILE: Records.dfy ===
/** `SheetsRecordDTO`: one row dispatched to the ledger sheet. */
module Records {
  import opened Wrappers
  import opened Commands

  datatype SheetsRecord = SheetsRecord(
    amount: Option<real>,
    currency: Option<string>,
    userName: Option<string>,
    accountName: Option<string>,
    fundName: Option<string>,
    operationType: Option<string>,
    comment: Option<string>,
    secondPerson: Option<string>,
    secondAccount: Option<string>,
    secondCurrency: Option<string>,
    accountRemains: Option<real>,
    undo: bool)

  /**
   * `SheetsRecordDTO.fromParsedCommand`. The kind is written by name, so a
   * command without one is refused (the source throws there).
   */
  function FromParsedCommand(cmd: ParsedCommand, userName: Option<string>): (r: SheetsRecord)
    requires cmd.operationType.Some?
    ensures r.userName == userName
    ensures r.operationType == Some(OperationTypeName(cmd.operationType.value))
    ensures !r.undo && r.accountRemains.None?
  {
    SheetsRecord(
      cmd.amount, cmd.currency, userName, cmd.accountName, cmd.fundName,
      Some(OperationTypeName(cmd.operationType.value)), cmd.comment,
      cmd.secondPerson, cmd.secondAccount, cmd.secondCurrency,
      None, false)
  }

  /** The part of a command a ledger row carries: everything but its status fields. */
  function Payload(c: ParsedCommand): ParsedCommand {
    c.(understood := false, errorMessage := None, clarification := None)
  }

  /** Reading a row back into a command, kind parsed with `valueOf`. */
  function RecordToCommand(r: SheetsRecord): Option<ParsedCommand> {
    if r.operationType.None? then None
    else match OperationTypeValueOf(r.operationType.value)
      case None => None
      case Some(t) =>
        Some(ParsedCommand(
          Some(t), r.amount, r.currency, r.accountName, r.fundName, r.comment,
          r.secondPerson, r.secondAccount, r.secondCurrency, false, None, None))
  }

  /** The mapping loses nothing of the payload: reading the row back restores it. */
  lemma RecordRoundTrip(cmd: ParsedCommand, userName: Option<string>)
    requires cmd.operationType.Some?
    ensures RecordToCommand(FromParsedCommand(cmd, userName)) == Some(Payload(cmd))
  {
    OperationTypeNameRoundTrip(cmd.operationType.value, "");
  }

  /** Two commands give the same row for a user exactly when their payloads agree. */
  lemma RecordDeterminedByPayload(c1: ParsedCommand, c2: ParsedCommand, userName: Option<string>)
    requires c1.operationType.Some? && c2.operationType.Some?
    ensures FromParsedCommand(c1, userName) == FromParsedCommand(c2, userName) <==> Payload(c1) == Payload(c2)
  {
    if FromParsedCommand(c1, userName) == FromParsedCommand(c2, userName) {
      RecordRoundTrip(c1, userName);
      RecordRoundTrip(c2, userName);
    }
  }
}

=== FILE: Replies.dfy ===
/**
 * Reply text and the request/response envelopes of one chat turn.
 *
 * Text the code assembles with `%.2f`-style formatting of amounts is kept
 * as an opaque segment naming what it summarises; all other text is plain
 * characters. Java concatenation `a + b` is concatenation of segments.
 */
module Replies {
  import opened Wrappers
  import opened Commands

  datatype Segment =
    | Chars(chars: string)
      /** `formatSuccessMessage` of the committed commands. */
    | SuccessSummary(commands: seq<ParsedCommand>)
      /** `formatCorrectionMessage(previous, corrected)`. */
    | CorrectionSummary(previous: Option<ParsedCommand>, corrected: ParsedCommand)
      /** `formatUndoDescription` of the undone operation. */
    | UndoSummary(undone: ParsedCommand)
      /** `buildDebugInfo`: the batch and the profile's pending, awaiting and history figures. */
    | DebugReport(batch: ParsedCommandList, pendingCount: nat, awaitingClarification: bool, historySize: nat)

  type Text = seq<Segment>

  function Plain(s: string): Text {
    [Chars(s)]
  }

  /** `ChatRequest`. */
  datatype ChatRequest = ChatRequest(
    chatId: Option<string>,
    userId: string,
    userName: Option<string>,
    message: Option<string>)

  /**
   * `ChatResponse` as its builder is used; a reply built without
   * `operationsCount` carries 0.
   */
  datatype ChatResponse = ChatResponse(
    chatId: Option<string>,
    success: bool,
    message: Option<Text>,
    parsedCommand: Option<ParsedCommand>,
    parsedCommands: Option<seq<ParsedCommand>>,
    operationsCount: nat)

  /** A reply with only chat id, success flag and message set. */
  function Reply(chatId: Option<string>, success: bool, message: Option<Text>): (r: ChatResponse)
    ensures r.chatId == chatId && r.success == success && r.message == message
    ensures r.operationsCount == 0 && r.parsedCommand.None? && r.parsedCommands.None?
  {
    ChatResponse(chatId, success, message, None, None, 0)
  }

  /** `response.setMessage(response.getMessage() + suffix)` on a non-null message. */
  function AppendMessage(r: ChatResponse, suffix: Text): (r': ChatResponse)
    requires r.message.Some?
    ensures r'.message == Some(r.message.value + suffix)
    ensures r' == r.(message := r'.message)
  {
    r.(message := Some(r.message.value + suffix))
  }
}

=== FILE: Wrappers.dfy ===
/** The Java `null` of an optional field or return value. */
module Wrappers {

  datatype Option<+T> = None | Some(value: T) {

    /** The value, or `default` when absent. */
    function GetOr(default: T): T {
      match this
      case Some(v) => v
      case None => default
    }
  }

  /** A Java result that either completes or throws. */
  datatype Result<+R, +E> = Success(value: R) | Failure(error: E)

  /** The given value when there is one, the current value otherwise. */
  function Prefer<T>(given: Option<T>, current: Option<T>): (r: Option<T>)
    ensures given.Some? ==> r == given
    ensures given.None? ==> r == current
  {
    if given.Some? then given else current
  }
}
